=== FILE: README.md ===
# windnode_abw post-processing, modelled in Dafny

This project models the table-to-table post-processing of the windnode_abw
energy-system model of the Anhalt-Bitterfeld-Wittenberg region:

- the reshaping of the solver's flat result map into flow, stationary
  variable and parameter tables, the aggregation of flow columns by a capture
  taken from the node name, the four-step extraction of time x municipality x
  technology tables and their post-joins, the split of the technical
  assumptions into producers and storages, and the per-municipality summary
  tables (`windnode_abw/analysis/tools.py`);
- the reduction of grid lines to capacities between substation regions, the
  region graph with its largest-component choice, and the preparation of the
  feed-in and demand time series (`windnode_abw/model/region/tools.py`);
- the derived views of `Region`: per-municipality sums over sectors or
  technologies, heating shares re-normalised without solar, PV potential
  areas with the proportional agricultural cap, WEC potential areas per
  scenario, and the demographic change since 2017
  (`windnode_abw/model/__init__.py`);
- the storage ratios, the node colour classifier, the household share rule
  of the DSM capacity and the threshold split of the split bar plot
  (`windnode_abw/tools/draw.py`).

Representation. A table is a sequence of (label, value) entries in column
order (`Tables`); the pandas group-by-sum is the generic `Tables.Collapse`,
whose contents are pinned down by the independent reference `KeySum`. A time
series is a `seq<real>` read through `At` (zero past its end). Regular
expressions are an abstract `Patterns.Engine` with the three operations the
code uses (`re.search` groups, `str.match` from the start, a full match); the
pattern texts are kept as data in the rule tables. Where a division can hit
zero, values are IEEE-like `Floats.Float` (finite, +inf, -inf, NaN), because
`fillna(0)` only repairs 0/0 and x/0 stays infinite. The number of timesteps is
a plain natural number `steps`. Missing keys and missing column levels become `Result` failures
(`KeyError`, `ValueError`, `IndexError`) rather than preconditions.

Modules, one per file: `Wrappers`, `Strings`, `Floats`, `Tables`, `NodeIds`,
`Patterns`, `ResultFrames`, `Aggregation`, `Extraction`, `FlowTables`,
`AgsTables`, `Parameters` (analysis tools), `Grid`, `Timeseries` (region
tools), `Region` (region views), `Draw` (drawing tools).

## Model

| member | source | states |
|---|---|---|
| Tables.Collapse | windnode_abw/analysis/tools.py:183-188 | a group-by yields each group key once, and a key appears exactly when some entry's key function yields it (non-matching entries are dropped) |
| Tables.CollapseLookup | windnode_abw/analysis/tools.py:183-188 | the value of each group is the reference sum `KeySum` of the entries with that key |
| Tables.CollapseTotal | windnode_abw/model/region/tools.py:72-76 | grouping preserves the grand total: the group values add up to the total of all entries whose key is defined |
| Floats.Div | windnode_abw/tools/draw.py:824-840 | IEEE division: finite quotient for a non-zero divisor, +inf / -inf for x/0 with x of that sign, NaN exactly for 0/0, NaN operands and inf/inf |
| Floats.Mul | windnode_abw/tools/draw.py:835 | IEEE product: finite for finite factors, NaN exactly for a NaN factor or 0 times an infinity |
| Floats.FillNa | windnode_abw/tools/draw.py:825 | `fillna(d)` replaces NaN by d and leaves every other value, infinities included, unchanged |
| Strings.RemoveLeading | windnode_abw/analysis/tools.py:343 | `str.replace(stub, "")` removes a leading occurrence of the stub and continues on the rest |
| Strings.RemoveAbsent | windnode_abw/analysis/tools.py:343 | replacing a stub that does not occur leaves the text unchanged |
| NodeIds.Parse | windnode_abw/analysis/tools.py:77-88 | splitting a node label `<kind>_<ags>_b<bus>_<tech>` yields a well-formed id (digit ags and bus, word tech) that formats back to the label |
| NodeIds.ParseFormat | windnode_abw/analysis/tools.py:77-88 | round trip: parsing the label of a well-formed id gives the id back |
| NodeIds.ParseInjective | windnode_abw/analysis/tools.py:77-88 | two labels that parse to the same id are the same label |
| ResultFrames.FlowColumns | windnode_abw/analysis/tools.py:32-36 | `flows` holds the flow series of exactly the entries that have a target node, keyed (from, to); a KeyError "flow" exactly when such an entry has no flow sequence |
| ResultFrames.VarColumns | windnode_abw/analysis/tools.py:37-42 | `vars_stat` holds one column (node, sequence name) per sequence column of exactly the entries without a target node |
| ResultFrames.ParamFlowColumns | windnode_abw/analysis/tools.py:43-47 | `params_flows` holds the scalars of exactly the parameter entries with a target node |
| ResultFrames.ParamStatRows | windnode_abw/analysis/tools.py:48-53 | `params_stat` holds every scalar row of the target-less parameter entries except the row `label`, and nothing else |
| ResultFrames.WithoutLabel | windnode_abw/analysis/tools.py:52 | filtering keeps exactly the rows not named `label` |
| ResultFrames.ResultsToDataframes | windnode_abw/analysis/tools.py:12-55 | the conversion succeeds exactly when every entry with a target node carries a flow sequence |
| Aggregation.FlowTables | windnode_abw/analysis/tools.py:182-188 | IndexError exactly when the flow table has no columns and some rule reads the target-node level; otherwise one table per flow rule under its title, where a capture is a column exactly when some flow's node name at the rule's level yields it |
| Aggregation.PresentVarTables | windnode_abw/analysis/tools.py:191-200 | a variable rule's table is present exactly when its variable occurs at level 1 of `vars_stat`, and it is the grouped sum of that variable's columns |
| Aggregation.VarTables | windnode_abw/analysis/tools.py:191-200 | IndexError exactly when `vars_stat` has no columns and there is a variable rule (the membership test reads level 1); otherwise the present tables as above |
| Aggregation.FlowTitlesDistinct | windnode_abw/analysis/tools.py:75-142 | the sixteen flow titles are pairwise distinct, so no flow table overwrites another |
| Aggregation.VarTitlesDistinct | windnode_abw/analysis/tools.py:148-177 | the seven variable titles are pairwise distinct |
| Aggregation.TitlesDisjoint | windnode_abw/analysis/tools.py:75-177 | no variable title equals a flow title |
| Aggregation.Aggregate | windnode_abw/analysis/tools.py:179-202 | IndexError exactly when an empty flow table meets a target-level rule or an empty variable table meets any variable rule; on success every flow title is in the result, and a variable title exactly when its variable occurs (a missing variable is no failure) |
| Aggregation.AggregateFlows | windnode_abw/analysis/tools.py:58-202 | with the code's rule tables: IndexError exactly when `flows` or `vars_stat` is empty, otherwise the titles as above |
| Aggregation.AggregateFlowSum | windnode_abw/analysis/tools.py:182-188 | in a successful aggregation, a flow table has a column for a capture exactly when some flow yields it, and its value at every timestep is the sum of those flows |
| Aggregation.AggregateVarSum | windnode_abw/analysis/tools.py:191-200 | in a successful aggregation, likewise for a variable table over the columns of that variable |
| Extraction.PerNodeKept | windnode_abw/analysis/tools.py:233-239 | after the filter and the sum over buses, a node name is present exactly when some kept column has it on the flow's in-side |
| Extraction.LongRowSum | windnode_abw/analysis/tools.py:239-254 | the long-format value for (timestep, dims) is the sum over all kept columns whose in-node splits into those dims; summing over buses then duplicates is one full reduction |
| Extraction.LongRowsArity | windnode_abw/analysis/tools.py:246-251 | every long-format index has one component per named group of the node pattern |
| Extraction.InsertDrop | windnode_abw/analysis/tools.py:256 | dropping the unstacked level and inserting its value back restores the index |
| Extraction.DropInsert | windnode_abw/analysis/tools.py:256 | inserting a level value and dropping it again restores the row key |
| Extraction.IndexOf | windnode_abw/analysis/tools.py:256 | the unstack level's position among the level names, absent exactly when the name is not a level |
| Extraction.WideRow | windnode_abw/analysis/tools.py:256 | a wide row holds the observed value for each column, and zeros (`fill_value=0`) for combinations never observed |
| Extraction.Unstack | windnode_abw/analysis/tools.py:255-256 | row keys lose the unstacked level, every row has the observed values of that level as columns, and each cell is the observed series or zeros |
| Extraction.UnstackRowsObserved | windnode_abw/analysis/tools.py:256 | every unstacked row key comes from an observed index |
| Extraction.UnstackRowsComplete | windnode_abw/analysis/tools.py:256 | every observed index yields an unstacked row |
| Extraction.UnstackColumns | windnode_abw/analysis/tools.py:256 | a value is a column exactly when some observed index has it at the unstacked level |
| Extraction.Extract | windnode_abw/analysis/tools.py:205-258 | fails with KeyError exactly when the unstack column is not a group; the result is wide exactly when an unstack column is given, with that level removed from the index names |
| Extraction.ExtractLongValue | windnode_abw/analysis/tools.py:239-254 | without unstacking, each index's series is the sum of the kept flows splitting into it, and only observed indices appear |
| Extraction.ExtractWideValue | windnode_abw/analysis/tools.py:254-256 | with unstacking, each cell is the sum of the kept flows splitting into the row key with the column inserted (zero when none) |
| FlowTables.ExtractorsUnstackable | windnode_abw/analysis/tools.py:277-328 | every extractor's unstack column is one of its node pattern's named groups |
| FlowTables.ToFrame | windnode_abw/analysis/tools.py:255-258 | a long result becomes one stub column, a wide result keeps its columns; rows and index names are carried over |
| FlowTables.Run | windnode_abw/analysis/tools.py:332 | one extraction gives a well-shaped table whose index names are the groups minus the unstacked one |
| FlowTables.Suffixed | windnode_abw/analysis/tools.py:340-342 | exactly the column names shared with the other table receive the suffix |
| FlowTables.Join | windnode_abw/analysis/tools.py:335 | a left join: ValueError exactly when columns overlap and no suffixes are given; left rows and values are kept, right values come by index or are missing |
| FlowTables.StripStub | windnode_abw/analysis/tools.py:343 | the stub is removed from every column name and nothing else changes |
| FlowTables.StorageColumns | windnode_abw/analysis/tools.py:340-343 | a stub with an underscore, suffixed and then stripped, leaves the names `discharge` and `charge` |
| FlowTables.Storage | windnode_abw/analysis/tools.py:339-345 | a storage table ends with exactly the columns `discharge` and `charge` |
| FlowTables.ExtractorsShape | windnode_abw/analysis/tools.py:277-328 | the extractor table has the names, stubs and unstack settings the joins rely on |
| FlowTables.HeatTable | windnode_abw/analysis/tools.py:335 | the PtH heat table is joined onto the heat table: ValueError exactly on a shared column, otherwise heat rows with the heat then PtH columns |
| FlowTables.JoinExtractions | windnode_abw/analysis/tools.py:330-347 | the joined result has exactly the six titles, `Wärmeerzeugung PtH` merged in and removed, storage tables with columns discharge and charge |
| FlowTables.JoinExtractionsNames | windnode_abw/analysis/tools.py:330-347 | each joined table keeps the index names of the extraction it comes from |
| FlowTables.FlowsTimeAgsTech | windnode_abw/analysis/tools.py:261-347 | the whole extraction yields the six titled tables or a ValueError from a join |
| AgsTables.RowTotals | windnode_abw/analysis/tools.py:393-398 | each cell is replaced by its sum over time, a missing cell counting as zero |
| AgsTables.Positions | windnode_abw/analysis/tools.py:393-398 | the positions of the requested levels, a KeyError exactly when one is not an index name |
| AgsTables.SumLevels | windnode_abw/analysis/tools.py:393-398 | `sum(level=...)` fails exactly when a level is unknown, and otherwise is indexed by those levels with the same columns |
| AgsTables.SumLevelsValue | windnode_abw/analysis/tools.py:393-398 | each summed row is the sum of the rows projecting onto it, and present exactly when one does |
| AgsTables.TotalOf | windnode_abw/analysis/tools.py:390-391 | a municipality's total over time, present exactly when it has a column |
| AgsTables.DemandRows | windnode_abw/analysis/tools.py:389-392 | the demand table has one row per municipality of either input, each with its power and heat totals or a missing value |
| AgsTables.SummedTable | windnode_abw/analysis/tools.py:393-398 | a summary exists exactly when the extracted table exists and has every requested level, and it is that table summed down to those levels (`SumLevels`, whose group totals `SumLevelsValue` states) |
| AgsTables.SumAll | windnode_abw/analysis/tools.py:393-398 | all summaries in order, failing exactly when one does |
| AgsTables.ResultsTablesAgs | windnode_abw/analysis/tools.py:385-400 | succeeds exactly when both demand aggregations and all summaries exist; the demand table comes first and holds the power and heat time totals of the two demand aggregations per municipality (`DemandRows`), then each summary under its title is its extracted table summed down to its levels |
| AgsTables.PowerNames | windnode_abw/analysis/tools.py:278-320 | the power generation and power demand tables are indexed by `ags` |
| AgsTables.HeatNames | windnode_abw/analysis/tools.py:282-327 | the heat generation and heat demand tables are indexed by (`level`, `ags`) |
| AgsTables.StorageNames | windnode_abw/analysis/tools.py:290-313 | both storage tables are indexed by (`level`, `ags`) |
| AgsTables.AggregatedDemand | windnode_abw/analysis/tools.py:85-192 | the aggregation succeeds whenever flows and stationary variables are present, and whenever it succeeds it provides the per-municipality power and heat demand tables |
| AgsTables.SummariesFit | windnode_abw/analysis/tools.py:393-398 | tables with these index names admit every requested level sum |
| AgsTables.PipelineSummaries | windnode_abw/analysis/tools.py:385-400 | fed by a successful aggregation and a successful extraction, the per-municipality tables never fail |
| Parameters.Select | windnode_abw/analysis/tools.py:355-360 | a row is selected exactly when whether its name starts with `stor_` matches the request |
| Parameters.SelectPartition | windnode_abw/analysis/tools.py:355-360 | producers and storages together are the assumption rows, as a multiset |
| Parameters.DropNamedColumns | windnode_abw/analysis/tools.py:360 | dropping a column keeps exactly the other column names |
| Parameters.DropColumn | windnode_abw/analysis/tools.py:360 | `drop` fails with KeyError exactly when the column is absent, otherwise removes it from every row |
| Parameters.Param | windnode_abw/analysis/tools.py:368-371 | a config parameter lookup fails with KeyError exactly when the technology or the parameter is missing |
| Parameters.ParamRow | windnode_abw/analysis/tools.py:367-371 | a technology's parameter list in column order, failing exactly when one lookup fails |
| Parameters.ConfigValues | windnode_abw/analysis/tools.py:366-371 | the four configured rows in order `th_cen_storage`, `th_dec_pth_storage`, `flex_bat_large`, `flex_bat_small`, the two heat storages read from the storage section and the two batteries from the flexibility section, each holding its values of the given parameters in their order; KeyError exactly when one of the four lacks a parameter |
| Parameters.ConfigRows | windnode_abw/analysis/tools.py:364-371 | the extra storage parameters: columns from `th_dec_pth_storage`, one row for each of the four storages holding that storage's configured values of those parameters in column order; KeyError exactly when the template is missing or a storage lacks a parameter |
| Parameters.JoinConfig | windnode_abw/analysis/tools.py:373-376 | the join fails with ValueError exactly on a shared column; otherwise every row gets its config values or missing values |
| Parameters.ExtraCells | windnode_abw/analysis/tools.py:373-376 | a row's joined cells are its config values when present and missing otherwise |
| Parameters.RenameRows | windnode_abw/analysis/tools.py:361 | every storage row is renamed through the name table, values unchanged |
| Parameters.StorageRows | windnode_abw/analysis/tools.py:359-361 | the storage rows in order, renamed, without `sys_eff`; KeyError exactly when `sys_eff` is absent |
| Parameters.StorageParams | windnode_abw/analysis/tools.py:358-376 | the storage table has one renamed row per `stor_` row, in order; its columns are the assumption columns without `sys_eff` followed by the configuration columns; each row keeps its assumption values and gets its configured values, or missing values for a storage without configuration; KeyError for `sys_eff` or a configuration lookup, ValueError exactly when a configuration parameter is also an assumption column |
| Parameters.AggregateParameters | windnode_abw/analysis/tools.py:350-382 | producers are exactly the rows not starting with `stor_`; the battery tables pass through; failure exactly when the storage table fails, with its error; the storages entry is that storage table |
| Grid.ReduceToRegions | windnode_abw/model/region/tools.py:55-76 | each substation pair once, in ascending order, and a pair appears exactly when some line joins the two regions (lines inside one region dropped) |
| Grid.PairKeySum | windnode_abw/model/region/tools.py:72-76 | the grouped capacity of a pair equals the reference sum of `s_nom` over the lines joining it in either direction |
| Grid.ReduceCapacity | windnode_abw/model/region/tools.py:72-76 | a pair's capacity is that sum when the regions are connected and absent otherwise |
| Grid.KeyedCross | windnode_abw/model/region/tools.py:61-76 | the capacity of lines with a defined pair is the cross-region capacity |
| Grid.ReduceTotal | windnode_abw/model/region/tools.py:61-76 | total cross-region capacity is preserved by the reduction |
| Grid.Edge | windnode_abw/model/region/tools.py:150 | an undirected edge is the same whichever end comes first |
| Grid.MissingId | windnode_abw/model/region/tools.py:140-147 | a substation id of some row that is not in the substation table, absent exactly when all ids are in it |
| Grid.Nodes | windnode_abw/model/region/tools.py:140-150 | the graph's nodes are exactly the ids at either end of some row |
| Grid.Edges | windnode_abw/model/region/tools.py:140-150 | the graph's edges are exactly the rows' id pairs, undirected |
| Grid.Build | windnode_abw/model/region/tools.py:140-150 | the built graph is a valid graph with those nodes and edges |
| Grid.RegionGraph | windnode_abw/model/region/tools.py:135-150 | a KeyError for an id missing from the substation table exactly when one exists; otherwise one undirected edge per line row |
| Grid.AdjacentSymmetric | windnode_abw/model/region/tools.py:150 | adjacency is symmetric |
| Grid.ReducedGraphEdges | windnode_abw/model/region/tools.py:140-150 | two regions are adjacent in the graph of the reduced lines exactly when some line connects them |
| Grid.BySize | windnode_abw/model/region/tools.py:119 | the size-keyed dict has a key for every component size and maps it to a component of that size |
| Grid.MaxSize | windnode_abw/model/region/tools.py:130 | the largest component size |
| Grid.BySizeKeys | windnode_abw/model/region/tools.py:119-121 | the dict has more than one key exactly when the components' sizes differ |
| Grid.FindMainGraphAsWritten | windnode_abw/model/region/tools.py:119-133 | as written: a component is returned exactly when sizes differ, and it is a largest one |
| Grid.FindMainGraphDropsConnectedGrid | windnode_abw/model/region/tools.py:119-133 | for one connected grid the code returns None where the largest component is meant |
| Grid.FindMainGraph | windnode_abw/model/region/tools.py:119-133 | corrected: a largest component is returned whenever there is a component |
| Grid.FindMainGraphAgrees | windnode_abw/model/region/tools.py:119-133 | where the code returns a component, the corrected version returns the same one |
| Grid.Induced | windnode_abw/model/region/tools.py:119 | a component subgraph keeps exactly the graph's edges inside the component |
| Grid.MainGraphAsWritten | windnode_abw/model/region/tools.py:152-154 | as written: with `rm_isolates` the result is the subgraph of a largest component when component sizes differ, and None in place of the graph otherwise |
| Grid.MainGraph | windnode_abw/model/region/tools.py:152-154 | corrected: with `rm_isolates`, the graph becomes the subgraph of the largest component, present whenever there is a component |
| Grid.MainGraphAgrees | windnode_abw/model/region/tools.py:152-154 | the two agree wherever the written code returns a graph; for a connected grid the written code returns None and the corrected one the grid itself |
| Timeseries.Weighted | windnode_abw/model/region/tools.py:374-376 | feed-in is the relative series times the municipality's capacity for the technology, at every timestep |
| Timeseries.ConventionalRatio | windnode_abw/model/region/tools.py:381-384 | the conventional capacity ratio is 1, or NaN when the municipality has no conventional capacity |
| Timeseries.Conventional | windnode_abw/model/region/tools.py:381-385 | conventional feed-in keeps a municipality's series exactly when its ratio is finite |
| Timeseries.ConventionalUnchanged | windnode_abw/model/region/tools.py:378-385 | with conventional capacity, the conventional series is passed through unchanged |
| Timeseries.Series | windnode_abw/model/region/tools.py:376 | a technology's initial series, KeyError exactly when it is missing |
| Timeseries.Assemble | windnode_abw/model/region/tools.py:373-388 | the result dict has the keys pv_ground, hydro, pv_roof, bio, conventional, wind in that order, each with its table |
| Timeseries.FeedinTimeseries | windnode_abw/model/region/tools.py:353-388 | fails with KeyError exactly when a needed series is missing; otherwise each key holds its capacity-weighted or conventional table |
| Timeseries.FeedinLookup | windnode_abw/model/region/tools.py:374-388 | every relative technology's weighted table is found under its output key, `wind_sq` under `wind` |
| Timeseries.RoofFeedin | windnode_abw/model/region/tools.py:354-376 | roof PV feed-in is what the small and the large roof capacity feed in together |
| Timeseries.SubFrame | windnode_abw/model/region/tools.py:418 | a sector's sub-table holds exactly the columns under that sector |
| Timeseries.Sectors | windnode_abw/model/region/tools.py:416 | the distinct top-level column names, each once |
| Timeseries.DemandTimeseries | windnode_abw/model/region/tools.py:415-420 | one entry per distinct sector, holding exactly that sector's columns |
| Timeseries.DemandColumnKept | windnode_abw/model/region/tools.py:415-420 | every initial demand column is found under its sector |
| Region.MunSum | windnode_abw/model/__init__.py:208-209 | a municipality's sum over the keys, KeyError exactly when one key's table lacks it |
| Region.AggPerMun | windnode_abw/model/__init__.py:204-210 | ValueError when a key is missing; otherwise one column per municipality holding the sum of its series over the keys |
| Region.PerMun | windnode_abw/model/__init__.py:207-210 | the per-municipality columns in municipality order; a KeyError naming an uncovered municipality exactly when there is one |
| Region.DemandAggPerMun | windnode_abw/model/__init__.py:191-210 | the sector version, with the message "At least 1 sector not found!" |
| Region.FeedinAggPerMun | windnode_abw/model/__init__.py:224-243 | the technology version, with the message "At least 1 technology not found!" |
| Region.KeysSumAtSplit | windnode_abw/model/__init__.py:208-209 | the sum over two key lists is the sum of the two sums |
| Region.AggPerMunSplit | windnode_abw/model/__init__.py:204-210 | aggregating over concatenated keys adds the two aggregations |
| Region.WithoutSolar | windnode_abw/model/__init__.py:294-295 | exactly the non-solar rows remain |
| Region.Rescale | windnode_abw/model/__init__.py:297-299 | each share is divided by its municipality's sum, with IEEE results when that sum is zero |
| Region.HeatingWithoutSolar | windnode_abw/model/__init__.py:284-299 | the rescaled structure has no solar row and one row per non-solar row, whose value is its share over its municipality's non-solar total (NaN or an infinity where that total is 0) |
| Region.RescaleShare | windnode_abw/model/__init__.py:297-299 | the rescaled shares of a municipality sum to its original sum divided by the scale sum |
| Region.HeatingSharesSumToOne | windnode_abw/model/__init__.py:289-299 | after removing solar, the shares of each municipality with a non-zero sum add up to 1 |
| Region.ScenarioAreas | windnode_abw/model/__init__.py:358-362 | exactly the area rows whose type ends in `_<scenario>` |
| Region.ScaledArea | windnode_abw/model/__init__.py:372-373 | agricultural areas are scaled by the factor, others are unchanged |
| Region.ScaleAgri | windnode_abw/model/__init__.py:366-373 | the scaled table keeps the row order and scales each area as above |
| Region.Capped | windnode_abw/model/__init__.py:365-375 | the restricted copy keeps every label and every non-agricultural area; with no limit, or an agricultural total within the limit, it equals the unrestricted areas; above the limit (non-zero total) each agricultural area is multiplied by limit / total |
| Region.PotAreasPvScn | windnode_abw/model/__init__.py:343-377 | None unless the lower-cased scenario is `hs` or `h`; the unrestricted table is the scenario filter; non-agricultural areas are unchanged; without a cap in force both tables agree; above a limit (with a non-zero agricultural total) every agricultural area is scaled by the same factor limit / total |
| Region.ScaleAgriTotal | windnode_abw/model/__init__.py:372 | scaling multiplies the agricultural total by the factor |
| Region.ScaleToLimit | windnode_abw/model/__init__.py:371-372 | scaling by limit over total brings the agricultural total to the limit |
| Region.PvAgriCapped | windnode_abw/model/__init__.py:368-375 | when the agricultural total exceeds a non-negative limit, the restricted agricultural areas sum to the limit |
| Region.PotAreasWecScn | windnode_abw/model/__init__.py:391-404 | None unless the lower-cased scenario is one of the five WEC scenarios; otherwise one row per municipality having an area of that scenario |
| Region.WecKeySum | windnode_abw/model/__init__.py:402-404 | the grouped area equals the reference sum of the scenario's areas of the municipality |
| Region.PotAreasWecValue | windnode_abw/model/__init__.py:399-404 | a municipality's WEC area is the sum of `area_ha` over its rows of that scenario |
| Region.Xs | windnode_abw/model/__init__.py:423-425 | KeyError exactly when the year has no rows; otherwise the cross-section holds exactly that year's rows |
| Region.Change | windnode_abw/model/__init__.py:423-426 | a municipality's change is its value divided by its 2017 value, NaN when it has none |
| Region.OnlyBase | windnode_abw/model/__init__.py:423-426 | municipalities only present in 2017 get NaN |
| Region.Align | windnode_abw/model/__init__.py:423-426 | the aligned division covers the union of both years' municipalities: the configured year's rows carry their ratio, and the municipalities only present in 2017 follow with NaN |
| Region.DemographyChange | windnode_abw/model/__init__.py:419-426 | KeyError for the configured year when it has no rows, else for 2017 when that has none; otherwise the change since 2017 for every municipality of either year, the ratio where both exist, and NaN for a municipality present only in 2017 |
| Region.DemographyChangeInverse | windnode_abw/model/__init__.py:423-426 | when a municipality of the configured year also has a 2017 row, the change exists, and multiplying the change by a non-zero 2017 value gives the configured year's value back |
| Region.DemographyChangeBaseYear | windnode_abw/model/__init__.py:423-426 | for the year 2017, when it has rows, the change exists and is 1, or NaN where the value is 0 |
| Draw.FullDischargeHours | windnode_abw/tools/draw.py:824-825 | discharge over discharge power; 0 for 0/0; +inf or -inf for x/0 |
| Draw.TotalCycles | windnode_abw/tools/draw.py:828-829 | discharge over capacity; 0 for 0/0; +inf or -inf for x/0 |
| Draw.CRate | windnode_abw/tools/draw.py:833-834 | the C-rate is power over capacity clamped to 1, never +inf |
| Draw.MaxCycles | windnode_abw/tools/draw.py:835-836 | max cycles are half the steps times the clamped C-rate, never NaN, at most steps / 2 |
| Draw.UtilizationRate | windnode_abw/tools/draw.py:839-840 | total over max cycles times 100, never NaN, 0 for 0/0 |
| Draw.Block | windnode_abw/tools/draw.py:843-845 | one block holds one ratio for every storage, labelled (storage, ratio name) |
| Draw.StorageRatios | windnode_abw/tools/draw.py:811-847 | the three ratio blocks side by side with the names `Full Discharge Hours`, `Total Cycles`, `Utilization Rate` |
| Draw.RatioLabels | windnode_abw/tools/draw.py:843-845 | a label is present exactly when it pairs a storage with one of the three ratio names |
| Draw.StorageRatiosLabels | windnode_abw/tools/draw.py:843-845 | the table's labels are exactly the storage and ratio pairs |
| Draw.FirstColor | windnode_abw/tools/draw.py:294-330 | the colour of the first prefix that matches, absent exactly when none matches |
| Draw.Colorize | windnode_abw/tools/draw.py:293-332 | a node is coloured exactly when some prefix matches it, with the first match's colour |
| Draw.SetNodeColors | windnode_abw/tools/draw.py:276-332 | the colour map's keys are graph nodes, each with the colour of its first matching prefix in the fixed order |
| Draw.HhShare | windnode_abw/tools/draw.py:1120-1125 | a share strictly between 0 and 1 is kept; any other truthy value becomes the scenario share; a falsy one becomes 1 |
| Draw.HhShareBounds | windnode_abw/tools/draw.py:1120-1125 | with a scenario share in (0, 1] the chosen share lies in (0, 1] |
| Draw.HhShareDefault | windnode_abw/tools/draw.py:1105-1123 | the default `True` selects the scenario share |
| Draw.DsmCap | windnode_abw/tools/draw.py:1127-1137 | the up and down capacities are both scaled by the same chosen share |
| Draw.SplitSide | windnode_abw/tools/draw.py:668-669 | one side keeps exactly the values below (left) or not below (right) the limit |
| Draw.SplitHbar | windnode_abw/tools/draw.py:668-669 | left values are below the limit and right values are at or above it |
| Draw.SplitHbarPartition | windnode_abw/tools/draw.py:668-669 | the two sides together are the data, as a multiset |

## Left out

- Plotting and rendering in `windnode_abw/tools/draw.py` (matplotlib, geopandas, the colour and print-name tables), `draw_graph`, `plot_*` and `sample_plots`: presentation only.
- `windnode_abw/run_scenario.py` and `windnode_abw/run_analysis.py`: command line, solver, process pool and file export. The infeasible-result argument passed to `results_to_dataframes` there does not exist in its definition, so nothing of it is modelled.
- `calc_line_loading` and `grid_graph`: they read oemof link and solver objects.
- `Region.__init__`, `Region.import_data` and the plain property getters: database import and wiring.
- `get_timesteps`: pandas date ranges; the number of timesteps is the parameter `steps`.
- `calc_dsm_cap_up` and `calc_dsm_cap_down`: their series are inputs to `Draw.DsmCap`; only the share rule and the scaling are modelled.
- The regular expression engine: `Patterns.Engine` is a parameter. `NodeIds` is a separate model of the node naming convention; nothing else calls it.
- NodeIds.Parse: it accepts only a label that is exactly `<kind>_<ags>_b<bus>_<tech>`, whereas the code's unanchored searches also find the shape inside longer labels; it states the convention, not what the aggregation's patterns capture.
- Connected components (networkx): `Grid.MainGraph` takes the components as an argument and does not check that they are the components of the graph.
- Logging (`logger.warning`), the graph drawing in `region_graph` and its `npos`/`elabels` dictionaries.
- Duplicate ids: bus ids and table labels are assumed distinct where pandas would index them (`Grid` keeps buses in a map).
- Tables.Add: series of different lengths are padded with zeros, where pandas aligns time indices and gives NaN; all series share one time axis here.
- Region.AggPerMun: assumes the sector or technology tables share one time index, as above.
- Region.FeedinAggPerMun: the feed-in tables are taken as real-valued and complete. The NaN columns that the feed-in preparation produces (a technology without conventional capacity, or a municipality with a capacity but no series) are not represented, so the NaN that Python's `sum` spreads into such a municipality's total is not modelled, and where pandas finds such a NaN column the model raises KeyError instead.
- Region.HeatingWithoutSolar: one share column is modelled; the source rescales every value column of the frame by that column's own municipality sum, so each column behaves exactly as the modelled one.
- Tables.Collapse: pandas `groupby(...).agg('sum')` sorts the group keys (windnode_abw/analysis/tools.py:183-188 and 195-200, windnode_abw/model/__init__.py:402-404), while `sum(level=...)` keeps them in order of first appearance; the model lists groups in order of first appearance and states contents and membership, not order.
- Extraction.Extract: the model succeeds with an empty table in two cases where the source fails. An empty flow table raises IndexError, because its flat columns have no level 1. A non-empty flow table in which no kept column fully matches `<stub>_<node pattern>` gives `pd.wide_to_long` nothing to melt, and the following `.str.extract` on its non-string suffix level raises AttributeError.
- FlowTables.FlowsTimeAgsTech: its contract names only the ValueError of a join; the IndexError and AttributeError that an extraction raises in the cases under Extraction.Extract are not modelled, so there the model yields tables with empty extractions.
- Extraction.SplitKey: `pd.wide_to_long` keeps a column that passes the start-anchored filter but does not fully match `<stub>_<node pattern>` as an extra id column, repeated on every row; the model drops such columns, so only fully matching node names reach the long table.
- FlowTables.ToFrame: for the same reason its column list (the stub, or the unstacked values) leaves out the extra id columns pandas would carry.
- FlowTables.Storage: the columns are exactly `discharge` and `charge` only when every kept node name fully matches the node pattern; otherwise pandas also carries the extra id columns described under Extraction.SplitKey.
- FlowTables.JoinExtractions: likewise, its column statements hold for extractions without such extra id columns.
- Extraction.Unstack: pandas sorts the unstacked rows and columns; the model keeps first-appearance order and states membership, not order.
- Grid.ReduceToRegions: the `sort_values` and group-by order of the rows is not modelled; rows appear in first-appearance order.
- Region.DemographyChange: pandas sorts the union of municipalities; the model lists the configured year's municipalities first, then those only present in 2017. Population and employees are modelled as one value column, since they are divided alike.
- Timeseries.Weighted: pandas aligns the series columns with the capacity index and would add NaN columns for municipalities that have a capacity but no series; the model keeps the series' columns only.
- Draw.SplitHbar: values are reals, so a NaN value (which pandas puts on neither side) is not modelled.
- Storage ratios at a zero divisor (windnode_abw/tools/draw.py:825-840): `fillna(0)` replaces only the NaN of 0/0, so x/0 with x non-zero stays +inf or -inf, as `Floats.Div` and `Floats.FillNa` state; no ratio is clamped to 0.

## Findings

| source | as written | input that shows it | evidently intended | confidence | as-written member | corrected member |
|---|---|---|---|---|---|---|
| windnode_abw/model/region/tools.py:119-133 | `_find_main_graph` keys components by size and returns a subgraph only when there is more than one distinct size; otherwise it falls through and returns None, which `region_graph` then returns as the graph | one connected grid with the component {1, 2} (also any grid whose components all have the same size) | return the largest component whenever there is one | not executed | Grid.FindMainGraphAsWritten, Grid.FindMainGraphDropsConnectedGrid, Grid.MainGraphAsWritten | Grid.FindMainGraph, Grid.MainGraph |

=== FILE: aggregation.dfy ===
/**
 * `aggregate_flows`: named group-by-sum views of the flow and variable
 * tables. Each flow rule takes one column level, extracts the pattern's
 * capture from the node name and sums the columns sharing a capture;
 * columns whose name does not match are dropped. Each variable rule does
 * the same over the columns of one stationary variable, and is present
 * only when that variable occurs at all.
 */
module Aggregation {
  import opened Wrappers
  import opened Tables
  import opened Patterns
  import opened ResultFrames

  datatype FlowRule = FlowRule(title: string, pattern: string, level: Level)

  datatype VarRule = VarRule(title: string, pattern: string, variable: string)

  type Table = seq<(string, Series)>

  const FlowRules: seq<FlowRule> := [
    FlowRule("Stromerzeugung nach Technologie", @"gen_el_\d+_b\d+_(\w+)", From),
    FlowRule("Strombedarf nach Sektor", @"dem_el_\d+_b\d+_(\w+)", To),
    FlowRule("Strombedarf nach Gemeinde", @"dem_el_(\d+)_b\d+_\w+", To),
    FlowRule("Wärmeerzeugung dezentral nach Technologie", @"gen_th_dec_\d+_\w+_(\w+)", From),
    FlowRule("Wärmeerzeugung dezentral nach Sektor", @"gen_th_dec_\d+_((?:hh_efh|hh_mfh|rca))_\w+", From),
    FlowRule("Wärmebedarf nach Sektor", @"dem_th_(?:dec|cen)_\d+_(\w+)", To),
    FlowRule("Wärmebedarf nach Gemeinde", @"dem_th_\w+_(\d+)_\w+", To),
    FlowRule("Wärmeerzeugung Wärmepumpen nach Technologie", @"flex_dec_pth_((?:A|G)SHP)_\d+_\w+", From),
    FlowRule("Wärmeerzeugung Heizstäbe nach Gemeinde", @"flex_cen_pth_(\d+)", From),
    FlowRule("Strombedarf Haushalte mit DSM nach Gemeinde", @"flex_dsm_(\d+)_b\d+", To),
    FlowRule("Großbatterien: Einspeicherung nach Gemeinde", @"flex_bat_large_(\d+)_b\d+", To),
    FlowRule("Großbatterien: Ausspeicherung nach Gemeinde", @"flex_bat_large_(\d+)_b\d+", From),
    FlowRule("PV-Batteriespeicher: Einspeicherung nach Gemeinde", @"flex_bat_small_(\d+)_b\d+", To),
    FlowRule("PV-Batteriespeicher: Ausspeicherung nach Gemeinde", @"flex_bat_small_(\d+)_b\d+", From),
    FlowRule("Stromexport nach Spannungsebene", @"excess_el_(\w+)_b\d+", To),
    FlowRule("Stromimport nach Spannungsebene", @"shortage_el_(\w+)_b\d+", From)
  ]

  const VarRules: seq<VarRule> := [
    VarRule("Lasterhöhung DSM Haushalte nach Gemeinde", @"flex_dsm_(\d+)_b\d+", "dsm_up"),
    VarRule("Lastreduktion DSM Haushalte nach Gemeinde", @"flex_dsm_(\d+)_b\d+", "dsm_do"),
    VarRule("Speicherfüllstand Großbatterien nach Gemeinde", @"flex_bat_large_(\d+)_b\d+", "capacity"),
    VarRule("Speicherfüllstand PV-Batteriespeicher nach Gemeinde", @"flex_bat_small_(\d+)_b\d+", "capacity"),
    VarRule("Speicherfüllstand dezentrale Wärmespeicher (Wärmepumpen) nach Sektor", @"stor_th_dec_pth_\d+_((?:hh_efh|hh_mfh|rca))", "capacity"),
    VarRule("Speicherfüllstand dezentrale Wärmespeicher (Wärmepumpen) nach Gemeinde", @"stor_th_dec_pth_(\d+)_(?:hh_efh|hh_mfh|rca)", "capacity"),
    VarRule("Speicherfüllstand zentrale Wärmespeicher nach Gemeinde", @"stor_th_cen_(\d+)", "capacity")
  ]

  /** Group key of a flow rule: the capture of its pattern in the name at its level. */
  function FlowKey(engine: Engine, rule: FlowRule): Label -> Option<string> {
    (l: Label) => Capture(engine, rule.pattern, NameAt(l, rule.level))
  }

  /** Group key of a variable rule: columns of other variables have none. */
  function VarKey(engine: Engine, rule: VarRule): Label -> Option<string> {
    (l: Label) => if l.1 == rule.variable then Capture(engine, rule.pattern, l.0) else None
  }

  /** `variable` occurs at level 1 of the variable table. */
  predicate HasVariable(vars: seq<(Label, Series)>, variable: string) {
    exists i :: 0 <= i < |vars| && vars[i].0.1 == variable
  }

  predicate DistinctVarTitles(rules: seq<VarRule>) {
    forall i, j :: 0 <= i < j < |rules| ==> rules[i].title != rules[j].title
  }

  /**
   * The error pandas raises when a column level beyond the first is asked
   * of a frame built from an empty dictionary, whose columns are flat.
   */
  const TooManyLevels := "Too many levels: Index has only 1 level, not 2"

  /** Some flow rule groups by the target node, i.e. column level 1. */
  predicate UsesTargetLevel(rules: seq<FlowRule>) {
    exists k :: 0 <= k < |rules| && rules[k].level == To
  }

  /**
   * One table per flow rule, in rule order; a capture labels a column iff
   * some flow yields it. A flow table without columns has no level 1, so
   * a rule grouping by the target node raises IndexError.
   */
  function FlowTables(engine: Engine, flows: seq<(Label, Series)>, rules: seq<FlowRule>): (r: Result<seq<(string, Table)>>)
    ensures r.Failure? <==> |flows| == 0 && UsesTargetLevel(rules)
    ensures r.Failure? ==> r.error == IndexError(TooManyLevels)
    ensures r.Success? ==> |r.value| == |rules|
    ensures r.Success? ==> forall k :: 0 <= k < |rules| ==> r.value[k].0 == rules[k].title
    ensures r.Success? ==> forall k, g :: 0 <= k < |rules| ==> (HasLabel(r.value[k].1, g) <==> Matched(flows, FlowKey(engine, rules[k]), g))
  {
    if |flows| == 0 && UsesTargetLevel(rules) then Failure(IndexError(TooManyLevels))
    else Success(seq(|rules|, k requires 0 <= k < |rules| => (rules[k].title, Collapse(flows, FlowKey(engine, rules[k]), Add))))
  }

  /**
   * One table per variable rule whose variable occurs; the others are
   * skipped without failing.
   */
  function PresentVarTables(engine: Engine, vars: seq<(Label, Series)>, rules: seq<VarRule>): (r: seq<(string, Table)>)
    requires DistinctVarTitles(rules)
    ensures forall k :: 0 <= k < |rules| ==> (HasLabel(r, rules[k].title) <==> HasVariable(vars, rules[k].variable))
    ensures forall e :: e in r ==>
      exists k :: 0 <= k < |rules| && HasVariable(vars, rules[k].variable) &&
        e == (rules[k].title, Collapse(vars, VarKey(engine, rules[k]), Add))
    decreases |rules|
  {
    if |rules| == 0 then []
    else
      var rest := PresentVarTables(engine, vars, rules[1..]);
      assert forall k :: 1 <= k < |rules| ==> rules[k] == rules[1..][k - 1];
      if HasVariable(vars, rules[0].variable) then
        var r := [(rules[0].title, Collapse(vars, VarKey(engine, rules[0]), Add))] + rest;
        assert r[0].0 == rules[0].title;
        HasLabelAppend(r[..1], rest);
        assert r == r[..1] + rest;
        assert forall g :: HasLabel(r[..1], g) <==> g == rules[0].title;
        forall i | 0 <= i < |rest|
          ensures rest[i].0 != rules[0].title
        {
          assert rest[i] in rest;
        }
        r
      else
        forall i | 0 <= i < |rest|
          ensures rest[i].0 != rules[0].title
        {
          assert rest[i] in rest;
        }
        rest
  }

  /**
   * The variable rule tables. The membership test reads level 1 of the
   * variable table's columns, which an empty table does not have, so any
   * rule at all raises IndexError there.
   */
  function VarTables(engine: Engine, vars: seq<(Label, Series)>, rules: seq<VarRule>): (r: Result<seq<(string, Table)>>)
    requires DistinctVarTitles(rules)
    ensures r.Failure? <==> |vars| == 0 && |rules| > 0
    ensures r.Failure? ==> r.error == IndexError(TooManyLevels)
    ensures r.Success? ==> forall k :: 0 <= k < |rules| ==> (HasLabel(r.value, rules[k].title) <==> HasVariable(vars, rules[k].variable))
    ensures r.Success? ==> forall e :: e in r.value ==>
      exists k :: 0 <= k < |rules| && HasVariable(vars, rules[k].variable) &&
        e == (rules[k].title, Collapse(vars, VarKey(engine, rules[k]), Add))
  {
    if |vars| == 0 && |rules| > 0 then Failure(IndexError(TooManyLevels))
    else Success(PresentVarTables(engine, vars, rules))
  }

  /** Titles are distinct within each rule table and between the two tables. */
  predicate RulesOk(flowRules: seq<FlowRule>, varRules: seq<VarRule>) {
    && (forall i, j :: 0 <= i < j < |flowRules| ==> flowRules[i].title != flowRules[j].title)
    && DistinctVarTitles(varRules)
    && (forall i, j :: 0 <= i < |flowRules| && 0 <= j < |varRules| ==> flowRules[i].title != varRules[j].title)
  }

  lemma FlowTitlesDistinct()
    ensures forall i, j :: 0 <= i < j < |FlowRules| ==> FlowRules[i].title != FlowRules[j].title
  {
  }

  lemma VarTitlesDistinct()
    ensures DistinctVarTitles(VarRules)
  {
  }

  lemma TitlesDisjoint()
    ensures forall i, j :: 0 <= i < |FlowRules| && 0 <= j < |VarRules| ==> FlowRules[i].title != VarRules[j].title
  {
  }

  lemma RulesOkConst()
    ensures RulesOk(FlowRules, VarRules)
  {
    FlowTitlesDistinct();
    VarTitlesDistinct();
    TitlesDisjoint();
  }

  /**
   * The flow rule tables followed by the variable rule tables that are
   * present; the flow tables are built first, so their error wins.
   */
  function Aggregate(engine: Engine, frames: Frames<real>, flowRules: seq<FlowRule>, varRules: seq<VarRule>): (r: Result<seq<(string, Table)>>)
    requires RulesOk(flowRules, varRules)
    ensures r.Failure? <==> (|frames.flows| == 0 && UsesTargetLevel(flowRules)) || (|frames.varsStat| == 0 && |varRules| > 0)
    ensures r.Failure? ==> r.error == IndexError(TooManyLevels)
    ensures r.Success? ==> forall k :: 0 <= k < |flowRules| ==> HasLabel(r.value, flowRules[k].title)
    ensures r.Success? ==> forall k :: 0 <= k < |varRules| ==> (HasLabel(r.value, varRules[k].title) <==> HasVariable(frames.varsStat, varRules[k].variable))
  {
    var a :- FlowTables(engine, frames.flows, flowRules);
    var b :- VarTables(engine, frames.varsStat, varRules);
    HasLabelAppend(a, b);
    forall k | 0 <= k < |flowRules|
      ensures HasLabel(a, flowRules[k].title)
    {
      assert a[k].0 == flowRules[k].title;
    }
    forall k | 0 <= k < |varRules|
      ensures !HasLabel(a, varRules[k].title)
    {
      forall i | 0 <= i < |a|
        ensures a[i].0 != varRules[k].title
      {
        assert a[i].0 == flowRules[i].title;
      }
    }
    Success(a + b)
  }

  /**
   * `aggregate_flows` with the rule tables of the analysis: it fails
   * exactly when the flow table or the variable table has no columns.
   */
  function AggregateFlows(engine: Engine, frames: Frames<real>): (r: Result<seq<(string, Table)>>)
    ensures r.Failure? <==> |frames.flows| == 0 || |frames.varsStat| == 0
    ensures r.Failure? ==> r.error == IndexError(TooManyLevels)
    ensures r.Success? ==> forall k :: 0 <= k < |FlowRules| ==> HasLabel(r.value, FlowRules[k].title)
    ensures r.Success? ==> forall k :: 0 <= k < |VarRules| ==> (HasLabel(r.value, VarRules[k].title) <==> HasVariable(frames.varsStat, VarRules[k].variable))
  {
    RulesOkConst();
    assert FlowRules[1].level == To;
    Aggregate(engine, frames, FlowRules, VarRules)
  }

  /**
   * Each flow rule's table: a capture is a column iff some flow's name at
   * the rule's level yields it, and that column at timestep `t` is the sum
   * at `t` of all those flows.
   */
  lemma AggregateFlowSum(engine: Engine, frames: Frames<real>, flowRules: seq<FlowRule>, varRules: seq<VarRule>, k: nat, g: string, t: int)
    requires RulesOk(flowRules, varRules)
    requires k < |flowRules|
    requires Aggregate(engine, frames, flowRules, varRules).Success?
    ensures var tab := Lookup(Aggregate(engine, frames, flowRules, varRules).value, flowRules[k].title);
      var key := FlowKey(engine, flowRules[k]);
      && tab.Some?
      && (Lookup(tab.value, g).Some? <==> Matched(frames.flows, key, g))
      && (Matched(frames.flows, key, g) ==> At(Lookup(tab.value, g).value, t) == SumAt(frames.flows, key, g, t))
  {
    var a := FlowTables(engine, frames.flows, flowRules).value;
    var b := VarTables(engine, frames.varsStat, varRules).value;
    assert Aggregate(engine, frames, flowRules, varRules).value == a + b;
    LookupDistinct(a, k);
    assert HasLabel(a, flowRules[k].title) by {
      assert a[k].0 == flowRules[k].title;
    }
    LookupAppend(a, b, flowRules[k].title);
    CollapseSumAt(frames.flows, FlowKey(engine, flowRules[k]), g, t);
  }

  /**
   * Each variable rule's table, when present: a capture is a column iff some
   * column of that variable yields it, with the pointwise sum as value.
   */
  lemma AggregateVarSum(engine: Engine, frames: Frames<real>, flowRules: seq<FlowRule>, varRules: seq<VarRule>, k: nat, g: string, t: int)
    requires RulesOk(flowRules, varRules)
    requires k < |varRules|
    requires HasVariable(frames.varsStat, varRules[k].variable)
    requires Aggregate(engine, frames, flowRules, varRules).Success?
    ensures var tab := Lookup(Aggregate(engine, frames, flowRules, varRules).value, varRules[k].title);
      var key := VarKey(engine, varRules[k]);
      && tab.Some?
      && (Lookup(tab.value, g).Some? <==> Matched(frames.varsStat, key, g))
      && (Matched(frames.varsStat, key, g) ==> At(Lookup(tab.value, g).value, t) == SumAt(frames.varsStat, key, g, t))
  {
    var a := FlowTables(engine, frames.flows, flowRules).value;
    var b := VarTables(engine, frames.varsStat, varRules).value;
    assert Aggregate(engine, frames, flowRules, varRules).value == a + b;
    var title := varRules[k].title;
    forall i | 0 <= i < |a|
      ensures a[i].0 != title
    {
      assert a[i].0 == flowRules[i].title;
    }
    LookupAppend(a, b, title);
    var i :| 0 <= i < |b| && b[i] == (title, Lookup(b, title).value);
    assert b[i] in b;
    var j :| 0 <= j < |varRules| && HasVariable(frames.varsStat, varRules[j].variable) &&
      b[i] == (varRules[j].title, Collapse(frames.varsStat, VarKey(engine, varRules[j]), Add));
    assert j == k;
    CollapseSumAt(frames.varsStat, VarKey(engine, varRules[k]), g, t);
  }
}

=== FILE: ags_tables.dfy ===
/**
 * `results_tables_ags`: municipality summaries. Energy demand per
 * municipality puts the time totals of the power and heat demand
 * aggregations side by side; the other six tables sum an extracted table
 * over every index level except the named ones (timesteps included).
 */
module AgsTables {
  import opened Wrappers
  import opened Tables
  import opened Extraction
  import opened FlowTables
  import opened Patterns
  import opened ResultFrames
  import Aggregation

  /** A table summed down to the named levels: per group of their values, one total per column (by column position). */
  datatype Summary = Summary(names: seq<string>, columns: seq<string>, rows: seq<(Dims, Series)>)

  /** Power and heat demand totals of one municipality; None where that table has no such column (NaN). */
  type DemandRow = (string, (Option<real>, Option<real>))

  datatype AgsTable = Demand(rows: seq<DemandRow>) | Summed(summary: Summary)

  /** `sum` over time of one cell; a NaN column contributes nothing. */
  function CellTotal(c: Option<Series>): real {
    match c
    case Some(s) => Total(s)
    case None => 0.0
  }

  /** Every row of a frame reduced to its column totals, as a series indexed by column. */
  function RowTotals(f: Frame): (r: seq<(Dims, Series)>)
    ensures |r| == |f.rows|
    ensures forall i :: 0 <= i < |f.rows| ==> r[i].0 == f.rows[i].0 && |r[i].1| == |f.rows[i].1|
    ensures forall i, j :: 0 <= i < |f.rows| && 0 <= j < |f.rows[i].1| ==> At(r[i].1, j) == CellTotal(f.rows[i].1[j])
  {
    seq(|f.rows|, i requires 0 <= i < |f.rows| =>
      (f.rows[i].0, seq(|f.rows[i].1|, j requires 0 <= j < |f.rows[i].1| => CellTotal(f.rows[i].1[j]))))
  }

  /** Positions of the named levels among the index names; KeyError for the first one missing. */
  function Positions(names: seq<string>, levels: seq<string>): (r: Result<seq<nat>>)
    ensures r.Success? <==> forall l :: l in levels ==> l in names
    ensures r.Failure? ==> r.error.KeyError? && r.error.key in levels && r.error.key !in names
    ensures r.Success? ==> |r.value| == |levels|
    ensures r.Success? ==> forall k :: 0 <= k < |levels| ==> r.value[k] < |names| && names[r.value[k]] == levels[k]
  {
    if |levels| == 0 then Success([])
    else
      match IndexOf(names, levels[0])
      case None => Failure(KeyError(levels[0]))
      case Some(p) =>
        var rest :- Positions(names, levels[1..]);
        assert forall k :: 1 <= k < |levels| ==> levels[k] == levels[1..][k - 1];
        Success([p] + rest)
  }

  /** The values of a row at the given positions; None when the row is too short. */
  function Project(d: Dims, ps: seq<nat>): Option<Dims> {
    if forall k :: 0 <= k < |ps| ==> ps[k] < |d| then
      Some(seq(|ps|, k requires 0 <= k < |ps| => d[ps[k]]))
    else None
  }

  /**
   * `sum(level=levels)`. Fails with KeyError when a level is not an index
   * name; otherwise the index names become `levels` and the columns stay.
   */
  function SumLevels(f: Frame, levels: seq<string>): (r: Result<Summary>)
    ensures r.Success? <==> forall l :: l in levels ==> l in f.names
    ensures r.Failure? ==> r.error.KeyError?
    ensures r.Success? ==> r.value.names == levels && r.value.columns == f.columns
  {
    var ps :- Positions(f.names, levels);
    Success(Summary(levels, f.columns, Collapse(RowTotals(f), (d: Dims) => Project(d, ps), Add)))
  }

  /** The group key `sum(level=levels)` gives each row; defined when the levels exist. */
  function LevelKey(f: Frame, levels: seq<string>): Dims -> Option<Dims>
    requires forall l :: l in levels ==> l in f.names
  {
    var ps := Positions(f.names, levels).value;
    (d: Dims) => Project(d, ps)
  }

  /**
   * Each group of `sum(level=levels)` exists iff some row has those values
   * at the named levels, and its total in column `j` is the sum, over those
   * rows, of the column's time totals.
   */
  lemma SumLevelsValue(f: Frame, levels: seq<string>, g: Dims, j: int)
    requires forall l :: l in levels ==> l in f.names
    ensures var rows := SumLevels(f, levels).value.rows;
      && (Lookup(rows, g).Some? <==> Matched(RowTotals(f), LevelKey(f, levels), g))
      && (Matched(RowTotals(f), LevelKey(f, levels), g) ==> At(Lookup(rows, g).value, j) == SumAt(RowTotals(f), LevelKey(f, levels), g, j))
  {
    CollapseSumAt(RowTotals(f), LevelKey(f, levels), g, j);
  }

  /** Time total of a municipality's column, None when the table lacks it. */
  function TotalOf(t: seq<(string, Series)>, ags: string): (r: Option<real>)
    ensures r.Some? <==> HasLabel(t, ags)
    ensures r.Some? ==> r.value == Total(Lookup(t, ags).value)
  {
    match Lookup(t, ags)
    case Some(s) => Some(Total(s))
    case None => None
  }

  /**
   * `pd.concat` of the two column-total series: one row per municipality of
   * either table, NaN (None) where one table lacks it.
   */
  function DemandRows(power: seq<(string, Series)>, heat: seq<(string, Series)>): (r: seq<DemandRow>)
    ensures forall a :: (exists i :: 0 <= i < |r| && r[i].0 == a) <==> HasLabel(power, a) || HasLabel(heat, a)
    ensures forall i :: 0 <= i < |r| ==> r[i].1 == (TotalOf(power, r[i].0), TotalOf(heat, r[i].0))
    ensures forall i, j :: 0 <= i < j < |r| ==> r[i].0 != r[j].0
  {
    var keys := Distinct(Labels(power) + Labels(heat));
    forall a
      ensures a in keys <==> HasLabel(power, a) || HasLabel(heat, a)
    {
      if HasLabel(power, a) {
        var i :| 0 <= i < |power| && power[i].0 == a;
        assert (Labels(power) + Labels(heat))[i] == a;
      }
      if HasLabel(heat, a) {
        var i :| 0 <= i < |heat| && heat[i].0 == a;
        assert (Labels(power) + Labels(heat))[|power| + i] == a;
      }
      if a in keys {
        var i :| 0 <= i < |Labels(power) + Labels(heat)| && (Labels(power) + Labels(heat))[i] == a;
        if i < |power| {
          assert power[i].0 == a;
        } else {
          assert heat[i - |power|].0 == a;
        }
      }
    }
    var r := seq(|keys|, i requires 0 <= i < |keys| => (keys[i], (TotalOf(power, keys[i]), TotalOf(heat, keys[i]))));
    forall a
      ensures (exists i :: 0 <= i < |r| && r[i].0 == a) <==> a in keys
    {
      if a in keys {
        var i :| 0 <= i < |keys| && keys[i] == a;
        assert r[i].0 == a;
      }
    }
    r
  }

  /** The six summed tables: output title, extracted table, levels kept. */
  const Summaries: seq<(string, string, seq<string>)> := [
    ("Stromerzeugung nach Gemeinde", "Stromerzeugung", ["ags"]),
    ("Stromnachfrage nach Gemeinde", "Stromnachfrage", ["ags"]),
    ("Wärmeerzeugung nach Gemeinde", "Wärmeerzeugung", ["level", "ags"]),
    ("Wärmenachfrage nach Gemeinde", "Wärmenachfrage", ["level", "ags"]),
    ("Wärmespeicher nach Gemeinde", "Wärmespeicher", ["level", "ags"]),
    ("Batteriespeicher nach Gemeinde", "Batteriespeicher", ["level", "ags"])]

  const DemandTitle := "Energienachfrage nach Gemeinde"

  /** Looks a table up and sums it down to `levels`; KeyError when either is missing. */
  function SummedTable(extracted: seq<(string, Frame)>, title: string, levels: seq<string>): (r: Result<AgsTable>)
    ensures r.Success? <==> HasLabel(extracted, title) && forall l :: l in levels ==> l in Lookup(extracted, title).value.names
    ensures r.Failure? ==> r.error.KeyError?
    ensures r.Success? ==> r.value.Summed? && r.value.summary.names == levels
    ensures r.Success? ==> r.value == Summed(SumLevels(Lookup(extracted, title).value, levels).value)
  {
    match Lookup(extracted, title)
    case None => Failure(KeyError(title))
    case Some(f) =>
      var s :- SumLevels(f, levels);
      Success(Summed(s))
  }

  /** The summed tables in order; the first failure is raised. */
  function SumAll(extracted: seq<(string, Frame)>, specs: seq<(string, string, seq<string>)>): (r: Result<seq<(string, AgsTable)>>)
    ensures r.Success? <==> forall k :: 0 <= k < |specs| ==> SummedTable(extracted, specs[k].1, specs[k].2).Success?
    ensures r.Failure? ==> r.error.KeyError?
    ensures r.Success? ==> |r.value| == |specs|
    ensures r.Success? ==> forall k :: 0 <= k < |specs| ==> r.value[k] == (specs[k].0, SummedTable(extracted, specs[k].1, specs[k].2).value)
  {
    if |specs| == 0 then Success([])
    else
      var t :- SummedTable(extracted, specs[0].1, specs[0].2);
      var rest :- SumAll(extracted, specs[1..]);
      assert forall k :: 1 <= k < |specs| ==> specs[k] == specs[1..][k - 1];
      Success([(specs[0].0, t)] + rest)
  }

  /**
   * `results_tables_ags`. Fails with KeyError when an input table or a
   * summed level is missing; otherwise holds energy demand followed by the
   * six summed tables, each summed down to its levels.
   */
  function ResultsTablesAgs(aggregated: seq<(string, seq<(string, Series)>)>, extracted: seq<(string, Frame)>): (r: Result<seq<(string, AgsTable)>>)
    ensures r.Failure? ==> r.error.KeyError?
    ensures r.Success? <==>
      && HasLabel(aggregated, "Strombedarf nach Gemeinde") && HasLabel(aggregated, "Wärmebedarf nach Gemeinde")
      && forall k :: 0 <= k < |Summaries| ==> SummedTable(extracted, Summaries[k].1, Summaries[k].2).Success?
    ensures r.Success? ==> |r.value| == 1 + |Summaries| && r.value[0].0 == DemandTitle
    ensures r.Success? ==> forall k :: 0 <= k < |Summaries| ==>
      r.value[k + 1].0 == Summaries[k].0 && r.value[k + 1].1.Summed? && r.value[k + 1].1.summary.names == Summaries[k].2
    ensures r.Success? ==>
      r.value[0].1 == Demand(DemandRows(Lookup(aggregated, "Strombedarf nach Gemeinde").value, Lookup(aggregated, "Wärmebedarf nach Gemeinde").value))
    ensures r.Success? ==> forall k :: 0 <= k < |Summaries| ==>
      r.value[k + 1] == (Summaries[k].0, SummedTable(extracted, Summaries[k].1, Summaries[k].2).value)
  {
    var power :- Lookup(aggregated, "Strombedarf nach Gemeinde").ToResult(KeyError("Strombedarf nach Gemeinde"));
    var heat :- Lookup(aggregated, "Wärmebedarf nach Gemeinde").ToResult(KeyError("Wärmebedarf nach Gemeinde"));
    var summed :- SumAll(extracted, Summaries);
    var t := [(DemandTitle, Demand(DemandRows(power, heat)))] + summed;
    assert forall k :: 0 <= k < |Summaries| ==> t[k + 1] == summed[k];
    Success(t)
  }

  /** The groups of an extraction that unstacks its last group of two. */
  lemma UnstackSecond(rule: ExtractRule, a: string, b: string)
    requires rule.groups == [a, b] && rule.unstack == Some(b) && a != b
    ensures DropAt(rule.groups, IndexOf(rule.groups, rule.unstack.value).value) == [a]
  {
    assert IndexOf(rule.groups, b) == Some(1);
    DropLast(rule.groups);
  }

  /** The groups of an extraction that unstacks its last group of three. */
  lemma UnstackThird(rule: ExtractRule, a: string, b: string, c: string)
    requires rule.groups == [a, b, c] && rule.unstack == Some(c) && a != c && b != c
    ensures DropAt(rule.groups, IndexOf(rule.groups, rule.unstack.value).value) == [a, b]
  {
    assert IndexOf(rule.groups, c) == Some(2);
    DropLast(rule.groups);
  }

  lemma PowerNames(engine: Engine, flows: seq<(Label, Series)>, steps: nat)
    requires EngineFits(engine, Extractors)
    requires FlowsTimeAgsTech(engine, flows, steps).Success?
    ensures var r := FlowsTimeAgsTech(engine, flows, steps).value;
      r[0].1.names == ["ags"] && r[2].1.names == ["ags"]
  {
    ExtractorsShape();
    JoinExtractionsNames(engine, Extractors, flows, steps);
    UnstackSecond(Extractors[0].1, "ags", "technology");
    UnstackSecond(Extractors[7].1, "ags", "sector");
  }

  lemma HeatNames(engine: Engine, flows: seq<(Label, Series)>, steps: nat)
    requires EngineFits(engine, Extractors)
    requires FlowsTimeAgsTech(engine, flows, steps).Success?
    ensures var r := FlowsTimeAgsTech(engine, flows, steps).value;
      r[1].1.names == ["level", "ags"] && r[3].1.names == ["level", "ags"]
  {
    ExtractorsShape();
    JoinExtractionsNames(engine, Extractors, flows, steps);
    UnstackThird(Extractors[1].1, "level", "ags", "technology");
    UnstackThird(Extractors[8].1, "level", "ags", "sector");
  }

  lemma StorageNames(engine: Engine, flows: seq<(Label, Series)>, steps: nat)
    requires EngineFits(engine, Extractors)
    requires FlowsTimeAgsTech(engine, flows, steps).Success?
    ensures var r := FlowsTimeAgsTech(engine, flows, steps).value;
      r[4].1.names == ["level", "ags"] && r[5].1.names == ["level", "ags"]
  {
    ExtractorsShape();
    JoinExtractionsNames(engine, Extractors, flows, steps);
  }

  /**
   * Whenever the aggregation succeeds, that is whenever neither the flow
   * nor the variable table is empty, it holds the two
   * demand-per-municipality tables.
   */
  lemma AggregatedDemand(engine: Engine, frames: Frames<real>)
    ensures |frames.flows| > 0 && |frames.varsStat| > 0 ==> Aggregation.AggregateFlows(engine, frames).Success?
    ensures Aggregation.AggregateFlows(engine, frames).Success? ==>
      && HasLabel(Aggregation.AggregateFlows(engine, frames).value, "Strombedarf nach Gemeinde")
      && HasLabel(Aggregation.AggregateFlows(engine, frames).value, "Wärmebedarf nach Gemeinde")
  {
    assert Aggregation.FlowRules[2].title == "Strombedarf nach Gemeinde";
    assert Aggregation.FlowRules[6].title == "Wärmebedarf nach Gemeinde";
  }

  /** Tables under the six titles with the index names extraction gives them can all be summed. */
  lemma SummariesFit(ex: seq<(string, Frame)>)
    requires Labels(ex) == Titles
    requires ex[0].1.names == ["ags"] && ex[2].1.names == ["ags"]
    requires ex[1].1.names == ["level", "ags"] && ex[3].1.names == ["level", "ags"]
    requires ex[4].1.names == ["level", "ags"] && ex[5].1.names == ["level", "ags"]
    ensures forall k :: 0 <= k < |Summaries| ==> SummedTable(ex, Summaries[k].1, Summaries[k].2).Success?
  {
    assert DistinctLabels(ex) by {
      forall i, j | 0 <= i < |ex| && 0 <= j < |ex| && i != j
        ensures ex[i].0 != ex[j].0
      {
        assert ex[i].0 == Titles[i] && ex[j].0 == Titles[j];
      }
    }
    forall k | 0 <= k < |Summaries|
      ensures SummedTable(ex, Summaries[k].1, Summaries[k].2).Success?
    {
      var i := [0, 2, 1, 3, 4, 5][k];
      assert ex[i].0 == Titles[i] == Summaries[k].1;
      LookupDistinct(ex, i);
    }
  }

  /**
   * Chained after a successful aggregation and extraction, the municipality
   * summaries never fail: the demand tables exist and every summed level is
   * an index name of its table.
   */
  lemma PipelineSummaries(engine: Engine, frames: Frames<real>, steps: nat)
    requires EngineFits(engine, Extractors)
    requires Aggregation.AggregateFlows(engine, frames).Success?
    requires FlowsTimeAgsTech(engine, frames.flows, steps).Success?
    ensures ResultsTablesAgs(Aggregation.AggregateFlows(engine, frames).value, FlowsTimeAgsTech(engine, frames.flows, steps).value).Success?
  {
    AggregatedDemand(engine, frames);
    PowerNames(engine, frames.flows, steps);
    HeatNames(engine, frames.flows, steps);
    StorageNames(engine, frames.flows, steps);
    SummariesFit(FlowsTimeAgsTech(engine, frames.flows, steps).value);
  }
}

=== FILE: draw.dfy ===
/**
 * The numeric parts of the plotting helpers (`tools/draw.py`): storage
 * ratios, the node colour classifier, the household share of demand-side
 * management and the split of a bar chart at a threshold.
 */
module Draw {
  import opened Wrappers
  import opened Strings
  import opened Tables
  import opened Floats

  // ---------------------------------------------------------------------
  // get_storage_ratios

  /** The figures of one storage in one municipality. */
  datatype Figures = Figures(discharge: real, capacity: real, powerDischarge: real)

  /** The three ratio names, in output order. */
  const RatioNames: seq<string> := ["Full Discharge Hours", "Total Cycles", "Utilization Rate"]

  /** Full discharge hours: discharge over discharge power, 0 for 0/0. */
  function FullDischargeHours(f: Figures): (r: Float)
    ensures f.powerDischarge != 0.0 ==> r == Fin(f.discharge / f.powerDischarge)
    ensures f.powerDischarge == 0.0 && f.discharge == 0.0 ==> r == Fin(0.0)
    ensures f.powerDischarge == 0.0 && f.discharge > 0.0 ==> r == PosInf
    ensures f.powerDischarge == 0.0 && f.discharge < 0.0 ==> r == NegInf
  {
    FillNa(Div(Fin(f.discharge), Fin(f.powerDischarge)), 0.0)
  }

  /** Total cycles: discharge over capacity, 0 for 0/0. */
  function TotalCycles(f: Figures): (r: Float)
    ensures f.capacity != 0.0 ==> r == Fin(f.discharge / f.capacity)
    ensures f.capacity == 0.0 && f.discharge == 0.0 ==> r == Fin(0.0)
    ensures f.capacity == 0.0 && f.discharge > 0.0 ==> r == PosInf
    ensures f.capacity == 0.0 && f.discharge < 0.0 ==> r == NegInf
  {
    FillNa(Div(Fin(f.discharge), Fin(f.capacity)), 0.0)
  }

  /** The C-rate, discharge power over capacity, set to 1 where it exceeds 1 (NaN stays NaN). */
  function CRate(f: Figures): (r: Float)
    ensures !r.PosInf?
    ensures r.Fin? ==> r.v <= 1.0
    ensures f.capacity != 0.0 && f.powerDischarge / f.capacity <= 1.0 ==> r == Fin(f.powerDischarge / f.capacity)
    ensures f.capacity != 0.0 && f.powerDischarge / f.capacity > 1.0 ==> r == Fin(1.0)
    ensures f.capacity == 0.0 ==> r == (if f.powerDischarge > 0.0 then Fin(1.0) else if f.powerDischarge < 0.0 then NegInf else NaN)
  {
    var c := Div(Fin(f.powerDischarge), Fin(f.capacity));
    if Gt(c, Fin(1.0)) then Fin(1.0) else c
  }

  /** Max cycles: half the time steps times the C-rate, 0 for NaN. */
  function MaxCycles(f: Figures, steps: nat): (r: Float)
    ensures !r.NaN? && !r.PosInf?
    ensures r.Fin? ==> r.v <= steps as real / 2.0
    ensures CRate(f).Fin? ==> r == Fin(steps as real / 2.0 * CRate(f).v)
  {
    var half := steps as real / 2.0;
    var c := CRate(f);
    HalfStepsBound(half, c);
    FillNa(Mul(Fin(half), c), 0.0)
  }

  lemma HalfStepsBound(half: real, c: Float)
    requires half >= 0.0 && (c.Fin? ==> c.v <= 1.0)
    ensures c.Fin? ==> half * c.v <= half
  {
    if c.Fin? {
      MulLe(half, c.v, 1.0);
    }
  }

  lemma MulLe(k: real, a: real, b: real)
    requires k >= 0.0 && a <= b
    ensures k * a <= k * b
  {
  }

  /** Utilization rate: total over max cycles in percent, 0 for NaN. */
  function UtilizationRate(f: Figures, steps: nat): (r: Float)
    ensures !r.NaN?
    ensures TotalCycles(f).Fin? && MaxCycles(f, steps).Fin? && MaxCycles(f, steps).v != 0.0 ==>
              r == Fin(TotalCycles(f).v / MaxCycles(f, steps).v * 100.0)
    ensures TotalCycles(f) == Fin(0.0) && MaxCycles(f, steps) == Fin(0.0) ==> r == Fin(0.0)
  {
    FillNa(Mul(Div(TotalCycles(f), MaxCycles(f, steps)), Fin(100.0)), 0.0)
  }

  /** One ratio of one storage figure, by its index in `RatioNames`. */
  function Ratio(f: Figures, steps: nat, k: nat): Float
    requires k < |RatioNames|
  {
    if k == 0 then FullDischargeHours(f) else if k == 1 then TotalCycles(f) else UtilizationRate(f, steps)
  }

  /** The column of one ratio for one storage, over the municipalities. */
  function RatioColumn(figures: seq<Figures>, steps: nat, k: nat): (r: seq<Float>)
    requires k < |RatioNames|
    ensures |r| == |figures| && forall m :: 0 <= m < |figures| ==> r[m] == Ratio(figures[m], steps, k)
  {
    seq(|figures|, m requires 0 <= m < |figures| => Ratio(figures[m], steps, k))
  }

  /** The ratio block `k`: one column per storage, labelled (storage, ratio name). */
  function Block(storages: seq<(string, seq<Figures>)>, steps: nat, k: nat): (r: seq<((string, string), seq<Float>)>)
    requires k < |RatioNames|
    ensures |r| == |storages|
    ensures forall j :: 0 <= j < |storages| ==> r[j] == ((storages[j].0, RatioNames[k]), RatioColumn(storages[j].1, steps, k))
  {
    seq(|storages|, j requires 0 <= j < |storages| => ((storages[j].0, RatioNames[k]), RatioColumn(storages[j].1, steps, k)))
  }

  /**
   * `get_storage_ratios`: the three ratio blocks side by side, columns
   * labelled (storage, ratio name) after the level swap.
   */
  function StorageRatios(storages: seq<(string, seq<Figures>)>, steps: nat): (r: seq<((string, string), seq<Float>)>)
    ensures |r| == 3 * |storages|
    ensures forall j :: 0 <= j < |storages| ==>
              r[j] == ((storages[j].0, "Full Discharge Hours"), RatioColumn(storages[j].1, steps, 0))
    ensures forall j :: 0 <= j < |storages| ==>
              r[|storages| + j] == ((storages[j].0, "Total Cycles"), RatioColumn(storages[j].1, steps, 1))
    ensures forall j :: 0 <= j < |storages| ==>
              r[2 * |storages| + j] == ((storages[j].0, "Utilization Rate"), RatioColumn(storages[j].1, steps, 2))
  {
    var n := |storages|;
    var r := Block(storages, steps, 0) + Block(storages, steps, 1) + Block(storages, steps, 2);
    assert forall j :: 0 <= j < n ==> r[n + j] == Block(storages, steps, 1)[j];
    assert forall j :: 0 <= j < n ==> r[2 * n + j] == Block(storages, steps, 2)[j];
    r
  }

  /** The labels of ratio block `k`. */
  function LabelBlock(names: seq<string>, k: nat): (r: seq<(string, string)>)
    requires k < |RatioNames|
    ensures |r| == |names| && forall j :: 0 <= j < |names| ==> r[j] == (names[j], RatioNames[k])
    ensures forall x :: x in r <==> x.0 in names && x.1 == RatioNames[k]
  {
    var r := seq(|names|, j requires 0 <= j < |names| => (names[j], RatioNames[k]));
    assert forall x :: x in r ==> x.0 in names by {
      forall x | x in r
        ensures x.0 in names
      {
        var j :| 0 <= j < |r| && r[j] == x;
        assert names[j] == x.0;
      }
    }
    assert forall x: (string, string) :: x.0 in names && x.1 == RatioNames[k] ==> x in r by {
      forall x: (string, string) | x.0 in names && x.1 == RatioNames[k]
        ensures x in r
      {
        var j :| 0 <= j < |names| && names[j] == x.0;
        assert r[j] == x;
      }
    }
    r
  }

  /** The column labels of the ratio table for the given storages. */
  function RatioLabels(names: seq<string>): (r: seq<(string, string)>)
    ensures forall x :: x in r <==> x.0 in names && x.1 in RatioNames
  {
    LabelBlock(names, 0) + LabelBlock(names, 1) + LabelBlock(names, 2)
  }

  /**
   * The ratio table's columns are (storage, ratio name) for every storage
   * and each of the three ratios, and nothing else.
   */
  lemma StorageRatiosLabels(storages: seq<(string, seq<Figures>)>, steps: nat)
    ensures Labels(StorageRatios(storages, steps)) == RatioLabels(Labels(storages))
  {
    var names := Labels(storages);
    var b0, b1, b2 := Block(storages, steps, 0), Block(storages, steps, 1), Block(storages, steps, 2);
    BlockLabels(storages, steps, 0);
    BlockLabels(storages, steps, 1);
    BlockLabels(storages, steps, 2);
    LabelsConcat(b0, b1);
    LabelsConcat(b0 + b1, b2);
  }

  lemma BlockLabels(storages: seq<(string, seq<Figures>)>, steps: nat, k: nat)
    requires k < |RatioNames|
    ensures Labels(Block(storages, steps, k)) == LabelBlock(Labels(storages), k)
  {
  }

  // ---------------------------------------------------------------------
  // set_node_colors

  /** The node prefixes in the order they are tried, with their colours. */
  const ColorRules: seq<(string, string)> := [
    ("b_el", "#bdc9e1"),
    ("gen_el", "#016c59"),
    ("dem_el", "#67a9cf"),
    ("excess_el", "#cccccc"),
    ("shortage_el", "#cccccc"),
    ("line", "#f7f7f7"),
    ("b_th_dec", "#fecc5c"),
    ("gen_th_dec", "#bd0026"),
    ("dem_th_dec", "#fd8d3c"),
    ("b_th_cen", "#d7b5d8"),
    ("gen_th_cen", "#980043"),
    ("dem_th_cen", "#df65b0"),
    ("flex_bat_large", "#08519c"),
    ("flex_bat_small", "#08519c"),
    ("flex_dec_pth", "#ffffb2"),
    ("flex_cen_pth", "#ffffb2"),
    ("flex_dsm", "#3c6ecf")]

  /** The colour of the first rule whose prefix starts `node`; None when no rule matches. */
  function FirstColor(rules: seq<(string, string)>, node: string): (r: Option<string>)
    ensures r.None? <==> forall i :: 0 <= i < |rules| ==> !StartsWith(node, rules[i].0)
    ensures r.Some? ==> exists i :: 0 <= i < |rules| && StartsWith(node, rules[i].0) && r.value == rules[i].1
                          && forall j :: 0 <= j < i ==> !StartsWith(node, rules[j].0)
    decreases |rules|
  {
    if |rules| == 0 then None
    else if StartsWith(node, rules[0].0) then Some(rules[0].1)
    else
      var r := FirstColor(rules[1..], node);
      assert forall i :: 1 <= i < |rules| ==> rules[i] == rules[1..][i - 1];
      if r.Some? then
        var i :| 0 <= i < |rules[1..]| && StartsWith(node, rules[1..][i].0) && r.value == rules[1..][i].1
                 && forall j :: 0 <= j < i ==> !StartsWith(node, rules[1..][j].0);
        assert forall j :: 0 <= j < i + 1 ==> !StartsWith(node, rules[j].0) by {
          forall j | 0 <= j < i + 1
            ensures !StartsWith(node, rules[j].0)
          {
            if j > 0 {
              assert rules[j] == rules[1..][j - 1];
            }
          }
        }
        assert StartsWith(node, rules[i + 1].0) && r.value == rules[i + 1].1;
        r
      else r
  }

  /** Every node that some rule matches gets the colour of the first such rule; the others get none. */
  method Colorize(rules: seq<(string, string)>, nodes: seq<string>) returns (colors: map<string, string>)
    ensures forall n :: n in colors <==> n in nodes && FirstColor(rules, n).Some?
    ensures forall n :: n in colors ==> colors[n] == FirstColor(rules, n).value
  {
    colors := map[];
    var i := 0;
    while i < |nodes|
      invariant 0 <= i <= |nodes|
      invariant forall n :: n in colors <==> n in nodes[..i] && FirstColor(rules, n).Some?
      invariant forall n :: n in colors ==> colors[n] == FirstColor(rules, n).value
    {
      var node := nodes[i];
      var c := FirstColor(rules, node);
      if c.Some? {
        colors := colors[node := c.value];
      }
      assert nodes[..i + 1] == nodes[..i] + [node];
      i := i + 1;
    }
    assert nodes[..i] == nodes;
  }

  /** `set_node_colors` over the graph's nodes. */
  method SetNodeColors(nodes: seq<string>) returns (colors: map<string, string>)
    ensures colors.Keys <= set n | n in nodes
    ensures forall n :: n in colors <==> n in nodes && FirstColor(ColorRules, n).Some?
    ensures forall n :: n in colors ==> colors[n] == FirstColor(ColorRules, n).value
  {
    colors := Colorize(ColorRules, nodes);
  }

  // ---------------------------------------------------------------------
  // calc_dsm_cap: the household share

  /** The `hh_share` argument: a Python bool or a number. */
  datatype ShareArg = Flag(b: bool) | Number(x: real)

  /** The numeric value Python compares: True is 1, False is 0. */
  function NumericValue(a: ShareArg): real {
    match a
    case Flag(b) => if b then 1.0 else 0.0
    case Number(x) => x
  }

  predicate Truthy(a: ShareArg) {
    NumericValue(a) != 0.0
  }

  /**
   * The share `calc_dsm_cap` uses: a value strictly between 0 and 1 as
   * given, any other truthy value replaced by the scenario's share, a falsy
   * value by 1.
   */
  function HhShare(a: ShareArg, scenarioShare: real): (s: real)
    ensures 0.0 < NumericValue(a) < 1.0 ==> s == NumericValue(a)
    ensures !(0.0 < NumericValue(a) < 1.0) && Truthy(a) ==> s == scenarioShare
    ensures !Truthy(a) ==> s == 1.0
  {
    var v := NumericValue(a);
    if 0.0 < v < 1.0 then v
    else if v != 0.0 then scenarioShare
    else 1.0
  }

  /** With a scenario share in (0, 1], every argument gives a share in (0, 1]. */
  lemma HhShareBounds(a: ShareArg, scenarioShare: real)
    requires 0.0 < scenarioShare <= 1.0
    ensures 0.0 < HhShare(a, scenarioShare) <= 1.0
  {
  }

  /** `True` (the default) means the scenario's share. */
  lemma HhShareDefault(scenarioShare: real)
    ensures HhShare(Flag(true), scenarioShare) == scenarioShare
  {
  }

  /** The up and down potentials per municipality, both scaled by the same share. */
  function DsmCap(up: seq<(int, Series)>, down: seq<(int, Series)>, a: ShareArg, scenarioShare: real): (r: (seq<(int, Series)>, seq<(int, Series)>))
    ensures |r.0| == |up| && |r.1| == |down|
    ensures forall i, t :: 0 <= i < |up| ==> r.0[i].0 == up[i].0 && At(r.0[i].1, t) == At(up[i].1, t) * HhShare(a, scenarioShare)
    ensures forall i, t :: 0 <= i < |down| ==> r.1[i].0 == down[i].0 && At(r.1[i].1, t) == At(down[i].1, t) * HhShare(a, scenarioShare)
  {
    var s := HhShare(a, scenarioShare);
    (seq(|up|, i requires 0 <= i < |up| => (up[i].0, Scale(up[i].1, s))),
     seq(|down|, i requires 0 <= i < |down| => (down[i].0, Scale(down[i].1, s))))
  }

  // ---------------------------------------------------------------------
  // plot_split_hbar

  /** The entries below `limit` (`left`) or at or above it, in order. */
  function SplitSide(data: seq<(string, real)>, limit: real, left: bool): (r: seq<(string, real)>)
    ensures forall x :: x in r <==> x in data && (x.1 < limit) == left
    decreases |data|
  {
    if |data| == 0 then []
    else
      var rest := SplitSide(data[1..], limit, left);
      assert forall x :: x in data <==> x == data[0] || x in data[1..] by {
        assert data == [data[0]] + data[1..];
      }
      if (data[0].1 < limit) == left then [data[0]] + rest else rest
  }

  /** `plot_split_hbar`'s split: values below the limit left, the rest right. */
  function SplitHbar(data: seq<(string, real)>, limit: real): (r: (seq<(string, real)>, seq<(string, real)>))
    ensures forall x :: x in r.0 ==> x.1 < limit
    ensures forall x :: x in r.1 ==> x.1 >= limit
  {
    (SplitSide(data, limit, true), SplitSide(data, limit, false))
  }

  /** The two sides partition the data: every entry lands on exactly one side, as often as it occurs. */
  lemma {:induction false} SplitHbarPartition(data: seq<(string, real)>, limit: real)
    ensures multiset(SplitHbar(data, limit).0) + multiset(SplitHbar(data, limit).1) == multiset(data)
    decreases |data|
  {
    if |data| > 0 {
      SplitHbarPartition(data[1..], limit);
      assert data == [data[0]] + data[1..];
    }
  }
}

=== FILE: extraction.dfy ===
/**
 * `extract_flows_timexagsxtech`: flows of one kind of node become a table
 * over (timestep, municipality, technology …). Four steps: keep the columns
 * whose names match, sum them per in-side node (over buses), split each
 * node name into the pattern's named groups, sum duplicates; optionally
 * one group is then turned into columns with missing cells filled by 0.
 */
module Extraction {
  import opened Wrappers
  import Strings
  import opened Tables
  import opened Patterns
  import opened ResultFrames

  /** The values of the pattern's named groups for one node, in group order. */
  type Dims = seq<string>

  /**
   * One extraction: node pattern with its group names, the name stub common
   * to all nodes, the bus pattern, which column level is the flow's in-side
   * and which its out-side, and the group to unstack, if any.
   */
  datatype ExtractRule = ExtractRule(
    nodePattern: string,
    groups: seq<string>,
    stub: string,
    busPattern: string,
    levelIn: Level,
    levelOut: Level,
    unstack: Option<string>)

  /**
   * The extracted table. `Long`: one series per combination of group values
   * (index names `names`). `Wide`: one row per combination of the other
   * groups, one column per value of the unstacked group.
   */
  datatype Extracted =
    | Long(names: seq<string>, rows: seq<(Dims, Series)>)
    | Wide(names: seq<string>, columns: seq<string>, cells: seq<(Dims, seq<(string, Series)>)>)

  /** `stubname + "_" + node_pattern`, the full node-name pattern. */
  function NamePattern(rule: ExtractRule): string {
    rule.stub + "_" + rule.nodePattern
  }

  /** The column filter: the in-side name matches the node pattern and the out-side name the bus pattern, both from the start. */
  predicate Kept(engine: Engine, rule: ExtractRule, l: Label) {
    engine.prefixMatch(NamePattern(rule), NameAt(l, rule.levelIn)) &&
    engine.prefixMatch(rule.busPattern, NameAt(l, rule.levelOut))
  }

  /** Step 1 and 2: kept columns are grouped by their in-side node name. */
  function NodeKey(engine: Engine, rule: ExtractRule): Label -> Option<string> {
    (l: Label) => if Kept(engine, rule, l) then Some(NameAt(l, rule.levelIn)) else None
  }

  /**
   * Step 3: a node name spanning `stub_<node pattern>` loses every copy of
   * `stub_`, and the remainder is split by the node pattern's groups.
   * Names without a full match have no dimensions.
   */
  function SplitKey(engine: Engine, rule: ExtractRule): string -> Option<Dims> {
    (name: string) =>
      if engine.fullMatch(NamePattern(rule), name)
      then engine.search(rule.nodePattern, Strings.Remove(name, rule.stub + "_"))
      else None
  }

  /** The key from an original flow column straight to its dimensions. */
  function FlowDims(engine: Engine, rule: ExtractRule): Label -> Option<Dims> {
    Then(NodeKey(engine, rule), SplitKey(engine, rule))
  }

  /** The search for the node pattern yields one value per named group. */
  ghost predicate Arity(engine: Engine, rule: ExtractRule) {
    forall s :: engine.search(rule.nodePattern, s).Some? ==> |engine.search(rule.nodePattern, s).value| == |rule.groups|
  }

  function PerNode(engine: Engine, rule: ExtractRule, flows: seq<(Label, Series)>): seq<(string, Series)> {
    Collapse(flows, NodeKey(engine, rule), Add)
  }

  function LongRows(engine: Engine, rule: ExtractRule, flows: seq<(Label, Series)>): seq<(Dims, Series)> {
    Collapse(PerNode(engine, rule, flows), SplitKey(engine, rule), Add)
  }

  /** A node appears in the per-node table iff some kept column has it as in-side name. */
  lemma PerNodeKept(engine: Engine, rule: ExtractRule, flows: seq<(Label, Series)>, name: string)
    ensures HasLabel(PerNode(engine, rule, flows), name) <==>
      exists i :: 0 <= i < |flows| && Kept(engine, rule, flows[i].0) && NameAt(flows[i].0, rule.levelIn) == name
  {
    if HasLabel(PerNode(engine, rule, flows), name) {
      var i :| 0 <= i < |flows| && NodeKey(engine, rule)(flows[i].0) == Some(name);
      assert Kept(engine, rule, flows[i].0);
    }
  }

  /**
   * Summing over buses and then over duplicate dimensions is a full
   * reduction: a combination of group values is a row iff some kept column
   * splits into it, and its value at `t` is the sum at `t` of all such
   * columns.
   */
  lemma LongRowSum(engine: Engine, rule: ExtractRule, flows: seq<(Label, Series)>, d: Dims, t: int)
    ensures Lookup(LongRows(engine, rule, flows), d).Some? <==> Matched(flows, FlowDims(engine, rule), d)
    ensures Matched(flows, FlowDims(engine, rule), d) ==>
      At(Lookup(LongRows(engine, rule, flows), d).value, t) == SumAt(flows, FlowDims(engine, rule), d, t)
  {
    var k1 := NodeKey(engine, rule);
    var k2 := SplitKey(engine, rule);
    var per := PerNode(engine, rule, flows);
    SeriesAddMonoid();
    CollapseLookup(per, k2, Add, [], d);
    CollapseThenMatched(flows, k1, k2, d, Add);
    CollapseThen(flows, k1, k2, d, Add, []);
    KeySumAt(flows, FlowDims(engine, rule), d, t);
  }

  /** Every row of the long table has one value per group. */
  lemma LongRowsArity(engine: Engine, rule: ExtractRule, flows: seq<(Label, Series)>)
    requires Arity(engine, rule)
    ensures forall i :: 0 <= i < |LongRows(engine, rule, flows)| ==> |LongRows(engine, rule, flows)[i].0| == |rule.groups|
  {
    var r := LongRows(engine, rule, flows);
    forall i | 0 <= i < |r|
      ensures |r[i].0| == |rule.groups|
    {
      assert HasLabel(r, r[i].0);
      var per := PerNode(engine, rule, flows);
      var j :| 0 <= j < |per| && SplitKey(engine, rule)(per[j].0) == Some(r[i].0);
      var rest := Strings.Remove(per[j].0, rule.stub + "_");
      assert engine.search(rule.nodePattern, rest) == Some(r[i].0);
      assert |engine.search(rule.nodePattern, rest).value| == |rule.groups|;
    }
  }

  // ---------------------------------------------------------------------
  // Unstacking

  function DropAt(d: Dims, p: nat): (r: Dims)
    requires p < |d|
    ensures |r| == |d| - 1
  {
    d[..p] + d[p + 1..]
  }

  function InsertAt(d: Dims, p: nat, c: string): (r: Dims)
    requires p <= |d|
    ensures |r| == |d| + 1
  {
    d[..p] + [c] + d[p..]
  }

  /** Dropping the last group keeps the others. */
  lemma DropLast(d: Dims)
    requires |d| > 0
    ensures DropAt(d, |d| - 1) == d[..|d| - 1]
  {
    assert d[|d|..] == [];
  }

  /** Removing a group value and putting it back restores the combination. */
  lemma InsertDrop(d: Dims, p: nat)
    requires p < |d|
    ensures InsertAt(DropAt(d, p), p, d[p]) == d
  {
    var e := DropAt(d, p);
    assert e[..p] == d[..p];
    assert e[p..] == d[p + 1..];
  }

  /** Putting a value in and removing it again gives the other groups back. */
  lemma DropInsert(r: Dims, p: nat, c: string)
    requires p <= |r|
    ensures DropAt(InsertAt(r, p, c), p) == r && InsertAt(r, p, c)[p] == c
  {
    var d := InsertAt(r, p, c);
    assert d[..p] == r[..p];
    assert d[p + 1..] == r[p..];
  }

  function IndexOf(xs: seq<string>, x: string): (r: Option<nat>)
    ensures r.Some? ==> r.value < |xs| && xs[r.value] == x
    ensures r.None? ==> x !in xs
  {
    if |xs| == 0 then None
    else if xs[0] == x then Some(0)
    else match IndexOf(xs[1..], x)
      case Some(i) => Some(i + 1)
      case None => None
  }

  predicate Rectangular(rows: seq<(Dims, Series)>, n: nat) {
    forall i :: 0 <= i < |rows| ==> |rows[i].0| == n
  }

  /** The other-group combination of every row. */
  function OtherGroups(rows: seq<(Dims, Series)>, n: nat, p: nat): (r: seq<Dims>)
    requires p < n && Rectangular(rows, n)
    ensures |r| == |rows|
    ensures forall i :: 0 <= i < |rows| ==> r[i] == DropAt(rows[i].0, p)
  {
    seq(|rows|, i requires 0 <= i < |rows| => DropAt(rows[i].0, p))
  }

  /** The value of the unstacked group in every row. */
  function GroupValues(rows: seq<(Dims, Series)>, n: nat, p: nat): (r: seq<string>)
    requires p < n && Rectangular(rows, n)
    ensures |r| == |rows|
    ensures forall i :: 0 <= i < |rows| ==> r[i] == rows[i].0[p]
  {
    seq(|rows|, i requires 0 <= i < |rows| => rows[i].0[p])
  }

  /** Combinations of the other groups that occur, without repetitions. */
  function RowKeys(rows: seq<(Dims, Series)>, n: nat, p: nat): seq<Dims>
    requires p < n && Rectangular(rows, n)
  {
    Distinct(OtherGroups(rows, n, p))
  }

  /** Values of the unstacked group that occur, without repetitions. */
  function ColumnKeys(rows: seq<(Dims, Series)>, n: nat, p: nat): seq<string>
    requires p < n && Rectangular(rows, n)
  {
    Distinct(GroupValues(rows, n, p))
  }

  /** The series of a combination, or `steps` zeros when it never occurs. */
  function Cell(rows: seq<(Dims, Series)>, d: Dims, steps: nat): Series {
    match Lookup(rows, d)
    case Some(s) => s
    case None => Zeros(steps)
  }

  /** One row of the unstacked table: the cells of the other-group combination `k`. */
  function WideRow(rows: seq<(Dims, Series)>, k: Dims, p: nat, cols: seq<string>, steps: nat): (r: seq<(string, Series)>)
    requires p <= |k|
    ensures |r| == |cols|
    ensures forall j :: 0 <= j < |cols| ==> r[j].0 == cols[j]
    ensures forall j :: 0 <= j < |cols| ==>
      var d := InsertAt(k, p, cols[j]);
      (HasLabel(rows, d) ==> r[j].1 == Lookup(rows, d).value) && (!HasLabel(rows, d) ==> r[j].1 == Zeros(steps))
  {
    seq(|cols|, j requires 0 <= j < |cols| => (cols[j], Cell(rows, InsertAt(k, p, cols[j]), steps)))
  }

  /**
   * `unstack(col, fill_value=0)`: one row per observed combination of the
   * other groups, one column per observed value of group `p`; a cell holds
   * the series of the recombined key, or zeros when that key never occurs.
   */
  function Unstack(rows: seq<(Dims, Series)>, n: nat, p: nat, steps: nat): (r: seq<(Dims, seq<(string, Series)>)>)
    requires p < n && Rectangular(rows, n)
    ensures forall i :: 0 <= i < |r| ==> |r[i].0| == n - 1
    ensures forall i :: 0 <= i < |r| ==> Labels(r[i].1) == ColumnKeys(rows, n, p)
    ensures forall i, j :: 0 <= i < |r| && 0 <= j < |r[i].1| ==>
      var d := InsertAt(r[i].0, p, r[i].1[j].0);
      (HasLabel(rows, d) ==> r[i].1[j].1 == Lookup(rows, d).value) &&
      (!HasLabel(rows, d) ==> r[i].1[j].1 == Zeros(steps))
  {
    var rk := RowKeys(rows, n, p);
    assert forall k :: k in rk ==> |k| == n - 1;
    seq(|rk|, i requires 0 <= i < |rk| => (rk[i], WideRow(rows, rk[i], p, ColumnKeys(rows, n, p), steps)))
  }

  /** Every row of the unstacked table is an observed combination of the other groups. */
  lemma UnstackRowsObserved(rows: seq<(Dims, Series)>, n: nat, p: nat, steps: nat, i: nat)
    requires p < n && Rectangular(rows, n)
    requires i < |Unstack(rows, n, p, steps)|
    ensures exists j :: 0 <= j < |rows| && DropAt(rows[j].0, p) == Unstack(rows, n, p, steps)[i].0
  {
    var keys := OtherGroups(rows, n, p);
    var rk := RowKeys(rows, n, p);
    assert Unstack(rows, n, p, steps)[i].0 == rk[i];
    assert rk[i] in keys;
    var j :| 0 <= j < |keys| && keys[j] == rk[i];
  }

  /** Every observed combination of the other groups is a row of the unstacked table. */
  lemma UnstackRowsComplete(rows: seq<(Dims, Series)>, n: nat, p: nat, steps: nat, j: nat)
    requires p < n && Rectangular(rows, n)
    requires j < |rows|
    ensures exists i :: 0 <= i < |Unstack(rows, n, p, steps)| && Unstack(rows, n, p, steps)[i].0 == DropAt(rows[j].0, p)
  {
    var r := Unstack(rows, n, p, steps);
    var keys := OtherGroups(rows, n, p);
    var rk := RowKeys(rows, n, p);
    assert keys[j] in keys;
    var i :| 0 <= i < |rk| && rk[i] == keys[j];
    assert r[i].0 == rk[i];
  }

  /** Every row has the same columns: exactly the observed values of the unstacked group. */
  lemma UnstackColumns(rows: seq<(Dims, Series)>, n: nat, p: nat, steps: nat, i: nat, c: string)
    requires p < n && Rectangular(rows, n)
    requires i < |Unstack(rows, n, p, steps)|
    ensures HasLabel(Unstack(rows, n, p, steps)[i].1, c) <==> exists j :: 0 <= j < |rows| && rows[j].0[p] == c
  {
    var row := Unstack(rows, n, p, steps)[i].1;
    var vals := GroupValues(rows, n, p);
    var ck := ColumnKeys(rows, n, p);
    assert |row| == |ck| && forall j :: 0 <= j < |row| ==> row[j].0 == ck[j];
    if HasLabel(row, c) {
      var j :| 0 <= j < |row| && row[j].0 == c;
      assert ck[j] in ck;
      var m :| 0 <= m < |vals| && vals[m] == c;
    }
    if exists j :: 0 <= j < |rows| && rows[j].0[p] == c {
      var j :| 0 <= j < |rows| && rows[j].0[p] == c;
      assert vals[j] in vals;
      var m :| 0 <= m < |ck| && ck[m] == c;
      assert row[m].0 == c;
    }
  }

  // ---------------------------------------------------------------------
  // The whole extraction

  /**
   * The extraction. Unstacking a group the node pattern does not name
   * raises KeyError; otherwise the result is wide exactly when a group is
   * unstacked, and its index names are the remaining groups.
   */
  function Extract(engine: Engine, rule: ExtractRule, flows: seq<(Label, Series)>, steps: nat): (r: Result<Extracted>)
    requires Arity(engine, rule)
    ensures r.Failure? <==> rule.unstack.Some? && rule.unstack.value !in rule.groups
    ensures r.Failure? ==> r.error == KeyError(rule.unstack.value)
    ensures r.Success? ==> (r.value.Wide? <==> rule.unstack.Some?)
    ensures r.Success? && r.value.Long? ==> r.value.names == rule.groups
    ensures r.Success? && r.value.Wide? ==>
      |r.value.names| + 1 == |rule.groups| &&
      r.value.names == DropAt(rule.groups, IndexOf(rule.groups, rule.unstack.value).value) &&
      (forall x :: x in r.value.names ==> x in rule.groups) &&
      (forall i :: 0 <= i < |r.value.cells| ==> Labels(r.value.cells[i].1) == r.value.columns)
  {
    var long := LongRows(engine, rule, flows);
    match rule.unstack
    case None => Success(Long(rule.groups, long))
    case Some(col) =>
      match IndexOf(rule.groups, col)
      case None => Failure(KeyError(col))
      case Some(p) =>
        LongRowsArity(engine, rule, flows);
        var names := DropAt(rule.groups, p);
        assert forall x :: x in names ==> x in rule.groups by {
          assert forall x :: x in rule.groups[..p] ==> x in rule.groups;
          assert forall x :: x in rule.groups[p + 1..] ==> x in rule.groups;
        }
        var wide := Unstack(long, |rule.groups|, p, steps);
        Success(Wide(names, ColumnKeys(long, |rule.groups|, p), wide))
  }

  /** A combination no kept column splits into sums to zero at every timestep. */
  lemma SumAtUnmatched<L, G>(xs: seq<(L, Series)>, key: L -> Option<G>, g: G, t: int)
    requires !Matched(xs, key, g)
    ensures SumAt(xs, key, g, t) == 0.0
  {
    KeySumUnmatched(xs, key, g, Add, []);
    KeySumAt(xs, key, g, t);
  }

  /**
   * Without unstacking: a combination of group values is a row iff some
   * kept flow column splits into it, and the row at `t` is the sum at `t`
   * of those columns.
   */
  lemma ExtractLongValue(engine: Engine, rule: ExtractRule, flows: seq<(Label, Series)>, steps: nat, d: Dims, t: int)
    requires Arity(engine, rule)
    requires rule.unstack.None?
    ensures Extract(engine, rule, flows, steps).Success?
    ensures var rows := Extract(engine, rule, flows, steps).value.rows;
      && (Lookup(rows, d).Some? <==> Matched(flows, FlowDims(engine, rule), d))
      && (Matched(flows, FlowDims(engine, rule), d) ==> At(Lookup(rows, d).value, t) == SumAt(flows, FlowDims(engine, rule), d, t))
  {
    LongRowSum(engine, rule, flows, d, t);
  }

  /**
   * With unstacking: every cell, at every timestep, is the sum of the kept
   * flow columns that split into its recombined key; a combination never
   * observed reads 0.
   */
  lemma ExtractWideValue(engine: Engine, rule: ExtractRule, flows: seq<(Label, Series)>, steps: nat, t: int)
    requires Arity(engine, rule)
    requires rule.unstack.Some? && rule.unstack.value in rule.groups
    ensures Extract(engine, rule, flows, steps).Success?
    ensures var w := Extract(engine, rule, flows, steps).value;
      var p := IndexOf(rule.groups, rule.unstack.value).value;
      w.Wide? && forall i, j :: 0 <= i < |w.cells| && 0 <= j < |w.cells[i].1| ==>
        p <= |w.cells[i].0| &&
        At(w.cells[i].1[j].1, t) == SumAt(flows, FlowDims(engine, rule), InsertAt(w.cells[i].0, p, w.cells[i].1[j].0), t)
  {
    var w := Extract(engine, rule, flows, steps).value;
    var p := IndexOf(rule.groups, rule.unstack.value).value;
    var long := LongRows(engine, rule, flows);
    LongRowsArity(engine, rule, flows);
    assert w.cells == Unstack(long, |rule.groups|, p, steps);
    forall i, j | 0 <= i < |w.cells| && 0 <= j < |w.cells[i].1|
      ensures p <= |w.cells[i].0|
      ensures At(w.cells[i].1[j].1, t) == SumAt(flows, FlowDims(engine, rule), InsertAt(w.cells[i].0, p, w.cells[i].1[j].0), t)
    {
      var d := InsertAt(w.cells[i].0, p, w.cells[i].1[j].0);
      LongRowSum(engine, rule, flows, d, t);
      if !Matched(flows, FlowDims(engine, rule), d) {
        SumAtUnmatched(flows, FlowDims(engine, rule), d, t);
      }
    }
  }
}

=== FILE: floats.dfy ===
/**
 * Extended reals with the IEEE 754 special values that pandas arithmetic
 * produces: division by zero gives an infinity or NaN, never an exception.
 * Rounding and signed zeros are not modelled (a zero is +0).
 */
module Floats {

  datatype Float = Fin(v: real) | PosInf | NegInf | NaN

  function Inf(positive: bool): Float {
    if positive then PosInf else NegInf
  }

  /** True for +inf, false for -inf. */
  function InfSign(x: Float): bool
    requires x.PosInf? || x.NegInf?
  {
    x.PosInf?
  }

  /** IEEE division `a / b`. */
  function Div(a: Float, b: Float): (r: Float)
    ensures a.Fin? && b.Fin? && b.v != 0.0 ==> r == Fin(a.v / b.v)
    ensures a.Fin? && b.Fin? && b.v == 0.0 ==>
              r == (if a.v > 0.0 then PosInf else if a.v < 0.0 then NegInf else NaN)
    ensures r.NaN? <==> a.NaN? || b.NaN? || (a.Fin? && a.v == 0.0 && b == Fin(0.0)) || (!a.Fin? && !b.Fin?)
  {
    match (a, b)
    case (NaN, _) => NaN
    case (_, NaN) => NaN
    case (Fin(x), Fin(y)) =>
      if y != 0.0 then Fin(x / y)
      else if x > 0.0 then PosInf
      else if x < 0.0 then NegInf
      else NaN
    case (Fin(_), _) => Fin(0.0)
    case (_, Fin(y)) => Inf(InfSign(a) == (y >= 0.0))
    case (_, _) => NaN
  }

  /** IEEE multiplication `a * b`. */
  function Mul(a: Float, b: Float): (r: Float)
    ensures a.Fin? && b.Fin? ==> r == Fin(a.v * b.v)
    ensures r.NaN? <==> a.NaN? || b.NaN? || (a == Fin(0.0) && !b.Fin?) || (!a.Fin? && b == Fin(0.0))
  {
    match (a, b)
    case (NaN, _) => NaN
    case (_, NaN) => NaN
    case (Fin(_), Fin(_)) => Fin(a.v * b.v)
    case (Fin(x), _) => if x == 0.0 then NaN else Inf(InfSign(b) == (x > 0.0))
    case (_, Fin(y)) => if y == 0.0 then NaN else Inf(InfSign(a) == (y > 0.0))
    case (_, _) => Inf(InfSign(a) == InfSign(b))
  }

  /** IEEE comparison `a > b`: false whenever either side is NaN. */
  predicate Gt(a: Float, b: Float) {
    match (a, b)
    case (NaN, _) => false
    case (_, NaN) => false
    case (Fin(x), Fin(y)) => x > y
    case (PosInf, _) => !b.PosInf?
    case (_, NegInf) => !a.NegInf?
    case (_, _) => false
  }

  /** `Series.fillna(d)` on one value: only NaN is replaced. */
  function FillNa(x: Float, d: real): (r: Float)
    ensures !r.NaN?
    ensures x.NaN? ==> r == Fin(d)
    ensures !x.NaN? ==> r == x
  {
    if x.NaN? then Fin(d) else x
  }
}

=== FILE: flow_tables.dfy ===
/**
 * `flows_timexagsxtech`: the nine extractions of the analysis and the
 * joins that turn them into six tables. Heat generation is joined with the
 * power-to-heat extraction; each storage kind joins its discharge and
 * charge flows into the two columns `discharge` and `charge`.
 */
module FlowTables {
  import opened Wrappers
  import Strings
  import opened Tables
  import opened Patterns
  import opened ResultFrames
  import opened Extraction

  /**
   * A table after extraction: index names, column names, and per row its
   * index values and its cells in column order; None is a NaN column
   * introduced by a join.
   */
  datatype Frame = Frame(names: seq<string>, columns: seq<string>, rows: seq<(Dims, seq<Option<Series>>)>)

  /** Every row has one cell per column. */
  predicate WellShaped(f: Frame) {
    forall i :: 0 <= i < |f.rows| ==> |f.rows[i].1| == |f.columns|
  }

  const Extractors: seq<(string, ExtractRule)> := [
    ("Stromerzeugung", ExtractRule(@"\w+_(?P<ags>\d+)_?b?\d+?_(?P<technology>\w+)", ["ags", "technology"],
      "gen", @"b_el_\d+", From, To, Some("technology"))),
    ("Wärmeerzeugung", ExtractRule(@"th_(?P<level>\w{3})_(?P<ags>\d+)(?:_hh_efh|_hh_mfh|_rca)?_(?P<technology>\w+)", ["level", "ags", "technology"],
      "gen", @"b_th_\w+_\d+(_\w+)?", From, To, Some("technology"))),
    ("Wärmeerzeugung PtH", ExtractRule(@"(?P<level>\w{3})_(?P<technology>\w+)_(?P<ags>\d+)(?:_hh_efh|_hh_mfh|_rca)?", ["level", "technology", "ags"],
      "flex", @"b_th_\w+_\d+(_\w+)?", From, To, Some("technology"))),
    ("Wärmespeicher discharge", ExtractRule(@"(?P<level>\w{3})(?:_pth)?_(?P<ags>\d+)(?:_hh_efh|_hh_mfh|_rca)?", ["level", "ags"],
      "stor_th", @"b_th_\w+_\d+(_\w+)?", From, To, None)),
    ("Wärmespeicher charge", ExtractRule(@"(?P<level>\w{3})(?:_pth)?_(?P<ags>\d+)(?:_hh_efh|_hh_mfh|_rca)?", ["level", "ags"],
      "stor_th", @"b_th_\w+_\d+(_\w+)?", To, From, None)),
    ("Batteriespeicher discharge", ExtractRule(@"(?P<level>\w+)_(?P<ags>\d+)_b\d+", ["level", "ags"],
      "flex_bat", @"b_el_\w+", From, To, None)),
    ("Batteriespeicher charge", ExtractRule(@"(?P<level>\w+)_(?P<ags>\d+)_b\d+", ["level", "ags"],
      "flex_bat", @"b_el_\w+", To, From, None)),
    ("Stromnachfrage", ExtractRule(@"(?P<ags>\d+)_b\d+_(?P<sector>\w+)", ["ags", "sector"],
      "dem_el", @"b_el_\w+", To, From, Some("sector"))),
    ("Wärmenachfrage", ExtractRule(@"(?P<level>\w+)_(?P<ags>\d+)_(?P<sector>\w+)", ["level", "ags", "sector"],
      "dem_th", @"b_th_(?:dec|cen_out)_\d+", To, From, Some("sector")))
  ]

  /** The six tables, in the order the dictionary ends up with. */
  const Titles: seq<string> := ["Stromerzeugung", "Wärmeerzeugung", "Stromnachfrage", "Wärmenachfrage", "Wärmespeicher", "Batteriespeicher"]

  /** Every unstacked group is one of the rule's named groups. */
  predicate Unstackable(rule: ExtractRule) {
    rule.unstack.None? || rule.unstack.value in rule.groups
  }

  lemma ExtractorsUnstackable()
    ensures forall k :: 0 <= k < |Extractors| ==> Unstackable(Extractors[k].1)
  {
  }

  /** An extraction as a frame: a long table has the stub as its one value column. */
  function ToFrame(e: Extracted, stub: string): (f: Frame)
    requires e.Wide? ==> forall i :: 0 <= i < |e.cells| ==> Labels(e.cells[i].1) == e.columns
    ensures WellShaped(f)
    ensures f.names == e.names
    ensures e.Long? ==> (f.columns == [stub] && |f.rows| == |e.rows| &&
      forall i :: 0 <= i < |e.rows| ==> f.rows[i] == (e.rows[i].0, [Some(e.rows[i].1)]))
    ensures e.Wide? ==> (f.columns == e.columns && |f.rows| == |e.cells| &&
      forall i, j :: 0 <= i < |e.cells| && 0 <= j < |e.columns| && j < |e.cells[i].1| ==>
        f.rows[i].0 == e.cells[i].0 && f.rows[i].1[j] == Some(e.cells[i].1[j].1))
  {
    match e
    case Long(names, rows) =>
      Frame(names, [stub], seq(|rows|, i requires 0 <= i < |rows| => (rows[i].0, [Some(rows[i].1)])))
    case Wide(names, cols, cells) =>
      assert forall i :: 0 <= i < |cells| ==> |cells[i].1| == |cols| by {
        forall i | 0 <= i < |cells|
          ensures |cells[i].1| == |cols|
        {
          assert |Labels(cells[i].1)| == |cells[i].1|;
        }
      }
      Frame(names, cols, seq(|cells|, i requires 0 <= i < |cells| =>
        (cells[i].0, seq(|cells[i].1|, j requires 0 <= j < |cells[i].1| => Some(cells[i].1[j].1)))))
  }

  /** One extraction as a frame. */
  function Run(engine: Engine, rule: ExtractRule, flows: seq<(Label, Series)>, steps: nat): (r: Frame)
    requires Arity(engine, rule) && Unstackable(rule)
    ensures WellShaped(r)
    ensures rule.unstack.None? ==> r.columns == [rule.stub] && r.names == rule.groups
    ensures rule.unstack.Some? ==> r.names == DropAt(rule.groups, IndexOf(rule.groups, rule.unstack.value).value)
  {
    ToFrame(Extract(engine, rule, flows, steps).value, rule.stub)
  }

  /** NaN cells for a row the right-hand table lacks. */
  function Missing(n: nat): (r: seq<Option<Series>>)
    ensures |r| == n && forall j :: 0 <= j < n ==> r[j].None?
  {
    seq(n, j => None)
  }

  function Suffixed(cols: seq<string>, other: seq<string>, suffix: string): (r: seq<string>)
    ensures |r| == |cols|
    ensures forall i :: 0 <= i < |cols| ==> r[i] == if cols[i] in other then cols[i] + suffix else cols[i]
  {
    seq(|cols|, i requires 0 <= i < |cols| => if cols[i] in other then cols[i] + suffix else cols[i])
  }

  /** An empty suffix leaves the column names as they are. */
  lemma SuffixedEmpty(cols: seq<string>, other: seq<string>)
    ensures Suffixed(cols, other, "") == cols
  {
    var r := Suffixed(cols, other, "");
    forall i | 0 <= i < |cols|
      ensures r[i] == cols[i]
    {
      assert cols[i] + "" == cols[i];
    }
  }

  /**
   * `DataFrame.join` (left join on the index). Column names shared by both
   * sides get the suffixes, and raise ValueError when both suffixes are
   * empty. Every left row keeps its cells and gains the right row with the
   * same index, or NaN cells when there is none.
   */
  function Join(left: Frame, right: Frame, lsuffix: string, rsuffix: string): (r: Result<Frame>)
    requires WellShaped(left) && WellShaped(right)
    ensures r.Failure? <==> (exists c :: c in left.columns && c in right.columns) && lsuffix == "" && rsuffix == ""
    ensures r.Failure? ==> r.error.ValueError?
    ensures r.Success? ==> WellShaped(r.value) && r.value.names == left.names
    ensures r.Success? ==> r.value.columns == Suffixed(left.columns, right.columns, lsuffix) + Suffixed(right.columns, left.columns, rsuffix)
    ensures r.Success? ==> |r.value.rows| == |left.rows|
    ensures r.Success? ==> forall i :: 0 <= i < |left.rows| ==>
      var row := r.value.rows[i];
      && row.0 == left.rows[i].0
      && row.1[..|left.columns|] == left.rows[i].1
      && (HasLabel(right.rows, row.0) ==> row.1[|left.columns|..] == Lookup(right.rows, row.0).value)
      && (!HasLabel(right.rows, row.0) ==> forall j :: |left.columns| <= j < |row.1| ==> row.1[j].None?)
  {
    if (exists c :: c in left.columns && c in right.columns) && lsuffix == "" && rsuffix == "" then
      Failure(ValueError("columns overlap but no suffix specified"))
    else
      var columns := Suffixed(left.columns, right.columns, lsuffix) + Suffixed(right.columns, left.columns, rsuffix);
      var rows := seq(|left.rows|, i requires 0 <= i < |left.rows| =>
        var d := left.rows[i].0;
        (d, left.rows[i].1 + match Lookup(right.rows, d) case Some(cells) => cells case None => Missing(|right.columns|)));
      assert forall i :: 0 <= i < |rows| ==> rows[i].1[..|left.columns|] == left.rows[i].1;
      Success(Frame(left.names, columns, rows))
  }

  /** `columns.str.replace(stub, "")`. */
  function StripStub(f: Frame, stub: string): (r: Frame)
    ensures r.names == f.names && r.rows == f.rows
    ensures |r.columns| == |f.columns|
    ensures forall j :: 0 <= j < |f.columns| ==> r.columns[j] == Strings.Remove(f.columns[j], stub)
  {
    Frame(f.names, seq(|f.columns|, j requires 0 <= j < |f.columns| => Strings.Remove(f.columns[j], stub)), f.rows)
  }

  /** A stub containing an underscore occurs in neither `discharge` nor `charge`. */
  lemma NoUnderscoreNoStub(stub: string, word: string)
    requires '_' in stub
    requires '_' !in word
    ensures !Strings.Occurs(word, stub)
  {
    var k :| 0 <= k < |stub| && stub[k] == '_';
    forall i | 0 <= i <= |word|
      ensures !Strings.StartsWith(word[i..], stub)
    {
      if |stub| <= |word[i..]| {
        assert word[i..][..|stub|][k] == word[i + k];
        assert word[i + k] in word;
        assert word[i..][..|stub|][k] != stub[k];
      }
    }
  }

  /**
   * Joining the discharge and charge tables of one storage kind and
   * stripping the stub leaves exactly the columns `discharge` and `charge`.
   */
  lemma StorageColumns(stub: string)
    requires '_' in stub
    ensures [Strings.Remove(stub + "discharge", stub), Strings.Remove(stub + "charge", stub)] == ["discharge", "charge"]
  {
    Strings.RemoveLeading(stub, "discharge");
    Strings.RemoveLeading(stub, "charge");
    NoUnderscoreNoStub(stub, "discharge");
    NoUnderscoreNoStub(stub, "charge");
    Strings.RemoveAbsent("discharge", stub);
    Strings.RemoveAbsent("charge", stub);
  }

  /** Discharge joined with charge, columns stripped of the common stub. */
  function Storage(engine: Engine, discharge: ExtractRule, charge: ExtractRule, flows: seq<(Label, Series)>, steps: nat): (r: Frame)
    requires Arity(engine, discharge) && Arity(engine, charge)
    requires discharge.unstack.None? && charge.unstack.None?
    requires discharge.stub == charge.stub && '_' in discharge.stub
    ensures WellShaped(r)
    ensures r.columns == ["discharge", "charge"]
    ensures r.names == discharge.groups
  {
    var stub := discharge.stub;
    var d := Run(engine, discharge, flows, steps);
    var c := Run(engine, charge, flows, steps);
    assert Suffixed(d.columns, c.columns, "discharge") == [stub + "discharge"];
    assert Suffixed(c.columns, d.columns, "charge") == [stub + "charge"];
    var joined := Join(d, c, "discharge", "charge").value;
    StorageColumns(stub);
    var r := StripStub(joined, stub);
    assert r.columns == [Strings.Remove(stub + "discharge", stub), Strings.Remove(stub + "charge", stub)];
    r
  }

  /** What the joins rely on: nine extractions, storage pairs at 3-4 and 5-6 without unstacking. */
  predicate RulesShape(rules: seq<(string, ExtractRule)>) {
    && |rules| == 9
    && (forall k :: 0 <= k < |rules| ==> Unstackable(rules[k].1))
    && rules[3].1.unstack.None? && rules[4].1.unstack.None?
    && rules[3].1.stub == rules[4].1.stub && '_' in rules[3].1.stub
    && rules[5].1.unstack.None? && rules[6].1.unstack.None?
    && rules[5].1.stub == rules[6].1.stub && '_' in rules[5].1.stub
  }

  lemma ExtractorsShape()
    ensures RulesShape(Extractors)
  {
    assert Extractors[3].1.stub[4] == '_';
    assert Extractors[5].1.stub[4] == '_';
  }

  /** Every extraction has one value per named group. */
  ghost predicate EngineFits(engine: Engine, rules: seq<(string, ExtractRule)>) {
    forall k :: 0 <= k < |rules| ==> Arity(engine, rules[k].1)
  }

  /**
   * Heat generation left-joined with power-to-heat, without suffixes: it
   * fails with ValueError exactly when the two share a technology column,
   * and otherwise keeps the heat generation rows and appends the
   * power-to-heat columns.
   */
  function HeatTable(engine: Engine, heatRule: ExtractRule, pthRule: ExtractRule, flows: seq<(Label, Series)>, steps: nat): (r: Result<Frame>)
    requires Arity(engine, heatRule) && Unstackable(heatRule) && Arity(engine, pthRule) && Unstackable(pthRule)
    ensures var heat := Run(engine, heatRule, flows, steps);
      var pth := Run(engine, pthRule, flows, steps);
      && (r.Failure? <==> exists c :: c in heat.columns && c in pth.columns)
      && (r.Failure? ==> r.error.ValueError?)
      && (r.Success? ==> Labels(r.value.rows) == Labels(heat.rows) && r.value.columns == heat.columns + pth.columns)
      && (r.Success? ==> r.value.names == heat.names)
  {
    var heat := Run(engine, heatRule, flows, steps);
    var pth := Run(engine, pthRule, flows, steps);
    var joined :- Join(heat, pth, "", "");
    SuffixedEmpty(heat.columns, pth.columns);
    SuffixedEmpty(pth.columns, heat.columns);
    assert Labels(joined.rows) == Labels(heat.rows);
    Success(joined)
  }

  /**
   * The joins of `flows_timexagsxtech`: only the heat join can fail. The
   * result holds the six titles, so the power-to-heat table lives on only
   * inside heat generation; both storage tables have exactly the columns
   * `discharge` and `charge`.
   */
  function JoinExtractions(engine: Engine, rules: seq<(string, ExtractRule)>, flows: seq<(Label, Series)>, steps: nat): (r: Result<seq<(string, Frame)>>)
    requires RulesShape(rules) && EngineFits(engine, rules)
    ensures r.Failure? <==> HeatTable(engine, rules[1].1, rules[2].1, flows, steps).Failure?
    ensures r.Success? ==> Labels(r.value) == Titles && !HasLabel(r.value, "Wärmeerzeugung PtH")
    ensures r.Success? ==> r.value[1].1 == HeatTable(engine, rules[1].1, rules[2].1, flows, steps).value
    ensures r.Success? ==> r.value[4].1.columns == ["discharge", "charge"] && r.value[5].1.columns == ["discharge", "charge"]
  {
    var joined :- HeatTable(engine, rules[1].1, rules[2].1, flows, steps);
    var r := Assemble(
      Run(engine, rules[0].1, flows, steps), joined,
      Run(engine, rules[7].1, flows, steps), Run(engine, rules[8].1, flows, steps),
      Storage(engine, rules[3].1, rules[4].1, flows, steps), Storage(engine, rules[5].1, rules[6].1, flows, steps));
    Success(r)
  }

  /** The result dictionary in its final key order. */
  function Assemble(power: Frame, heat: Frame, powerDemand: Frame, heatDemand: Frame, heatStorage: Frame, battery: Frame): (r: seq<(string, Frame)>)
    ensures Labels(r) == Titles && !HasLabel(r, "Wärmeerzeugung PtH")
    ensures r[0].1 == power && r[1].1 == heat && r[2].1 == powerDemand && r[3].1 == heatDemand
    ensures r[4].1 == heatStorage && r[5].1 == battery
  {
    [("Stromerzeugung", power), ("Wärmeerzeugung", heat), ("Stromnachfrage", powerDemand),
     ("Wärmenachfrage", heatDemand), ("Wärmespeicher", heatStorage), ("Batteriespeicher", battery)]
  }

  /** The index names of the six tables are those of the extractions they come from. */
  lemma JoinExtractionsNames(engine: Engine, rules: seq<(string, ExtractRule)>, flows: seq<(Label, Series)>, steps: nat)
    requires RulesShape(rules) && EngineFits(engine, rules)
    requires JoinExtractions(engine, rules, flows, steps).Success?
    ensures var r := JoinExtractions(engine, rules, flows, steps).value;
      && r[0].1.names == Run(engine, rules[0].1, flows, steps).names
      && r[1].1.names == Run(engine, rules[1].1, flows, steps).names
      && r[2].1.names == Run(engine, rules[7].1, flows, steps).names
      && r[3].1.names == Run(engine, rules[8].1, flows, steps).names
      && r[4].1.names == rules[3].1.groups && r[5].1.names == rules[5].1.groups
  {
  }

  /** `flows_timexagsxtech` with the extraction rules of the analysis. */
  function FlowsTimeAgsTech(engine: Engine, flows: seq<(Label, Series)>, steps: nat): (r: Result<seq<(string, Frame)>>)
    requires EngineFits(engine, Extractors)
    ensures r.Failure? ==> r.error.ValueError?
    ensures r.Success? ==> Labels(r.value) == Titles
  {
    ExtractorsShape();
    JoinExtractions(engine, Extractors, flows, steps)
  }
}

=== FILE: grid.dfy ===
/**
 * The grid between regions (`model/region/tools.py`): line capacities
 * reduced to one capacity per pair of HV-MV substations, and the graph of
 * those pairs.
 */
module Grid {
  import opened Wrappers
  import opened Tables

  /** A grid line between two buses with nominal apparent power `s_nom`. */
  datatype Line = Line(lineId: int, bus0: int, bus1: int, sNom: real)

  /** The bus table: the HV-MV substation (region) each bus belongs to. */
  type Buses = map<int, int>

  /** A pair of substation ids. */
  type Pair = (int, int)

  // ---------------------------------------------------------------------
  // reduce_to_regions

  /** The substations of a line's buses; None when a bus is unknown (NaN after the join). */
  function Substations(buses: Buses, l: Line): Option<Pair> {
    if l.bus0 in buses && l.bus1 in buses then Some((buses[l.bus0], buses[l.bus1])) else None
  }

  /**
   * The group of a line: its substation pair in ascending order. A line
   * within one region has none (it is filtered out), and neither has a line
   * with an unknown bus (its NaN key falls out of the group-by).
   */
  function PairKey(buses: Buses): Line -> Option<Pair> {
    (l: Line) =>
      match Substations(buses, l)
      case None => None
      case Some(p) => if p.0 == p.1 then None else if p.0 > p.1 then Some((p.1, p.0)) else Some(p)
  }

  /** The lines as (line, s_nom) entries. */
  function Entries(lines: seq<Line>): (r: seq<(Line, real)>)
    ensures |r| == |lines| && forall i :: 0 <= i < |lines| ==> r[i] == (lines[i], lines[i].sNom)
  {
    seq(|lines|, i requires 0 <= i < |lines| => (lines[i], lines[i].sNom))
  }

  /** Some line joins substations `a` and `b`, in either direction. */
  predicate Connects(buses: Buses, lines: seq<Line>, a: int, b: int) {
    exists i :: 0 <= i < |lines| && (Substations(buses, lines[i]) == Some((a, b)) || Substations(buses, lines[i]) == Some((b, a)))
  }

  /** Reference: the summed `s_nom` of the lines joining `a` and `b` in either direction. */
  function PairCapacity(buses: Buses, lines: seq<Line>, a: int, b: int): real
    decreases |lines|
  {
    if |lines| == 0 then 0.0
    else
      var l := lines[|lines| - 1];
      var s := Substations(buses, l);
      PairCapacity(buses, lines[..|lines| - 1], a, b) + (if s == Some((a, b)) || s == Some((b, a)) then l.sNom else 0.0)
  }

  /** Reference: the summed `s_nom` of all lines whose buses lie in two different known regions. */
  function CrossCapacity(buses: Buses, lines: seq<Line>): real
    decreases |lines|
  {
    if |lines| == 0 then 0.0
    else
      var l := lines[|lines| - 1];
      var s := Substations(buses, l);
      CrossCapacity(buses, lines[..|lines| - 1]) + (if s.Some? && s.value.0 != s.value.1 then l.sNom else 0.0)
  }

  /**
   * `reduce_to_regions`: one row per pair of different substations joined
   * by some line, ids in ascending order, holding the summed capacity.
   */
  function ReduceToRegions(buses: Buses, lines: seq<Line>): (r: seq<(Pair, real)>)
    ensures DistinctLabels(r)
    ensures forall i :: 0 <= i < |r| ==> r[i].0.0 < r[i].0.1
    ensures forall a, b :: HasLabel(r, (a, b)) <==> a < b && Connects(buses, lines, a, b)
  {
    var xs := Entries(lines);
    var key := PairKey(buses);
    var r := Collapse(xs, key, RealAdd);
    forall i | 0 <= i < |r|
      ensures r[i].0.0 < r[i].0.1
    {
      assert HasLabel(r, r[i].0);
      var j :| 0 <= j < |xs| && key(xs[j].0) == Some(r[i].0);
    }
    forall a, b
      ensures HasLabel(r, (a, b)) <==> a < b && Connects(buses, lines, a, b)
    {
      if HasLabel(r, (a, b)) {
        var j :| 0 <= j < |xs| && key(xs[j].0) == Some((a, b));
        assert xs[j].0 == lines[j];
      }
      if a < b && Connects(buses, lines, a, b) {
        var j :| 0 <= j < |lines| && (Substations(buses, lines[j]) == Some((a, b)) || Substations(buses, lines[j]) == Some((b, a)));
        assert key(xs[j].0) == Some((a, b));
      }
    }
    r
  }

  /** The reduction's group sum for `(a, b)` is the reference capacity of the pair. */
  lemma {:induction false} PairKeySum(buses: Buses, lines: seq<Line>, a: int, b: int)
    requires a < b
    ensures KeySum(Entries(lines), PairKey(buses), (a, b), RealAdd, 0.0) == PairCapacity(buses, lines, a, b)
    decreases |lines|
  {
    if |lines| > 0 {
      var pre := lines[..|lines| - 1];
      PairKeySum(buses, pre, a, b);
      assert Entries(lines)[..|lines| - 1] == Entries(pre);
    }
  }

  /**
   * Each pair's capacity is the sum of `s_nom` over all lines joining the
   * two regions, whichever way round the line is recorded.
   */
  lemma ReduceCapacity(buses: Buses, lines: seq<Line>, a: int, b: int)
    requires a < b
    ensures Lookup(ReduceToRegions(buses, lines), (a, b)) ==
              if Connects(buses, lines, a, b) then Some(PairCapacity(buses, lines, a, b)) else None
  {
    RealAddMonoid();
    CollapseLookup(Entries(lines), PairKey(buses), RealAdd, 0.0, (a, b));
    PairKeySum(buses, lines, a, b);
  }

  lemma {:induction false} KeyedCross(buses: Buses, lines: seq<Line>)
    ensures KeyedTotal(Entries(lines), PairKey(buses)) == CrossCapacity(buses, lines)
    decreases |lines|
  {
    if |lines| > 0 {
      var pre := lines[..|lines| - 1];
      KeyedCross(buses, pre);
      assert Entries(lines)[..|lines| - 1] == Entries(pre);
    }
  }

  /** Total cross-region capacity is preserved by the reduction. */
  lemma ReduceTotal(buses: Buses, lines: seq<Line>)
    ensures ValueTotal(ReduceToRegions(buses, lines)) == CrossCapacity(buses, lines)
  {
    CollapseTotal(Entries(lines), PairKey(buses));
    KeyedCross(buses, lines);
  }

  // ---------------------------------------------------------------------
  // region_graph

  /** An undirected graph; each edge is stored once, as (smaller, larger) id. */
  datatype Graph = Graph(nodes: set<int>, edges: set<Pair>)

  function Edge(a: int, b: int): (e: Pair)
    ensures e.0 <= e.1 && {e.0, e.1} == {a, b}
  {
    if a <= b then (a, b) else (b, a)
  }

  /** Every edge joins two nodes of the graph and is stored in ascending order. */
  predicate Valid(g: Graph) {
    forall e :: e in g.edges ==> e.0 <= e.1 && e.0 in g.nodes && e.1 in g.nodes
  }

  predicate Adjacent(g: Graph, a: int, b: int) {
    Edge(a, b) in g.edges
  }

  /** The first substation id, in row order and source before target, that the table lacks. */
  function MissingId(substations: set<int>, rows: seq<(Pair, real)>): (r: Option<int>)
    ensures r.None? <==> forall i :: 0 <= i < |rows| ==> rows[i].0.0 in substations && rows[i].0.1 in substations
    ensures r.Some? ==> r.value !in substations && exists i :: 0 <= i < |rows| && r.value in {rows[i].0.0, rows[i].0.1}
    decreases |rows|
  {
    if |rows| == 0 then None
    else if rows[0].0.0 !in substations then Some(rows[0].0.0)
    else if rows[0].0.1 !in substations then Some(rows[0].0.1)
    else
      var rest := MissingId(substations, rows[1..]);
      assert forall i :: 1 <= i < |rows| ==> rows[i] == rows[1..][i - 1];
      if rest.Some? then
        var i :| 0 <= i < |rows[1..]| && rest.value in {rows[1..][i].0.0, rows[1..][i].0.1};
        assert rest.value in {rows[i + 1].0.0, rows[i + 1].0.1};
        rest
      else rest
  }

  /** The substations the rows name. */
  function Nodes(rows: seq<(Pair, real)>): (ns: set<int>)
    ensures forall n :: n in ns <==> exists i :: 0 <= i < |rows| && (n == rows[i].0.0 || n == rows[i].0.1)
    decreases |rows|
  {
    if |rows| == 0 then {}
    else
      var pre := rows[..|rows| - 1];
      assert forall i :: 0 <= i < |pre| ==> pre[i] == rows[i];
      Nodes(pre) + {rows[|rows| - 1].0.0, rows[|rows| - 1].0.1}
  }

  /** One undirected edge per row. */
  function Edges(rows: seq<(Pair, real)>): (es: set<Pair>)
    ensures forall e :: e in es <==> exists i :: 0 <= i < |rows| && e == Edge(rows[i].0.0, rows[i].0.1)
    decreases |rows|
  {
    if |rows| == 0 then {}
    else
      var pre := rows[..|rows| - 1];
      assert forall i :: 0 <= i < |pre| ==> pre[i] == rows[i];
      Edges(pre) + {Edge(rows[|rows| - 1].0.0, rows[|rows| - 1].0.1)}
  }

  /** The graph of the rows: every edge joins two of its nodes. */
  function Build(rows: seq<(Pair, real)>): (g: Graph)
    ensures Valid(g)
    ensures g.nodes == Nodes(rows) && g.edges == Edges(rows)
  {
    var g := Graph(Nodes(rows), Edges(rows));
    forall e | e in g.edges
      ensures e.0 <= e.1 && e.0 in g.nodes && e.1 in g.nodes
    {
      var i :| 0 <= i < |rows| && e == Edge(rows[i].0.0, rows[i].0.1);
    }
    g
  }

  /**
   * `region_graph` without drawing: one undirected edge per row between its
   * two substations; a substation missing from the substation table raises
   * KeyError (the position lookup), the first such id in row order.
   */
  function RegionGraph(substations: set<int>, rows: seq<(Pair, real)>): (r: Result<Graph>)
    ensures r.Success? <==> forall i :: 0 <= i < |rows| ==> rows[i].0.0 in substations && rows[i].0.1 in substations
    ensures r.Failure? ==> r.error.IdKeyError? && r.error.id !in substations
    ensures r.Failure? ==> exists i :: 0 <= i < |rows| && r.error.id in {rows[i].0.0, rows[i].0.1}
    ensures r.Success? ==> Valid(r.value)
    ensures r.Success? ==> forall n :: n in r.value.nodes <==> exists i :: 0 <= i < |rows| && (n == rows[i].0.0 || n == rows[i].0.1)
    ensures r.Success? ==> forall e :: e in r.value.edges <==> exists i :: 0 <= i < |rows| && e == Edge(rows[i].0.0, rows[i].0.1)
  {
    match MissingId(substations, rows)
    case Some(id) => Failure(IdKeyError(id))
    case None => Success(Build(rows))
  }

  /** Adjacency is symmetric: the graph is undirected. */
  lemma AdjacentSymmetric(g: Graph, a: int, b: int)
    ensures Adjacent(g, a, b) <==> Adjacent(g, b, a)
  {
    assert Edge(a, b) == Edge(b, a);
  }

  /**
   * On the output of the reduction, two regions are adjacent exactly when
   * some line joins them.
   */
  lemma ReducedGraphEdges(substations: set<int>, buses: Buses, lines: seq<Line>, a: int, b: int)
    requires RegionGraph(substations, ReduceToRegions(buses, lines)).Success?
    requires a != b
    ensures Adjacent(RegionGraph(substations, ReduceToRegions(buses, lines)).value, a, b) <==> Connects(buses, lines, a, b)
  {
    if Adjacent(RegionGraph(substations, ReduceToRegions(buses, lines)).value, a, b) {
      AdjacentConnects(substations, buses, lines, a, b);
    }
    if Connects(buses, lines, a, b) {
      ConnectsAdjacent(substations, buses, lines, a, b);
    }
  }

  lemma AdjacentConnects(substations: set<int>, buses: Buses, lines: seq<Line>, a: int, b: int)
    requires RegionGraph(substations, ReduceToRegions(buses, lines)).Success?
    requires a != b
    requires Adjacent(RegionGraph(substations, ReduceToRegions(buses, lines)).value, a, b)
    ensures Connects(buses, lines, a, b)
  {
    var rows := ReduceToRegions(buses, lines);
    var e := Edge(a, b);
    var i :| 0 <= i < |rows| && e == Edge(rows[i].0.0, rows[i].0.1);
    assert HasLabel(rows, rows[i].0);
    assert HasLabel(rows, (e.0, e.1));
    if e.0 != a {
      assert Connects(buses, lines, e.0, e.1);
    }
  }

  lemma ConnectsAdjacent(substations: set<int>, buses: Buses, lines: seq<Line>, a: int, b: int)
    requires RegionGraph(substations, ReduceToRegions(buses, lines)).Success?
    requires a != b
    requires Connects(buses, lines, a, b)
    ensures Adjacent(RegionGraph(substations, ReduceToRegions(buses, lines)).value, a, b)
  {
    var rows := ReduceToRegions(buses, lines);
    var e := Edge(a, b);
    if !Connects(buses, lines, e.0, e.1) {
      assert Connects(buses, lines, b, a);
    }
    assert HasLabel(rows, (e.0, e.1));
    var i :| 0 <= i < |rows| && rows[i].0 == (e.0, e.1);
    assert e == Edge(rows[i].0.0, rows[i].0.1);
  }

  // ---------------------------------------------------------------------
  // _find_main_graph (the connected components are networkx's, a parameter)

  /**
   * The `{node count: component}` dictionary: a later component of some
   * size replaces an earlier one of the same size.
   */
  function BySize(comps: seq<set<int>>): (m: map<nat, set<int>>)
    ensures forall k :: k in m <==> exists i :: 0 <= i < |comps| && |comps[i]| == k
    ensures forall k :: k in m ==> m[k] in comps && |m[k]| == k
    decreases |comps|
  {
    if |comps| == 0 then map[]
    else
      var pre := comps[..|comps| - 1];
      var c := comps[|comps| - 1];
      assert forall i :: 0 <= i < |pre| ==> pre[i] == comps[i];
      BySize(pre)[|c| := c]
  }

  /** The largest node count among the components (0 for none). */
  function MaxSize(comps: seq<set<int>>): (n: nat)
    ensures forall i :: 0 <= i < |comps| ==> |comps[i]| <= n
    ensures |comps| > 0 ==> exists i :: 0 <= i < |comps| && |comps[i]| == n
    decreases |comps|
  {
    if |comps| == 0 then 0
    else
      var rest := MaxSize(comps[1..]);
      assert forall i :: 1 <= i < |comps| ==> comps[i] == comps[1..][i - 1];
      if |comps[0]| >= rest then |comps[0]| else rest
  }

  /** Two components of different node counts exist. */
  predicate SizesDiffer(comps: seq<set<int>>) {
    exists i, j :: 0 <= i < j < |comps| && |comps[i]| != |comps[j]|
  }

  lemma BySizeKeys(comps: seq<set<int>>)
    ensures |BySize(comps)| > 1 <==> SizesDiffer(comps)
  {
    var m := BySize(comps);
    if |m| > 1 {
      var x, y := TwoKeys(m.Keys);
      var i :| 0 <= i < |comps| && |comps[i]| == x;
      var j :| 0 <= j < |comps| && |comps[j]| == y;
      if i < j {
        assert |comps[i]| != |comps[j]|;
      } else {
        assert |comps[j]| != |comps[i]|;
      }
    }
    if SizesDiffer(comps) {
      var i, j :| 0 <= i < j < |comps| && |comps[i]| != |comps[j]|;
      MoreThanOne(|comps[i]|, |comps[j]|, m.Keys);
    }
  }

  /** A set of more than one element holds two different ones. */
  lemma TwoKeys(s: set<nat>) returns (x: nat, y: nat)
    requires |s| > 1
    ensures x in s && y in s && x != y
  {
    x :| x in s;
    assert |s - {x}| == |s| - 1;
    y :| y in s - {x};
  }

  /** A set holding two different elements has more than one. */
  lemma MoreThanOne(a: nat, b: nat, s: set<nat>)
    requires a in s && b in s && a != b
    ensures |s| > 1
  {
    assert |{a, b}| == 2;
    SubsetCard({a, b}, s);
  }

  lemma SubsetCard(a: set<nat>, b: set<nat>)
    requires a <= b
    ensures |a| <= |b|
  {
    assert b == a + (b - a);
  }

  /**
   * `_find_main_graph` as written: the last component of largest node
   * count, but only when the components have at least two different node
   * counts; otherwise it falls through and returns None.
   */
  function FindMainGraphAsWritten(comps: seq<set<int>>): (r: Option<set<int>>)
    ensures r.Some? <==> SizesDiffer(comps)
    ensures r.Some? ==> r.value in comps && forall i :: 0 <= i < |comps| ==> |comps[i]| <= |r.value|
  {
    var m := BySize(comps);
    BySizeKeys(comps);
    if |m| > 1 then Some(m[MaxSize(comps)]) else None
  }

  /**
   * A connected grid of one component (or of components of equal size)
   * makes `region_graph(..., rm_isolates=True)` return None instead of the
   * grid.
   */
  lemma FindMainGraphDropsConnectedGrid()
    ensures FindMainGraphAsWritten([{1, 2}]) == None
    ensures FindMainGraph([{1, 2}]) == Some({1, 2})
  {
  }

  /** `_find_main_graph` as intended: a component of largest node count whenever there is a component. */
  function FindMainGraph(comps: seq<set<int>>): (r: Option<set<int>>)
    ensures r.Some? <==> |comps| > 0
    ensures r.Some? ==> r.value in comps && forall i :: 0 <= i < |comps| ==> |comps[i]| <= |r.value|
  {
    if |comps| == 0 then None else Some(BySize(comps)[MaxSize(comps)])
  }

  /** Where the written code returns a component, the corrected one returns the same. */
  lemma FindMainGraphAgrees(comps: seq<set<int>>)
    ensures FindMainGraphAsWritten(comps).Some? ==> FindMainGraphAsWritten(comps) == FindMainGraph(comps)
  {
  }

  /** The subgraph induced by a component. */
  function Induced(g: Graph, c: set<int>): (r: Graph)
    requires Valid(g)
    ensures Valid(r) && r.nodes == c * g.nodes
    ensures forall e :: e in r.edges <==> e in g.edges && e.0 in c && e.1 in c
  {
    Graph(c * g.nodes, set e | e in g.edges && e.0 in c && e.1 in c)
  }

  /**
   * `region_graph` with `rm_isolates` as written: the subgraph of the main
   * component, and None, in place of the graph, whenever all components
   * have the same node count.
   */
  function MainGraphAsWritten(g: Graph, comps: seq<set<int>>): (r: Option<Graph>)
    requires Valid(g)
    ensures r.Some? <==> SizesDiffer(comps)
    ensures r.Some? ==> Valid(r.value) && r.value.nodes <= g.nodes && r.value.edges <= g.edges
    ensures r.Some? ==> r.value.nodes == FindMainGraphAsWritten(comps).value * g.nodes
  {
    match FindMainGraphAsWritten(comps)
    case None => None
    case Some(c) => Some(Induced(g, c))
  }

  /**
   * `region_graph` with `rm_isolates` as intended: the main component's
   * subgraph, present whenever there is a component.
   */
  function MainGraph(g: Graph, comps: seq<set<int>>): (r: Option<Graph>)
    requires Valid(g)
    ensures r.Some? <==> |comps| > 0
    ensures r.Some? ==> Valid(r.value) && r.value.nodes <= g.nodes && r.value.edges <= g.edges
    ensures r.Some? ==> r.value.nodes == FindMainGraph(comps).value * g.nodes
  {
    match FindMainGraph(comps)
    case None => None
    case Some(c) => Some(Induced(g, c))
  }

  /** The two agree wherever the written code returns a graph; on one connected grid only the corrected one does. */
  lemma MainGraphAgrees(g: Graph, comps: seq<set<int>>)
    requires Valid(g)
    ensures MainGraphAsWritten(g, comps).Some? ==> MainGraphAsWritten(g, comps) == MainGraph(g, comps)
    ensures MainGraphAsWritten(g, [g.nodes]).None? && MainGraph(g, [g.nodes]) == Some(g)
  {
    FindMainGraphAgrees(comps);
    assert !SizesDiffer([g.nodes]);
    var c := [g.nodes];
    assert FindMainGraph(c) == Some(g.nodes) by {
      assert BySize(c) == map[|g.nodes| := g.nodes];
    }
    assert Induced(g, g.nodes) == g;
  }
}

=== FILE: node_ids.dfy ===
/**
 * Typed node identifiers. Node labels follow the convention
 * `<kind>_<ags>_b<bus>_<tech>`, e.g. `gen_el_15001000_b1_wind`: an
 * electricity generator in municipality 15001000 at bus 1 with technology
 * wind. `Parse` reads a label that consists of exactly that shape, from its
 * first to its last character. It is a model of the naming convention on
 * its own: the aggregation matches its patterns through `Patterns.Engine`,
 * which searches anywhere in a label, and does not go through `Parse`.
 */
module NodeIds {
  import opened Wrappers
  import opened Strings

  datatype NodeId = NodeId(kind: string, ags: string, bus: string, tech: string)

  /** Municipality and bus are non-empty digit strings, the technology a non-empty word. */
  predicate WellFormed(id: NodeId) {
    && |id.ags| > 0 && AllDigits(id.ags)
    && |id.bus| > 0 && AllDigits(id.bus)
    && |id.tech| > 0 && AllWordChars(id.tech)
  }

  function Format(id: NodeId): string {
    id.kind + "_" + id.ags + "_b" + id.bus + "_" + id.tech
  }

  /** Splits `<digits>_<word>` at the end of the digit run. */
  function SplitRun(t: string, sep: string): (r: Option<(string, string)>)
    ensures r.Some? ==> |r.value.0| > 0 && AllDigits(r.value.0)
    ensures r.Some? ==> t == r.value.0 + sep + r.value.1
  {
    var n := DigitRun(t);
    if n == 0 || !StartsWith(t[n..], sep) then None
    else
      assert t[n..] == sep + t[n + |sep|..];
      assert t == t[..n] + t[n..];
      Some((t[..n], t[n + |sep|..]))
  }

  /**
   * Decomposes a label of the given kind. Both `\d+` runs are greedy and
   * must be followed by `_`, so the split is unique; the technology is the
   * whole remainder.
   */
  function Parse(kind: string, s: string): (r: Option<NodeId>)
    ensures r.Some? ==> r.value.kind == kind && WellFormed(r.value) && Format(r.value) == s
  {
    if !StartsWith(s, kind + "_") then None
    else
      var first := SplitRun(s[|kind| + 1..], "_b");
      if first.None? then None
      else
        var second := SplitRun(first.value.1, "_");
        if second.None? || |second.value.1| == 0 || !AllWordChars(second.value.1) then None
        else
          var (ags, tail) := first.value;
          var (bus, tech) := second.value;
          var id := NodeId(kind, ags, bus, tech);
          calc {
            s;
            (kind + "_") + s[|kind| + 1..];
            (kind + "_") + (ags + "_b" + (bus + "_" + tech));
            { SeqAssoc5(kind + "_", ags, "_b", bus, "_", tech); }
            Format(id);
          }
          Some(id)
  }

  lemma SeqAssoc5(a: string, b: string, c: string, d: string, e: string, f: string)
    ensures a + (b + c + (d + e + f)) == a + b + c + d + e + f
  {
  }

  lemma {:induction false} DigitRunStops(d: string, rest: string)
    requires AllDigits(d)
    requires |rest| > 0 && !IsDigit(rest[0])
    ensures DigitRun(d + rest) == |d|
    decreases |d|
  {
    if |d| > 0 {
      assert (d + rest)[1..] == d[1..] + rest;
      DigitRunStops(d[1..], rest);
    } else {
      assert d + rest == rest;
    }
  }

  /** A digit string followed by the separator splits back into its parts. */
  lemma SplitRunJoin(d: string, sep: string, t: string)
    requires |d| > 0 && AllDigits(d)
    requires |sep| > 0 && sep[0] == '_'
    ensures SplitRun(d + sep + t, sep) == Some((d, t))
  {
    var u := d + sep + t;
    DigitRunStops(d, sep + t);
    assert u == d + (sep + t);
    assert u[|d|..] == sep + t;
    assert StartsWith(u[|d|..], sep) by {
      assert (sep + t)[..|sep|] == sep;
    }
    assert u[..|d|] == d;
    assert u[|d| + |sep|..] == t;
  }

  /** Formatting a well-formed identifier and parsing it back gives the identifier. */
  lemma ParseFormat(id: NodeId)
    requires WellFormed(id)
    ensures Parse(id.kind, Format(id)) == Some(id)
  {
    var s := Format(id);
    var tail := id.bus + "_" + id.tech;
    var rest := id.ags + "_b" + tail;
    assert s == (id.kind + "_") + rest;
    assert StartsWith(s, id.kind + "_") by {
      assert s[..|id.kind| + 1] == id.kind + "_";
    }
    assert s[|id.kind| + 1..] == rest;
    SplitRunJoin(id.ags, "_b", tail);
    SplitRunJoin(id.bus, "_", id.tech);
  }

  /** Two labels of one kind that parse to the same identifier are the same label. */
  lemma ParseInjective(kind: string, s1: string, s2: string)
    requires Parse(kind, s1).Some? && Parse(kind, s1) == Parse(kind, s2)
    ensures s1 == s2
  {
  }
}

=== FILE: parameters.dfy ===
/**
 * `aggregate_parameters`: the scenario's technology assumptions split into
 * generators (`Erzeuger`) and storages (`Speicher`). Storage rows lose the
 * `sys_eff` column, take the display names of the storage nodes, and gain
 * the storage parameters of the configuration; the installed battery
 * capacities pass through unchanged.
 */
module Parameters {
  import opened Wrappers
  import opened Strings
  import opened Tables

  /** Technology assumptions: column names and one row of values per technology. */
  datatype TechTable = TechTable(columns: seq<string>, rows: seq<(string, seq<real>)>)

  /** The storage table after the configuration join; None is a NaN cell. */
  datatype StorageTable = StorageTable(columns: seq<string>, rows: seq<(string, seq<Option<real>>)>)

  /** A configuration section: per technology, its named parameters. */
  type Section = seq<(string, seq<(string, real)>)>

  datatype Params<B> = Params(producers: TechTable, storages: StorageTable, batteriesLarge: B, batteriesSmall: B)

  predicate WellShaped(t: TechTable) {
    forall i :: 0 <= i < |t.rows| ==> |t.rows[i].1| == |t.columns|
  }

  /** Storage node prefixes and the names the storage table uses for them. */
  const Names: seq<(string, string)> := [
    ("stor_battery_large", "flex_bat_large"),
    ("stor_battery_small", "flex_bat_small"),
    ("stor_th_large", "th_cen_storage"),
    ("stor_th_small", "th_dec_pth_storage")]

  predicate IsStorage(name: string) {
    StartsWith(name, "stor_")
  }

  /** The rows whose name does (`storage`) or does not start with `stor_`, in order. */
  function Select(rows: seq<(string, seq<real>)>, storage: bool): (r: seq<(string, seq<real>)>)
    ensures forall x :: x in r <==> x in rows && IsStorage(x.0) == storage
    ensures |r| <= |rows|
  {
    if |rows| == 0 then []
    else
      var rest := Select(rows[1..], storage);
      assert forall x :: x in rows <==> x == rows[0] || x in rows[1..] by {
        assert rows == [rows[0]] + rows[1..];
      }
      if IsStorage(rows[0].0) == storage then [rows[0]] + rest else rest
  }

  /** Generators and storages partition the assumptions: together they hold every row exactly as often. */
  lemma {:induction false} SelectPartition(rows: seq<(string, seq<real>)>)
    ensures multiset(Select(rows, true)) + multiset(Select(rows, false)) == multiset(rows)
    decreases |rows|
  {
    if |rows| > 0 {
      SelectPartition(rows[1..]);
      assert rows == [rows[0]] + rows[1..];
    }
  }

  /** The values of the columns not named `c`. */
  function DropNamed<V>(cols: seq<string>, vals: seq<V>, c: string): (r: seq<V>)
    requires |cols| == |vals|
    ensures |r| <= |vals|
    ensures forall x :: x in r ==> x in vals
  {
    if |cols| == 0 then []
    else
      var rest := DropNamed(cols[1..], vals[1..], c);
      if cols[0] == c then rest else [vals[0]] + rest
  }

  lemma {:induction false} DropNamedLength<V>(cols: seq<string>, vals: seq<V>, c: string)
    requires |cols| == |vals|
    ensures |DropNamed(cols, vals, c)| == |DropNamed(cols, cols, c)|
    decreases |cols|
  {
    if |cols| > 0 {
      DropNamedLength(cols[1..], vals[1..], c);
    }
  }

  lemma {:induction false} DropNamedColumns(cols: seq<string>, c: string)
    ensures forall x :: x in DropNamed(cols, cols, c) <==> x in cols && x != c
    decreases |cols|
  {
    if |cols| > 0 {
      DropNamedColumns(cols[1..], c);
      assert cols == [cols[0]] + cols[1..];
    }
  }

  /**
   * `drop(c, axis=1)`: KeyError when no column is named `c`; otherwise
   * every column named `c` disappears and every other column stays.
   */
  function DropColumn(t: TechTable, c: string): (r: Result<TechTable>)
    requires WellShaped(t)
    ensures r.Failure? <==> c !in t.columns
    ensures r.Failure? ==> r.error == KeyError(c)
    ensures r.Success? ==> WellShaped(r.value) && Labels(r.value.rows) == Labels(t.rows)
    ensures r.Success? ==> forall x :: x in r.value.columns <==> x in t.columns && x != c
  {
    if c !in t.columns then Failure(KeyError(c))
    else
      var cols := DropNamed(t.columns, t.columns, c);
      DropNamedColumns(t.columns, c);
      var rows := seq(|t.rows|, i requires 0 <= i < |t.rows| => (t.rows[i].0, DropNamed(t.columns, t.rows[i].1, c)));
      forall i | 0 <= i < |rows|
        ensures |rows[i].1| == |cols|
      {
        DropNamedLength(t.columns, t.rows[i].1, c);
      }
      Success(TechTable(cols, rows))
  }

  /** `rename(index=NAMES)`: the display name of a storage node; other names are kept. */
  function Rename(name: string): string {
    Lookup(Names, name).GetOr(name)
  }

  /** A configuration parameter; KeyError for a missing technology or parameter. */
  function Param(section: Section, tech: string, name: string): (r: Result<real>)
    ensures r.Success? <==> HasLabel(section, tech) && HasLabel(Lookup(section, tech).value, name)
    ensures r.Failure? ==> r.error.KeyError?
    ensures r.Success? ==> r.value == Lookup(Lookup(section, tech).value, name).value
  {
    var params :- Lookup(section, tech).ToResult(KeyError(tech));
    Lookup(params, name).ToResult(KeyError(name))
  }

  /** The named parameters of one technology, in the given order. */
  function ParamRow(section: Section, tech: string, names: seq<string>): (r: Result<seq<real>>)
    ensures r.Success? <==> forall k :: 0 <= k < |names| ==> Param(section, tech, names[k]).Success?
    ensures r.Failure? ==> r.error.KeyError?
    ensures r.Success? ==> |r.value| == |names| && forall k :: 0 <= k < |names| ==> r.value[k] == Param(section, tech, names[k]).value
  {
    if |names| == 0 then Success([])
    else
      var v :- Param(section, tech, names[0]);
      var rest :- ParamRow(section, tech, names[1..]);
      assert forall k :: 1 <= k < |names| ==> names[k] == names[1..][k - 1];
      Success([v] + rest)
  }

  /** The two heat storages and the two batteries have every one of the named parameters. */
  predicate AllConfigured(storage: Section, flexopt: Section, names: seq<string>) {
    && ParamRow(storage, "th_cen_storage", names).Success?
    && ParamRow(storage, "th_dec_pth_storage", names).Success?
    && ParamRow(flexopt, "flex_bat_large", names).Success?
    && ParamRow(flexopt, "flex_bat_small", names).Success?
  }

  /** `th_dec_pth_storage` is configured, and all four storages have every one of its parameters. */
  predicate ConfigComplete(storage: Section, flexopt: Section) {
    HasLabel(storage, "th_dec_pth_storage") &&
    AllConfigured(storage, flexopt, Labels(Lookup(storage, "th_dec_pth_storage").value))
  }

  /** The rows of the four storages over the named parameters; the first missing lookup raises. */
  function ConfigValues(storage: Section, flexopt: Section, names: seq<string>): (r: Result<seq<(string, seq<real>)>>)
    ensures r.Success? <==> AllConfigured(storage, flexopt, names)
    ensures r.Failure? ==> r.error.KeyError?
    ensures r.Success? ==> Labels(r.value) == ["th_cen_storage", "th_dec_pth_storage", "flex_bat_large", "flex_bat_small"]
    ensures r.Success? ==> forall i :: 0 <= i < |r.value| ==> |r.value[i].1| == |names|
    ensures r.Success? ==> r.value == [
      ("th_cen_storage", ParamRow(storage, "th_cen_storage", names).value),
      ("th_dec_pth_storage", ParamRow(storage, "th_dec_pth_storage", names).value),
      ("flex_bat_large", ParamRow(flexopt, "flex_bat_large", names).value),
      ("flex_bat_small", ParamRow(flexopt, "flex_bat_small", names).value)]
  {
    var cen := ParamRow(storage, "th_cen_storage", names);
    var dec := ParamRow(storage, "th_dec_pth_storage", names);
    var large := ParamRow(flexopt, "flex_bat_large", names);
    var small := ParamRow(flexopt, "flex_bat_small", names);
    if cen.Failure? then Failure(cen.error)
    else if dec.Failure? then Failure(dec.error)
    else if large.Failure? then Failure(large.error)
    else if small.Failure? then Failure(small.error)
    else
      var rows := [("th_cen_storage", cen.value), ("th_dec_pth_storage", dec.value), ("flex_bat_large", large.value), ("flex_bat_small", small.value)];
      assert |cen.value| == |dec.value| == |large.value| == |small.value| == |names|;
      Success(rows)
  }

  /**
   * The configuration rows joined to the storages: the parameter names of
   * `th_dec_pth_storage`, and for the two heat storages (storage section)
   * and the two batteries (flexibility section) their values of those
   * parameters.
   */
  function ConfigRows(storage: Section, flexopt: Section): (r: Result<(seq<string>, seq<(string, seq<real>)>)>)
    ensures !HasLabel(storage, "th_dec_pth_storage") ==> r == Failure(KeyError("th_dec_pth_storage"))
    ensures r.Success? <==> ConfigComplete(storage, flexopt)
    ensures r.Failure? ==> r.error.KeyError?
    ensures r.Success? ==> r.value.0 == Labels(Lookup(storage, "th_dec_pth_storage").value)
    ensures r.Success? ==> Labels(r.value.1) == ["th_cen_storage", "th_dec_pth_storage", "flex_bat_large", "flex_bat_small"]
    ensures r.Success? ==> forall i :: 0 <= i < |r.value.1| ==> |r.value.1[i].1| == |r.value.0|
    ensures r.Success? ==> r.value.1 == [
      ("th_cen_storage", ParamRow(storage, "th_cen_storage", r.value.0).value),
      ("th_dec_pth_storage", ParamRow(storage, "th_dec_pth_storage", r.value.0).value),
      ("flex_bat_large", ParamRow(flexopt, "flex_bat_large", r.value.0).value),
      ("flex_bat_small", ParamRow(flexopt, "flex_bat_small", r.value.0).value)]
  {
    var pthParams :- Lookup(storage, "th_dec_pth_storage").ToResult(KeyError("th_dec_pth_storage"));
    var names := Labels(pthParams);
    var extra :- ConfigValues(storage, flexopt, names);
    Success((names, extra))
  }

  /**
   * Left join of the configuration rows onto the storage table. A column
   * name on both sides raises ValueError; a storage without configuration
   * row gets NaN cells.
   */
  function JoinConfig(t: TechTable, names: seq<string>, extra: seq<(string, seq<real>)>): (r: Result<StorageTable>)
    requires WellShaped(t)
    requires forall i :: 0 <= i < |extra| ==> |extra[i].1| == |names|
    ensures r.Failure? <==> exists c :: c in t.columns && c in names
    ensures r.Failure? ==> r.error.ValueError?
    ensures r.Success? ==> r.value.columns == t.columns + names && Labels(r.value.rows) == Labels(t.rows)
    ensures r.Success? ==> forall i :: 0 <= i < |t.rows| ==>
      var row := r.value.rows[i].1;
      && |row| == |t.columns| + |names|
      && (forall j :: 0 <= j < |t.columns| ==> row[j] == Some(t.rows[i].1[j]))
      && (forall j :: 0 <= j < |names| ==>
            row[|t.columns| + j] == if HasLabel(extra, t.rows[i].0) then Some(Lookup(extra, t.rows[i].0).value[j]) else None)
  {
    if exists c :: c in t.columns && c in names then
      Failure(ValueError("columns overlap but no suffix specified"))
    else
      var rows := seq(|t.rows|, i requires 0 <= i < |t.rows| =>
        (t.rows[i].0, Present(t.rows[i].1) + ExtraCells(extra, t.rows[i].0, |names|)));
      Success(StorageTable(t.columns + names, rows))
  }

  function Present(vals: seq<real>): (r: seq<Option<real>>)
    ensures |r| == |vals| && forall j :: 0 <= j < |vals| ==> r[j] == Some(vals[j])
  {
    seq(|vals|, j requires 0 <= j < |vals| => Some(vals[j]))
  }

  /** The configuration cells of one storage, or `n` NaN cells when it has none. */
  function ExtraCells(extra: seq<(string, seq<real>)>, name: string, n: nat): (r: seq<Option<real>>)
    requires forall i :: 0 <= i < |extra| ==> |extra[i].1| == n
    ensures |r| == n
    ensures forall j :: 0 <= j < n ==> r[j] == if HasLabel(extra, name) then Some(Lookup(extra, name).value[j]) else None
  {
    match Lookup(extra, name)
    case Some(vals) => Present(vals)
    case None => seq(n, j => None)
  }

  /** The storage rows under their display names. */
  function RenameRows(t: TechTable): (r: TechTable)
    ensures r.columns == t.columns && |r.rows| == |t.rows|
    ensures forall i :: 0 <= i < |t.rows| ==> r.rows[i] == (Rename(t.rows[i].0), t.rows[i].1)
  {
    TechTable(t.columns, seq(|t.rows|, i requires 0 <= i < |t.rows| => (Rename(t.rows[i].0), t.rows[i].1)))
  }

  /**
   * The storage rows before the join: rows with the `stor_` prefix, without
   * `sys_eff` (KeyError when the column is missing), under their display
   * names.
   */
  function StorageRows(tech: TechTable): (r: Result<TechTable>)
    requires WellShaped(tech)
    ensures r.Failure? <==> "sys_eff" !in tech.columns
    ensures r.Failure? ==> r.error == KeyError("sys_eff")
    ensures r.Success? ==> WellShaped(r.value)
    ensures r.Success? ==> forall x :: x in r.value.columns <==> x in tech.columns && x != "sys_eff"
    ensures r.Success? ==> |r.value.rows| == |Select(tech.rows, true)|
    ensures r.Success? ==> forall i :: 0 <= i < |r.value.rows| ==> r.value.rows[i].0 == Rename(Select(tech.rows, true)[i].0)
  {
    var stor := TechTable(tech.columns, Select(tech.rows, true));
    assert WellShaped(stor) by {
      forall i | 0 <= i < |stor.rows|
        ensures |stor.rows[i].1| == |stor.columns|
      {
        assert stor.rows[i] in tech.rows;
      }
    }
    var dropped :- DropColumn(stor, "sys_eff");
    LabelsIndex(dropped.rows, stor.rows);
    Success(RenameRows(dropped))
  }

  lemma LabelsIndex<V, W>(a: seq<(string, V)>, b: seq<(string, W)>)
    requires Labels(a) == Labels(b)
    ensures |a| == |b| && forall i :: 0 <= i < |a| ==> a[i].0 == b[i].0
  {
    assert |Labels(a)| == |a| && |Labels(b)| == |b|;
    forall i | 0 <= i < |a|
      ensures a[i].0 == b[i].0
    {
      assert Labels(a)[i] == a[i].0 && Labels(b)[i] == b[i].0;
    }
  }

  /**
   * The storage table: `StorageRows` joined with the configuration rows;
   * KeyError from either step, ValueError when a configuration parameter
   * is also a column of the assumptions.
   */
  function StorageParams(tech: TechTable, storage: Section, flexopt: Section): (r: Result<StorageTable>)
    requires WellShaped(tech)
    ensures "sys_eff" !in tech.columns ==> r == Failure(KeyError("sys_eff"))
    ensures r.Success? ==> |r.value.rows| == |Select(tech.rows, true)|
    ensures r.Success? ==> forall i :: 0 <= i < |r.value.rows| ==> r.value.rows[i].0 == Rename(Select(tech.rows, true)[i].0)
    ensures "sys_eff" in tech.columns && ConfigRows(storage, flexopt).Failure? ==> r == Failure(ConfigRows(storage, flexopt).error)
    ensures "sys_eff" in tech.columns && ConfigRows(storage, flexopt).Success? ==>
      (r.Failure? <==> exists c :: c in tech.columns && c != "sys_eff" && c in ConfigRows(storage, flexopt).value.0)
    ensures "sys_eff" in tech.columns && ConfigRows(storage, flexopt).Success? && r.Failure? ==> r.error.ValueError?
    ensures r.Success? ==> StorageRows(tech).Success? && ConfigRows(storage, flexopt).Success?
    ensures r.Success? ==>
      var stor := StorageRows(tech).value;
      var config := ConfigRows(storage, flexopt).value;
      && r.value.columns == stor.columns + config.0
      && |r.value.rows| == |stor.rows|
      && forall i :: 0 <= i < |stor.rows| ==>
           r.value.rows[i] == (stor.rows[i].0, Present(stor.rows[i].1) + ExtraCells(config.1, stor.rows[i].0, |config.0|))
  {
    var renamed :- StorageRows(tech);
    var extra :- ConfigRows(storage, flexopt);
    var joined :- JoinConfig(renamed, extra.0, extra.1);
    LabelsIndex(joined.rows, renamed.rows);
    Success(joined)
  }

  /**
   * `aggregate_parameters`: generators are exactly the rows without the
   * `stor_` prefix, storages as in `StorageParams`; the battery capacities
   * pass through.
   */
  function AggregateParameters<B>(tech: TechTable, storage: Section, flexopt: Section, large: B, small: B): (r: Result<Params<B>>)
    requires WellShaped(tech)
    ensures r.Failure? <==> StorageParams(tech, storage, flexopt).Failure?
    ensures r.Failure? ==> r.error == StorageParams(tech, storage, flexopt).error
    ensures r.Success? ==> r.value.storages == StorageParams(tech, storage, flexopt).value
    ensures r.Success? ==> r.value.producers.columns == tech.columns
    ensures r.Success? ==> forall x :: x in r.value.producers.rows <==> x in tech.rows && !IsStorage(x.0)
    ensures r.Success? ==> r.value.batteriesLarge == large && r.value.batteriesSmall == small
  {
    var storages :- StorageParams(tech, storage, flexopt);
    Success(Params(TechTable(tech.columns, Select(tech.rows, false)), storages, large, small))
  }
}

=== FILE: patterns.dfy ===
/**
 * Node-name matching. The post-processing selects and groups columns by
 * regular expressions over node labels; the engine is left abstract and
 * the rule tables carry the pattern texts as data.
 */
module Patterns {
  import opened Wrappers

  /**
   * `search(p, s)`: `re.search`, the groups of the leftmost match if any.
   * `prefixMatch(p, s)`: `re.match`, a match that starts at the first character.
   * `fullMatch(p, s)`: a match spanning the whole string.
   */
  datatype Engine = Engine(
    search: (string, string) -> Option<seq<string>>,
    prefixMatch: (string, string) -> bool,
    fullMatch: (string, string) -> bool)

  /**
   * `Series.str.extract(p, expand=False)` for a pattern with one group: the
   * first group of the match, or NaN (None) when the name does not match.
   */
  function Capture(engine: Engine, pattern: string, s: string): Option<string> {
    match engine.search(pattern, s)
    case Some(groups) => if |groups| > 0 then Some(groups[0]) else None
    case None => None
  }
}

=== FILE: region.dfy ===
/**
 * Derived views of the `Region` data object (`model/__init__.py`):
 * per-municipality sums of demand and feed-in, the decentral heating
 * structure without solar thermal, the scenario's PV and wind potential
 * areas, and the demographic change since 2017.
 */
module Region {
  import opened Wrappers
  import opened Strings
  import opened Tables
  import opened Floats
  import opened Timeseries

  // ---------------------------------------------------------------------
  // demand_ts_agg_per_mun, feedin_ts_agg_per_mun

  /** Reference: the value at `t` of municipality `ags`, summed over the given sectors or technologies. */
  function KeysSumAt(ts: seq<(string, MunFrame)>, keys: seq<string>, ags: Ags, t: int): real
    decreases |keys|
  {
    if |keys| == 0 then 0.0
    else
      var pre := KeysSumAt(ts, keys[..|keys| - 1], ags, t);
      match Lookup(ts, keys[|keys| - 1])
      case Some(frame) => pre + (match Lookup(frame, ags) case Some(s) => At(s, t) case None => 0.0)
      case None => pre
  }

  /** Every key has a table, and every table a column for `ags`. */
  predicate Covers(ts: seq<(string, MunFrame)>, keys: seq<string>, ags: Ags) {
    forall k :: 0 <= k < |keys| ==> HasLabel(ts, keys[k]) && HasLabel(Lookup(ts, keys[k]).value, ags)
  }

  /**
   * `sum(ts[key][ags] for key in keys)` for one municipality: the series
   * added up in key order; KeyError when a table lacks the municipality.
   */
  function MunSum(ts: seq<(string, MunFrame)>, keys: seq<string>, ags: Ags): (r: Result<Series>)
    requires forall k :: 0 <= k < |keys| ==> HasLabel(ts, keys[k])
    ensures r.Success? <==> Covers(ts, keys, ags)
    ensures r.Failure? ==> r.error == IdKeyError(ags)
    ensures r.Success? ==> forall t :: At(r.value, t) == KeysSumAt(ts, keys, ags, t)
    decreases |keys|
  {
    if |keys| == 0 then Success([])
    else
      var pre := keys[..|keys| - 1];
      assert forall k :: 0 <= k < |pre| ==> pre[k] == keys[k];
      var acc :- MunSum(ts, pre, ags);
      var s :- Lookup(Lookup(ts, keys[|keys| - 1]).value, ags).ToResult(IdKeyError(ags));
      Success(Add(acc, s))
  }

  /**
   * `demand_ts_agg_per_mun` and `feedin_ts_agg_per_mun`: ValueError
   * `notFound` when some key has no table, the pandas ValueError for a
   * frame of scalars when no key is given but municipalities are, and
   * otherwise per municipality the sum of its series over the keys.
   */
  function AggPerMun(ts: seq<(string, MunFrame)>, keys: seq<string>, muns: seq<Ags>, notFound: string): (r: Result<MunFrame>)
    ensures (exists k :: 0 <= k < |keys| && !HasLabel(ts, keys[k])) ==> r == Failure(ValueError(notFound))
    ensures (forall k :: 0 <= k < |keys| ==> HasLabel(ts, keys[k])) && |keys| == 0 && |muns| > 0 ==> r.Failure? && r.error.ValueError?
    ensures r.Success? <==> (forall k :: 0 <= k < |keys| ==> HasLabel(ts, keys[k]))
                            && (|keys| > 0 || |muns| == 0)
                            && (forall i :: 0 <= i < |muns| ==> Covers(ts, keys, muns[i]))
    ensures r.Failure? && r.error.IdKeyError? ==> exists i :: 0 <= i < |muns| && r.error.id == muns[i] && !Covers(ts, keys, muns[i])
    ensures r.Success? ==> Labels(r.value) == muns
    ensures r.Success? ==> forall i, t :: 0 <= i < |muns| ==> At(r.value[i].1, t) == KeysSumAt(ts, keys, muns[i], t)
  {
    if exists k :: 0 <= k < |keys| && !HasLabel(ts, keys[k]) then Failure(ValueError(notFound))
    else if |keys| == 0 && |muns| > 0 then Failure(ValueError("If using all scalar values, you must pass an index"))
    else PerMun(ts, keys, muns)
  }

  function PerMun(ts: seq<(string, MunFrame)>, keys: seq<string>, muns: seq<Ags>): (r: Result<MunFrame>)
    requires forall k :: 0 <= k < |keys| ==> HasLabel(ts, keys[k])
    ensures r.Success? <==> forall i :: 0 <= i < |muns| ==> Covers(ts, keys, muns[i])
    ensures r.Failure? ==> r.error.IdKeyError? && exists i :: 0 <= i < |muns| && r.error.id == muns[i] && !Covers(ts, keys, muns[i])
    ensures r.Success? ==> Labels(r.value) == muns
    ensures r.Success? ==> forall i, t :: 0 <= i < |muns| ==> At(r.value[i].1, t) == KeysSumAt(ts, keys, muns[i], t)
    decreases |muns|
  {
    if |muns| == 0 then Success([])
    else
      var s :- MunSum(ts, keys, muns[0]);
      var rest := PerMun(ts, keys, muns[1..]);
      assert forall i :: 1 <= i < |muns| ==> muns[i] == muns[1..][i - 1];
      if rest.Failure? then
        var i :| 0 <= i < |muns[1..]| && rest.error.id == muns[1..][i] && !Covers(ts, keys, muns[1..][i]);
        assert muns[i + 1] == muns[1..][i];
        rest
      else
        var r := [(muns[0], s)] + rest.value;
        assert Labels(r) == muns by {
          assert Labels(rest.value) == muns[1..];
          forall i | 0 <= i < |muns|
            ensures Labels(r)[i] == muns[i]
          {
            if i > 0 {
              assert Labels(r)[i] == r[i].0 == rest.value[i - 1].0 == Labels(rest.value)[i - 1];
            }
          }
        }
        forall i, t | 0 <= i < |muns|
          ensures At(r[i].1, t) == KeysSumAt(ts, keys, muns[i], t)
        {
          if i > 0 {
            assert r[i] == rest.value[i - 1];
          }
        }
        Success(r)
  }

  /** The demand sum over the listed sectors. */
  function DemandAggPerMun(demand: seq<(string, MunFrame)>, sectors: seq<string>, muns: seq<Ags>): (r: Result<MunFrame>)
    ensures (exists k :: 0 <= k < |sectors| && !HasLabel(demand, sectors[k])) ==> r == Failure(ValueError("At least 1 sector not found!"))
    ensures r.Success? ==> Labels(r.value) == muns
    ensures r.Success? ==> forall i, t :: 0 <= i < |muns| ==> At(r.value[i].1, t) == KeysSumAt(demand, sectors, muns[i], t)
  {
    AggPerMun(demand, sectors, muns, "At least 1 sector not found!")
  }

  /** The feed-in sum over the listed technologies. */
  function FeedinAggPerMun(feedin: seq<(string, MunFrame)>, techs: seq<string>, muns: seq<Ags>): (r: Result<MunFrame>)
    ensures (exists k :: 0 <= k < |techs| && !HasLabel(feedin, techs[k])) ==> r == Failure(ValueError("At least 1 technology not found!"))
    ensures r.Success? ==> Labels(r.value) == muns
    ensures r.Success? ==> forall i, t :: 0 <= i < |muns| ==> At(r.value[i].1, t) == KeysSumAt(feedin, techs, muns[i], t)
  {
    AggPerMun(feedin, techs, muns, "At least 1 technology not found!")
  }

  lemma {:induction false} KeysSumAtSplit(ts: seq<(string, MunFrame)>, a: seq<string>, b: seq<string>, ags: Ags, t: int)
    ensures KeysSumAt(ts, a + b, ags, t) == KeysSumAt(ts, a, ags, t) + KeysSumAt(ts, b, ags, t)
    decreases |b|
  {
    if |b| == 0 {
      assert a + b == a;
    } else {
      var b' := b[..|b| - 1];
      KeysSumAtSplit(ts, a, b', ags, t);
      assert (a + b)[..|a + b| - 1] == a + b';
      assert (a + b)[|a + b| - 1] == b[|b| - 1];
    }
  }

  /**
   * Aggregating over two lists of sectors at once is the sum of the two
   * aggregations: e.g. all electricity demand is household plus the rest.
   */
  lemma AggPerMunSplit(ts: seq<(string, MunFrame)>, a: seq<string>, b: seq<string>, muns: seq<Ags>, msg: string, i: nat, t: int)
    requires AggPerMun(ts, a, muns, msg).Success? && AggPerMun(ts, b, muns, msg).Success?
    requires i < |muns|
    ensures AggPerMun(ts, a + b, muns, msg).Success?
    ensures At(AggPerMun(ts, a + b, muns, msg).value[i].1, t) ==
              At(AggPerMun(ts, a, muns, msg).value[i].1, t) + At(AggPerMun(ts, b, muns, msg).value[i].1, t)
  {
    forall k | 0 <= k < |a + b|
      ensures HasLabel(ts, (a + b)[k])
    {
      if k >= |a| {
        assert (a + b)[k] == b[k - |a|];
      }
    }
    forall j | 0 <= j < |muns|
      ensures Covers(ts, a + b, muns[j])
    {
      assert Covers(ts, a, muns[j]) && Covers(ts, b, muns[j]);
      forall k | 0 <= k < |a + b|
        ensures HasLabel(Lookup(ts, (a + b)[k]).value, muns[j])
      {
        if k >= |a| {
          assert (a + b)[k] == b[k - |a|];
        }
      }
    }
    KeysSumAtSplit(ts, a, b, muns[i], t);
  }

  // ---------------------------------------------------------------------
  // heating_structure_dec_scn_wo_solar

  /** A share table keyed by (municipality, energy source). */
  type Shares = seq<((Ags, string), real)>

  /** The rows of every energy source but solar thermal, in order. */
  function WithoutSolar(rows: Shares): (r: Shares)
    ensures forall x :: x in r <==> x in rows && x.0.1 != "solar"
    decreases |rows|
  {
    if |rows| == 0 then []
    else
      var rest := WithoutSolar(rows[1..]);
      assert forall x :: x in rows <==> x == rows[0] || x in rows[1..] by {
        assert rows == [rows[0]] + rows[1..];
      }
      if rows[0].0.1 != "solar" then [rows[0]] + rest else rest
  }

  /** The summed share of one municipality. */
  function MunShare(rows: Shares, ags: Ags): real
    decreases |rows|
  {
    if |rows| == 0 then 0.0
    else MunShare(rows[..|rows| - 1], ags) + (if rows[|rows| - 1].0.0 == ags then rows[|rows| - 1].1 else 0.0)
  }

  /** One share times `1 / total` under IEEE semantics. */
  lemma Rescaled(v: real, total: real)
    ensures total != 0.0 ==> Mul(Fin(v), Div(Fin(1.0), Fin(total))) == Fin(v / total)
    ensures total == 0.0 ==>
      Mul(Fin(v), Div(Fin(1.0), Fin(total))) == (if v == 0.0 then NaN else if v > 0.0 then PosInf else NegInf)
  {
    if total != 0.0 {
      assert v * (1.0 / total) == v / total;
    }
  }

  /**
   * Each row times `1 / (sum of its municipality's shares in `full`)`, with
   * IEEE semantics: a municipality whose shares sum to 0 gets NaN or an
   * infinity.
   */
  function Rescale(rows: Shares, full: Shares): (r: seq<((Ags, string), Float)>)
    ensures Labels(r) == Labels(rows)
    ensures forall i :: 0 <= i < |rows| && MunShare(full, rows[i].0.0) != 0.0 ==>
              r[i].1 == Fin(rows[i].1 / MunShare(full, rows[i].0.0))
    ensures forall i :: 0 <= i < |rows| && MunShare(full, rows[i].0.0) == 0.0 ==>
              r[i].1 == (if rows[i].1 == 0.0 then NaN else if rows[i].1 > 0.0 then PosInf else NegInf)
    decreases |rows|
  {
    if |rows| == 0 then []
    else
      var pre := Rescale(rows[..|rows| - 1], full);
      var x := rows[|rows| - 1];
      var k := Div(Fin(1.0), Fin(MunShare(full, x.0.0)));
      Rescaled(x.1, MunShare(full, x.0.0));
      var r := pre + [(x.0, Mul(Fin(x.1), k))];
      assert forall i :: 0 <= i < |rows| - 1 ==> r[i] == pre[i] && rows[..|rows| - 1][i] == rows[i];
      assert Labels(r) == Labels(rows) by {
        forall i | 0 <= i < |rows|
          ensures Labels(r)[i] == Labels(rows)[i]
        {
          if i < |rows| - 1 {
            assert Labels(pre)[i] == Labels(rows[..|rows| - 1])[i];
          }
        }
      }
      r
  }

  /**
   * `heating_structure_dec_scn_wo_solar`: the shares without solar thermal,
   * each divided by its municipality's remaining total.
   */
  function HeatingWithoutSolar(rows: Shares): (r: seq<((Ags, string), Float)>)
    ensures Labels(r) == Labels(WithoutSolar(rows))
    ensures forall i :: 0 <= i < |r| ==> r[i].0.1 != "solar"
    ensures forall i :: 0 <= i < |r| && MunShare(WithoutSolar(rows), r[i].0.0) != 0.0 ==>
              r[i].1 == Fin(WithoutSolar(rows)[i].1 / MunShare(WithoutSolar(rows), r[i].0.0))
    ensures forall i :: 0 <= i < |r| && MunShare(WithoutSolar(rows), r[i].0.0) == 0.0 ==>
              r[i].1 == (if WithoutSolar(rows)[i].1 == 0.0 then NaN else if WithoutSolar(rows)[i].1 > 0.0 then PosInf else NegInf)
  {
    var ws := WithoutSolar(rows);
    var r := Rescale(ws, ws);
    forall i | 0 <= i < |r|
      ensures r[i].0.1 != "solar"
    {
      assert Labels(r)[i] == Labels(ws)[i];
      assert ws[i] in ws;
    }
    r
  }

  /** The finite rescaled shares of one municipality, added up. */
  function FinShare(r: seq<((Ags, string), Float)>, ags: Ags): real
    decreases |r|
  {
    if |r| == 0 then 0.0
    else
      var x := r[|r| - 1];
      FinShare(r[..|r| - 1], ags) + (if x.0.0 == ags && x.1.Fin? then x.1.v else 0.0)
  }

  lemma {:induction false} RescaleShare(rows: Shares, full: Shares, ags: Ags)
    requires MunShare(full, ags) != 0.0
    ensures FinShare(Rescale(rows, full), ags) == MunShare(rows, ags) / MunShare(full, ags)
    decreases |rows|
  {
    if |rows| > 0 {
      var n := |rows| - 1;
      var x := rows[n];
      var S := MunShare(full, ags);
      var a := MunShare(rows[..n], ags);
      var b := if x.0.0 == ags then x.1 else 0.0;
      assert MunShare(rows, ags) == a + b;
      RescaleShare(rows[..n], full, ags);
      RescaleLast(rows, full, ags);
      assert FinShare(Rescale(rows, full), ags) == a / S + b / S;
      DivAdd(a, b, S);
    }
  }

  /** The last rescaled row adds its share over the municipality total, if it is of that municipality. */
  lemma RescaleLast(rows: Shares, full: Shares, ags: Ags)
    requires |rows| > 0 && MunShare(full, ags) != 0.0
    ensures FinShare(Rescale(rows, full), ags) ==
              FinShare(Rescale(rows[..|rows| - 1], full), ags) + (if rows[|rows| - 1].0.0 == ags then rows[|rows| - 1].1 / MunShare(full, ags) else 0.0 / MunShare(full, ags))
  {
    var n := |rows| - 1;
    var r := Rescale(rows, full);
    assert r[..n] == Rescale(rows[..n], full);
    assert r[n].0 == rows[n].0 by {
      assert Labels(r)[n] == Labels(rows)[n];
    }
  }

  lemma DivAdd(a: real, b: real, s: real)
    requires s != 0.0
    ensures (a + b) / s == a / s + b / s
  {
  }

  /**
   * After rescaling, the shares of every municipality whose non-solar
   * shares do not sum to 0 sum to 1 again.
   */
  lemma HeatingSharesSumToOne(rows: Shares, ags: Ags)
    requires MunShare(WithoutSolar(rows), ags) != 0.0
    ensures FinShare(HeatingWithoutSolar(rows), ags) == 1.0
  {
    var ws := WithoutSolar(rows);
    RescaleShare(ws, ws, ags);
    DivSelf(MunShare(ws, ags));
  }

  lemma DivSelf(s: real)
    requires s != 0.0
    ensures s / s == 1.0
  {
  }

  // ---------------------------------------------------------------------
  // pot_areas_pv_scn

  /** An area table keyed by (municipality, area type), in hectares. */
  type Areas = seq<((Ags, string), real)>

  /** The limit on agricultural PV area: the string `'nolimit'` or a number of hectares. */
  datatype AgriLimit = NoLimit | Limit(max: real)

  /** The two area tables: unrestricted, and with agricultural areas capped. */
  datatype PvAreas = PvAreas(withoutAgri: Areas, withAgri: seq<((Ags, string), Float)>)

  predicate IsAgri(key: (Ags, string)) {
    StartsWith(key.1, "agri_")
  }

  /** The rows whose area type ends in `_<scn>`, in order. */
  function ScenarioAreas(areas: Areas, scn: string): (r: Areas)
    ensures forall x :: x in r <==> x in areas && EndsWith(x.0.1, "_" + scn)
    decreases |areas|
  {
    if |areas| == 0 then []
    else
      var rest := ScenarioAreas(areas[1..], scn);
      assert forall x :: x in areas <==> x == areas[0] || x in areas[1..] by {
        assert areas == [areas[0]] + areas[1..];
      }
      if EndsWith(areas[0].0.1, "_" + scn) then [areas[0]] + rest else rest
  }

  /** The summed agricultural area. */
  function AgriTotal(areas: Areas): real
    decreases |areas|
  {
    if |areas| == 0 then 0.0
    else AgriTotal(areas[..|areas| - 1]) + (if IsAgri(areas[|areas| - 1].0) then areas[|areas| - 1].1 else 0.0)
  }

  /**
   * One area after capping: an agricultural area times `factor`, others
   * unchanged. `Series.update` skips NaN, so a product that is NaN leaves
   * the original area.
   */
  function ScaledArea(x: ((Ags, string), real), factor: Float): (v: Float)
    ensures !IsAgri(x.0) ==> v == Fin(x.1)
    ensures IsAgri(x.0) && factor.Fin? ==> v == Fin(x.1 * factor.v)
  {
    if IsAgri(x.0) then (var p := Mul(Fin(x.1), factor); if p.NaN? then Fin(x.1) else p) else Fin(x.1)
  }

  /** Every area after capping, in order. */
  function ScaleAgri(areas: Areas, factor: Float): (r: seq<((Ags, string), Float)>)
    ensures |r| == |areas|
    ensures forall i :: 0 <= i < |areas| ==> r[i] == (areas[i].0, ScaledArea(areas[i], factor))
  {
    seq(|areas|, i requires 0 <= i < |areas| => (areas[i].0, ScaledArea(areas[i], factor)))
  }

  function AsFloats(areas: Areas): (r: seq<((Ags, string), Float)>)
    ensures |r| == |areas| && forall i :: 0 <= i < |areas| ==> r[i] == (areas[i].0, Fin(areas[i].1))
  {
    seq(|areas|, i requires 0 <= i < |areas| => (areas[i].0, Fin(areas[i].1)))
  }

  /**
   * `capped` is `areas` under the agricultural restriction: same labels,
   * non-agricultural areas unchanged, nothing changed when there is no
   * limit or the agricultural total is within it, and above the limit
   * every agricultural area multiplied by the one factor `limit / total`.
   */
  predicate AgriCapped(areas: Areas, limit: AgriLimit, capped: seq<((Ags, string), Float)>) {
    && |capped| == |areas|
    && (forall i :: 0 <= i < |areas| ==> capped[i].0 == areas[i].0)
    && (forall i :: 0 <= i < |areas| && !IsAgri(areas[i].0) ==> capped[i].1 == Fin(areas[i].1))
    && (limit.NoLimit? || AgriTotal(areas) <= limit.max ==> capped == AsFloats(areas))
    && (limit.Limit? && AgriTotal(areas) > limit.max && AgriTotal(areas) != 0.0 ==>
          forall i :: 0 <= i < |areas| && IsAgri(areas[i].0) ==>
            capped[i].1 == Fin(areas[i].1 * (limit.max / AgriTotal(areas))))
  }

  /**
   * The agricultural-restriction copy: when a limit is set and the
   * agricultural total exceeds it, the agricultural areas are scaled by
   * `limit / total`; otherwise the areas unchanged.
   */
  function Capped(areas: Areas, limit: AgriLimit): (r: seq<((Ags, string), Float)>)
    ensures AgriCapped(areas, limit, r)
  {
    var total := AgriTotal(areas);
    if limit.Limit? && total > limit.max then
      ScaleAgriRows(areas, limit, total);
      ScaleAgri(areas, Div(Fin(limit.max), Fin(total)))
    else AsFloats(areas)
  }

  /** Under a limit and with a non-zero total, capping scales each agricultural area by limit / total. */
  lemma ScaleAgriRows(areas: Areas, limit: AgriLimit, total: real)
    ensures limit.Limit? && total != 0.0 ==> forall i :: 0 <= i < |areas| && IsAgri(areas[i].0) ==>
      ScaleAgri(areas, Div(Fin(limit.max), Fin(total)))[i].1 == Fin(areas[i].1 * (limit.max / total))
  {
    if limit.Limit? && total != 0.0 {
      assert Div(Fin(limit.max), Fin(total)) == Fin(limit.max / total);
    }
  }

  /**
   * `pot_areas_pv_scn`: None unless the lower-cased scenario is `hs` or
   * `h`; otherwise the scenario's areas, and a copy in which, when a limit
   * is set and the agricultural total exceeds it, the agricultural areas
   * are scaled by `limit / total`.
   */
  function PotAreasPvScn(areas: Areas, scenario: string, limit: AgriLimit): (r: Option<PvAreas>)
    ensures r.Some? <==> Lower(scenario) in ["hs", "h"]
    ensures r.Some? ==> forall x :: x in r.value.withoutAgri <==> x in areas && EndsWith(x.0.1, "_" + Lower(scenario))
    ensures r.Some? ==> AgriCapped(r.value.withoutAgri, limit, r.value.withAgri)
  {
    var scn := Lower(scenario);
    if scn !in ["hs", "h"] then None
    else
      var without := ScenarioAreas(areas, scn);
      Some(PvAreas(without, Capped(without, limit)))
  }

  /** The finite agricultural areas, added up. */
  function FinAgriTotal(r: seq<((Ags, string), Float)>): real
    decreases |r|
  {
    if |r| == 0 then 0.0
    else
      var x := r[|r| - 1];
      FinAgriTotal(r[..|r| - 1]) + (if IsAgri(x.0) && x.1.Fin? then x.1.v else 0.0)
  }

  lemma {:induction false} ScaleAgriTotal(areas: Areas, k: real)
    ensures FinAgriTotal(ScaleAgri(areas, Fin(k))) == AgriTotal(areas) * k
    decreases |areas|
  {
    if |areas| > 0 {
      var n := |areas| - 1;
      ScaleAgriTotal(areas[..n], k);
      ScaleAgriLast(areas, k);
      MulAdd(AgriTotal(areas[..n]), if IsAgri(areas[n].0) then areas[n].1 else 0.0, k);
    }
  }

  lemma ScaleAgriLast(areas: Areas, k: real)
    requires |areas| > 0
    ensures FinAgriTotal(ScaleAgri(areas, Fin(k))) ==
              FinAgriTotal(ScaleAgri(areas[..|areas| - 1], Fin(k))) + (if IsAgri(areas[|areas| - 1].0) then areas[|areas| - 1].1 * k else 0.0 * k)
  {
    var n := |areas| - 1;
    var r := ScaleAgri(areas, Fin(k));
    assert r[..n] == ScaleAgri(areas[..n], Fin(k));
  }

  lemma MulAdd(a: real, b: real, k: real)
    ensures (a + b) * k == a * k + b * k
  {
  }

  lemma DivMulCancel(a: real, b: real)
    requires b != 0.0
    ensures a / b * b == a
  {
  }

  lemma MulDivCancel(total: real, max: real)
    requires total != 0.0
    ensures total * (max / total) == max
  {
  }

  /**
   * When the agricultural total exceeds a non-negative limit, the capped
   * agricultural areas add up to exactly the limit.
   */
  lemma PvAgriCapped(areas: Areas, scenario: string, max: real)
    requires Lower(scenario) in ["hs", "h"]
    requires max >= 0.0
    requires AgriTotal(ScenarioAreas(areas, Lower(scenario))) > max
    ensures FinAgriTotal(PotAreasPvScn(areas, scenario, Limit(max)).value.withAgri) == max
  {
    var without := ScenarioAreas(areas, Lower(scenario));
    var total := AgriTotal(without);
    assert Div(Fin(max), Fin(total)) == Fin(max / total);
    assert Capped(without, Limit(max)) == ScaleAgri(without, Fin(max / total));
    assert PotAreasPvScn(areas, scenario, Limit(max)).value.withAgri == ScaleAgri(without, Fin(max / total));
    ScaleToLimit(without, max);
  }

  lemma ScaleToLimit(areas: Areas, max: real)
    requires AgriTotal(areas) != 0.0
    ensures FinAgriTotal(ScaleAgri(areas, Fin(max / AgriTotal(areas)))) == max
  {
    var total := AgriTotal(areas);
    ScaleAgriTotal(areas, max / total);
    MulDivCancel(total, max);
  }

  // ---------------------------------------------------------------------
  // pot_areas_wec_scn

  /** The wind potential area scenarios. */
  const WecScenarios: seq<string> := ["s500f0", "s500f1", "s1000f0", "s1000f1", "sq"]

  /** The group of an area row: its municipality, when the row belongs to scenario `scn`. */
  function ScenarioKey(scn: string): ((Ags, string)) -> Option<Ags> {
    (key: (Ags, string)) => if key.1 == scn then Some(key.0) else None
  }

  /** Reference: the summed area of scenario `scn` in municipality `ags`. */
  function WecArea(areas: Areas, scn: string, ags: Ags): real
    decreases |areas|
  {
    if |areas| == 0 then 0.0
    else
      var x := areas[|areas| - 1];
      WecArea(areas[..|areas| - 1], scn, ags) + (if x.0 == (ags, scn) then x.1 else 0.0)
  }

  /**
   * `pot_areas_wec_scn`: None unless the lower-cased scenario is a wind
   * scenario; otherwise one row per municipality with an area of that
   * scenario.
   */
  function PotAreasWecScn(areas: Areas, scenario: string): (r: Option<seq<(Ags, real)>>)
    ensures r.Some? <==> Lower(scenario) in WecScenarios
    ensures r.Some? ==> DistinctLabels(r.value)
    ensures r.Some? ==> forall ags :: HasLabel(r.value, ags) <==> exists i :: 0 <= i < |areas| && areas[i].0 == (ags, Lower(scenario))
  {
    var scn := Lower(scenario);
    if scn !in WecScenarios then None
    else
      var r := Collapse(areas, ScenarioKey(scn), RealAdd);
      assert forall ags :: Matched(areas, ScenarioKey(scn), ags) <==> exists i :: 0 <= i < |areas| && areas[i].0 == (ags, scn);
      Some(r)
  }

  lemma {:induction false} WecKeySum(areas: Areas, scn: string, ags: Ags)
    ensures KeySum(areas, ScenarioKey(scn), ags, RealAdd, 0.0) == WecArea(areas, scn, ags)
    decreases |areas|
  {
    if |areas| > 0 {
      WecKeySum(areas[..|areas| - 1], scn, ags);
    }
  }

  /** Each municipality's wind area is the sum of its areas in that scenario. */
  lemma PotAreasWecValue(areas: Areas, scenario: string, ags: Ags)
    requires Lower(scenario) in WecScenarios
    requires exists i :: 0 <= i < |areas| && areas[i].0 == (ags, Lower(scenario))
    ensures Lookup(PotAreasWecScn(areas, scenario).value, ags) == Some(WecArea(areas, Lower(scenario), ags))
  {
    var scn := Lower(scenario);
    RealAddMonoid();
    CollapseLookup(areas, ScenarioKey(scn), RealAdd, 0.0, ags);
    WecKeySum(areas, scn, ags);
  }

  // ---------------------------------------------------------------------
  // demography_change

  /** A demography column keyed by (municipality, year). */
  type Demography = seq<((Ags, int), real)>

  /** Some row belongs to `year`. */
  predicate HasYear(rows: Demography, year: int) {
    exists i :: 0 <= i < |rows| && rows[i].0.1 == year
  }

  /** The rows of one year, keyed by municipality. */
  function YearSlice(rows: Demography, year: int): (r: seq<(Ags, real)>)
    ensures forall x :: x in r <==> ((x.0, year), x.1) in rows
    decreases |rows|
  {
    if |rows| == 0 then []
    else
      var rest := YearSlice(rows[1..], year);
      assert forall y :: y in rows <==> y == rows[0] || y in rows[1..] by {
        assert rows == [rows[0]] + rows[1..];
      }
      if rows[0].0.1 == year then [(rows[0].0.0, rows[0].1)] + rest else rest
  }

  /**
   * `xs(year, level='year')`: the rows of one year, keyed by municipality;
   * a year without rows raises KeyError.
   */
  function Xs(rows: Demography, year: int): (r: Result<seq<(Ags, real)>>)
    ensures r.Failure? <==> !HasYear(rows, year)
    ensures r.Failure? ==> r.error == IdKeyError(year)
    ensures r.Success? ==> |r.value| > 0 && forall x :: x in r.value <==> ((x.0, year), x.1) in rows
  {
    if HasYear(rows, year) then
      var i :| 0 <= i < |rows| && rows[i].0.1 == year;
      assert (rows[i].0.0, rows[i].1) in YearSlice(rows, year);
      Success(YearSlice(rows, year))
    else Failure(IdKeyError(year))
  }

  /** A non-empty cross-section means the year has rows. */
  lemma YearSliceHasYear(rows: Demography, year: int)
    requires |YearSlice(rows, year)| > 0
    ensures HasYear(rows, year)
  {
    var x := YearSlice(rows, year)[0];
    assert ((x.0, year), x.1) in rows;
  }

  /** The ratio for one municipality of the configured year; NaN when 2017 lacks it. */
  function Change(x: (Ags, real), base: seq<(Ags, real)>): (v: Float)
    ensures !HasLabel(base, x.0) ==> v == NaN
    ensures HasLabel(base, x.0) ==> v == Div(Fin(x.1), Fin(Lookup(base, x.0).value))
  {
    match Lookup(base, x.0)
    case Some(b) => Div(Fin(x.1), Fin(b))
    case None => NaN
  }

  /** The municipalities of 2017 missing from the configured year: NaN after the alignment. */
  function OnlyBase(base: seq<(Ags, real)>, current: seq<(Ags, real)>): (r: seq<(Ags, Float)>)
    ensures forall i :: 0 <= i < |r| ==> r[i].1 == NaN && !HasLabel(current, r[i].0)
    ensures forall ags :: HasLabel(r, ags) <==> HasLabel(base, ags) && !HasLabel(current, ags)
    decreases |base|
  {
    if |base| == 0 then []
    else
      var rest := OnlyBase(base[1..], current);
      assert base == [base[0]] + base[1..];
      HasLabelAppend([base[0]], base[1..]);
      assert forall ags :: HasLabel([base[0]], ags) <==> ags == base[0].0;
      if HasLabel(current, base[0].0) then rest
      else
        var head := [(base[0].0, NaN)];
        var r := head + rest;
        HasLabelAppend(head, rest);
        assert head[0].0 == base[0].0;
        assert forall ags :: HasLabel(head, ags) <==> ags == base[0].0;
        r
  }

  /** The ratios of the configured year's municipalities, in its order. */
  function Changes(current: seq<(Ags, real)>, base: seq<(Ags, real)>): (r: seq<(Ags, Float)>)
    ensures |r| == |current|
    ensures forall i :: 0 <= i < |current| ==> r[i] == (current[i].0, Change(current[i], base))
  {
    seq(|current|, i requires 0 <= i < |current| => (current[i].0, Change(current[i], base)))
  }

  /** The ratios aligned on the union of both years' municipalities. */
  function Align(current: seq<(Ags, real)>, base: seq<(Ags, real)>): (r: seq<(Ags, Float)>)
    ensures |r| >= |current|
    ensures forall ags :: HasLabel(r, ags) <==> HasLabel(current, ags) || HasLabel(base, ags)
    ensures forall i :: 0 <= i < |current| ==> r[i] == (current[i].0, Change(current[i], base))
    ensures forall i :: |current| <= i < |r| ==> r[i].1 == NaN && !HasLabel(current, r[i].0)
  {
    var changes := Changes(current, base);
    var r := changes + OnlyBase(base, current);
    HasLabelAppend(changes, OnlyBase(base, current));
    assert forall ags :: HasLabel(changes, ags) <==> HasLabel(current, ags) by {
      forall ags | HasLabel(changes, ags)
        ensures HasLabel(current, ags)
      {
        var i :| 0 <= i < |changes| && changes[i].0 == ags;
        assert current[i].0 == ags;
      }
      forall ags | HasLabel(current, ags)
        ensures HasLabel(changes, ags)
      {
        var i :| 0 <= i < |current| && current[i].0 == ags;
        assert changes[i].0 == ags;
      }
    }
    assert forall i :: 0 <= i < |changes| ==> r[i] == changes[i];
    r
  }

  /**
   * `demography_change`: per municipality, the configured year's value over
   * the 2017 value (IEEE division); a municipality present in only one of
   * the two years gets NaN. The configured year is selected first, so its
   * KeyError wins when neither year has rows.
   */
  function DemographyChange(rows: Demography, year: int): (r: Result<seq<(Ags, Float)>>)
    ensures r.Failure? <==> !HasYear(rows, year) || !HasYear(rows, 2017)
    ensures r.Failure? ==> r.error == IdKeyError(if HasYear(rows, year) then 2017 else year)
    ensures r.Success? ==> |r.value| >= |YearSlice(rows, year)|
    ensures r.Success? ==> forall ags :: HasLabel(r.value, ags) <==> HasLabel(YearSlice(rows, year), ags) || HasLabel(YearSlice(rows, 2017), ags)
    ensures r.Success? ==> forall i :: 0 <= i < |YearSlice(rows, year)| ==>
      r.value[i] == (YearSlice(rows, year)[i].0, Change(YearSlice(rows, year)[i], YearSlice(rows, 2017)))
    ensures r.Success? ==> forall i :: |YearSlice(rows, year)| <= i < |r.value| ==>
      r.value[i].1 == NaN && !HasLabel(YearSlice(rows, year), r.value[i].0)
  {
    var current :- Xs(rows, year);
    var base :- Xs(rows, 2017);
    Success(Align(current, base))
  }

  /** A finite ratio times the 2017 value gives the configured year's value back. */
  lemma DemographyChangeInverse(rows: Demography, year: int, i: nat)
    requires i < |YearSlice(rows, year)|
    requires HasLabel(YearSlice(rows, 2017), YearSlice(rows, year)[i].0)
    requires Lookup(YearSlice(rows, 2017), YearSlice(rows, year)[i].0).value != 0.0
    ensures DemographyChange(rows, year).Success?
    ensures Mul(DemographyChange(rows, year).value[i].1, Fin(Lookup(YearSlice(rows, 2017), YearSlice(rows, year)[i].0).value)) ==
              Fin(YearSlice(rows, year)[i].1)
  {
    YearSliceHasYear(rows, year);
    YearSliceHasYear(rows, 2017);
    AlignInverse(YearSlice(rows, year), YearSlice(rows, 2017), i);
  }

  lemma AlignInverse(current: seq<(Ags, real)>, base: seq<(Ags, real)>, i: nat)
    requires i < |current| && HasLabel(base, current[i].0) && Lookup(base, current[i].0).value != 0.0
    ensures Mul(Align(current, base)[i].1, Fin(Lookup(base, current[i].0).value)) == Fin(current[i].1)
  {
    var x := current[i];
    var b := Lookup(base, x.0).value;
    assert Align(current, base)[i].1 == Fin(x.1 / b);
    DivMulCancel(x.1, b);
  }

  /** Compared with itself, 2017 changes by a factor of 1, or NaN where its value is 0. */
  lemma DemographyChangeBaseYear(rows: Demography, i: nat)
    requires i < |YearSlice(rows, 2017)|
    requires Lookup(YearSlice(rows, 2017), YearSlice(rows, 2017)[i].0) == Some(YearSlice(rows, 2017)[i].1)
    ensures DemographyChange(rows, 2017).Success?
    ensures DemographyChange(rows, 2017).value[i].1 == if YearSlice(rows, 2017)[i].1 == 0.0 then NaN else Fin(1.0)
  {
    YearSliceHasYear(rows, 2017);
    var x := YearSlice(rows, 2017)[i];
    DivSelfOrNaN(x.1);
  }

  lemma DivSelfOrNaN(a: real)
    ensures Div(Fin(a), Fin(a)) == if a == 0.0 then NaN else Fin(1.0)
  {
    if a != 0.0 {
      DivSelf(a);
    }
  }
}

=== FILE: result_frames.dfy ===
/**
 * `results_to_dataframes`: the solver's flat result map is split into four
 * tables. A result key is a (source node, target node) pair whose target is
 * None for a node's own variables; columns of the tables are labelled
 * (node, node) or (node, variable).
 */
module ResultFrames {
  import opened Wrappers
  import opened Tables

  datatype NodePair = NodePair(from: string, to: Option<string>)

  type Label = (string, string)

  /** Column level 0 (the flow's source node) or 1 (its target node, or the variable name). */
  datatype Level = From | To

  function NameAt(l: Label, level: Level): string {
    match level
    case From => l.0
    case To => l.1
  }

  /** The time series a result entry carries, by column name (`flow`, `capacity`, …). */
  type Sequences = seq<(string, Series)>

  /** The four result tables. */
  datatype Frames<S> = Frames(
    flows: seq<(Label, Series)>,
    varsStat: seq<(Label, Series)>,
    paramsFlows: seq<(Label, seq<(string, S)>)>,
    paramsStat: seq<(Label, S)>)

  /**
   * Flow table: one column per entry with a target node, holding that
   * entry's `flow` series. An entry with a target but no `flow` column
   * raises KeyError.
   */
  function FlowColumns(main: seq<(NodePair, Sequences)>): (r: Result<seq<(Label, Series)>>)
    ensures r.Success? <==> forall i :: 0 <= i < |main| && main[i].0.to.Some? ==> HasLabel(main[i].1, "flow")
    ensures r.Failure? ==> r.error == KeyError("flow")
    ensures r.Success? ==> forall i :: 0 <= i < |main| && main[i].0.to.Some? ==>
      ((main[i].0.from, main[i].0.to.value), Lookup(main[i].1, "flow").value) in r.value
    ensures r.Success? ==> forall c :: c in r.value ==>
      exists i :: 0 <= i < |main| && main[i].0.to.Some? && c.0 == (main[i].0.from, main[i].0.to.value)
        && Lookup(main[i].1, "flow") == Some(c.1)
  {
    if |main| == 0 then Success([])
    else
      var init := main[..|main| - 1];
      var last := main[|main| - 1];
      assert forall i :: 0 <= i < |init| ==> init[i] == main[i];
      var pre :- FlowColumns(init);
      match last.0.to
      case None => Success(pre)
      case Some(to) =>
        match Lookup(last.1, "flow")
        case None => Failure(KeyError("flow"))
        case Some(s) => Success(pre + [((last.0.from, to), s)])
  }

  /**
   * Stationary variables: for every entry without a target node, one column
   * (node, name) per sequence column of that entry.
   */
  function VarColumns(main: seq<(NodePair, Sequences)>): (r: seq<(Label, Series)>)
    ensures forall i, j :: 0 <= i < |main| && main[i].0.to.None? && 0 <= j < |main[i].1| ==>
      ((main[i].0.from, main[i].1[j].0), main[i].1[j].1) in r
    ensures forall c :: c in r ==>
      exists i, j :: 0 <= i < |main| && main[i].0.to.None? && 0 <= j < |main[i].1| &&
        c == ((main[i].0.from, main[i].1[j].0), main[i].1[j].1)
  {
    if |main| == 0 then []
    else
      var init := main[..|main| - 1];
      var last := main[|main| - 1];
      assert forall i :: 0 <= i < |init| ==> init[i] == main[i];
      var pre := VarColumns(init);
      if last.0.to.Some? then pre
      else pre + Columns(last.0.from, last.1)
  }

  /** The columns of one target-less entry, labelled with its node. */
  function Columns<V>(node: string, cols: seq<(string, V)>): (r: seq<(Label, V)>)
    ensures |r| == |cols|
    ensures forall j :: 0 <= j < |cols| ==> r[j] == ((node, cols[j].0), cols[j].1)
  {
    seq(|cols|, j requires 0 <= j < |cols| => ((node, cols[j].0), cols[j].1))
  }

  /** Flow parameters: the scalars of every entry with a target node. */
  function ParamFlowColumns<S(==,!new)>(params: seq<(NodePair, seq<(string, S)>)>): (r: seq<(Label, seq<(string, S)>)>)
    ensures forall c :: c in r <==>
      exists i :: 0 <= i < |params| && params[i].0.to.Some? && c == ((params[i].0.from, params[i].0.to.value), params[i].1)
  {
    if |params| == 0 then []
    else
      var init := params[..|params| - 1];
      var last := params[|params| - 1];
      assert forall i :: 0 <= i < |init| ==> init[i] == params[i];
      var pre := ParamFlowColumns(init);
      match last.0.to
      case None => pre
      case Some(to) => pre + [((last.0.from, to), last.1)]
  }

  /**
   * Node parameters: every scalar row of every entry without a target node,
   * indexed by (node, row), except the row named `label`.
   */
  function ParamStatRows<S(==,!new)>(params: seq<(NodePair, seq<(string, S)>)>): (r: seq<(Label, S)>)
    ensures forall c :: c in r <==>
      exists i, j :: 0 <= i < |params| && params[i].0.to.None? && 0 <= j < |params[i].1| &&
        params[i].1[j].0 != "label" && c == ((params[i].0.from, params[i].1[j].0), params[i].1[j].1)
  {
    if |params| == 0 then []
    else
      var init := params[..|params| - 1];
      var last := params[|params| - 1];
      assert forall i :: 0 <= i < |init| ==> init[i] == params[i];
      var pre := ParamStatRows(init);
      if last.0.to.Some? then pre
      else pre + Columns(last.0.from, WithoutLabel(last.1))
  }

  /** The scalar rows other than `label`, in order. */
  function WithoutLabel<S(==,!new)>(rows: seq<(string, S)>): (r: seq<(string, S)>)
    ensures forall x :: x in r <==> x in rows && x.0 != "label"
  {
    if |rows| == 0 then []
    else if rows[0].0 == "label" then WithoutLabel(rows[1..])
    else [rows[0]] + WithoutLabel(rows[1..])
  }

  /** The whole conversion; fails exactly when the flow table does. */
  function ResultsToDataframes<S(==,!new)>(main: seq<(NodePair, Sequences)>, params: seq<(NodePair, seq<(string, S)>)>): (r: Result<Frames<S>>)
    ensures r.Success? <==> forall i :: 0 <= i < |main| && main[i].0.to.Some? ==> HasLabel(main[i].1, "flow")
  {
    var flows :- FlowColumns(main);
    Success(Frames(flows, VarColumns(main), ParamFlowColumns(params), ParamStatRows(params)))
  }
}

=== FILE: strings.dfy ===
/** The handful of Python `str` operations the post-processing relies on. */
module Strings {

  /** `s.startswith(p)`, equivalently `s[:len(p)] == p`. */
  predicate StartsWith(s: string, p: string) {
    |p| <= |s| && s[..|p|] == p
  }

  /** `s.endswith(p)`. */
  predicate EndsWith(s: string, p: string) {
    |p| <= |s| && s[|s| - |p|..] == p
  }

  /** True if `p` occurs in `s` starting at some position. */
  predicate Occurs(s: string, p: string) {
    exists i :: 0 <= i <= |s| && StartsWith(s[i..], p)
  }

  /**
   * `s.replace(p, "")`: deletes the non-overlapping occurrences of `p`,
   * scanning left to right. An empty `p` leaves `s` unchanged.
   */
  function Remove(s: string, p: string): (r: string)
    ensures |r| <= |s|
    decreases |s|
  {
    if |p| > 0 && StartsWith(s, p) then Remove(s[|p|..], p)
    else if |s| == 0 then ""
    else [s[0]] + Remove(s[1..], p)
  }

  /** Deleting `p` from a string that starts with `p` deletes that copy first. */
  lemma RemoveLeading(p: string, t: string)
    requires |p| > 0
    ensures Remove(p + t, p) == Remove(t, p)
  {
    assert StartsWith(p + t, p) by {
      assert (p + t)[..|p|] == p;
    }
    assert (p + t)[|p|..] == t;
  }

  /** A string in which `p` never occurs is left unchanged. */
  lemma {:induction false} RemoveAbsent(s: string, p: string)
    requires |p| > 0
    requires !Occurs(s, p)
    ensures Remove(s, p) == s
    decreases |s|
  {
    assert !StartsWith(s[0..], p) by {
      assert 0 <= 0 <= |s|;
    }
    assert s[0..] == s;
    if |s| > 0 {
      assert !Occurs(s[1..], p) by {
        forall i | 0 <= i <= |s[1..]|
          ensures !StartsWith(s[1..][i..], p)
        {
          assert s[1..][i..] == s[i + 1..];
          assert !StartsWith(s[i + 1..], p);
        }
      }
      RemoveAbsent(s[1..], p);
      assert [s[0]] + s[1..] == s;
    }
  }

  /** `c.lower()` for the ASCII letters; every other character is kept. */
  function LowerChar(c: char): char {
    if 'A' <= c <= 'Z' then (c as int + 32) as char else c
  }

  /** `s.lower()` on ASCII text. */
  function Lower(s: string): (r: string)
    ensures |r| == |s|
    ensures forall i :: 0 <= i < |s| ==> r[i] == LowerChar(s[i])
  {
    seq(|s|, i requires 0 <= i < |s| => LowerChar(s[i]))
  }

  /** Regex `\d`. */
  predicate IsDigit(c: char) {
    '0' <= c <= '9'
  }

  /** Regex `\w` on ASCII text: letters, digits and the underscore. */
  predicate IsWordChar(c: char) {
    IsDigit(c) || 'a' <= c <= 'z' || 'A' <= c <= 'Z' || c == '_'
  }

  predicate AllDigits(s: string) {
    forall i :: 0 <= i < |s| ==> IsDigit(s[i])
  }

  predicate AllWordChars(s: string) {
    forall i :: 0 <= i < |s| ==> IsWordChar(s[i])
  }

  /** Length of the longest prefix of `s` made of digits (what a greedy `\d+` consumes). */
  function DigitRun(s: string): (n: nat)
    ensures n <= |s|
    ensures AllDigits(s[..n])
    ensures n < |s| ==> !IsDigit(s[n])
    decreases |s|
  {
    if |s| > 0 && IsDigit(s[0]) then
      var k := DigitRun(s[1..]);
      assert s[..k + 1] == [s[0]] + s[1..][..k];
      k + 1
    else 0
  }
}

=== FILE: tables.dfy ===
/**
 * Labelled tables and the group-by-sum that every aggregation of the
 * post-processing is built from.
 *
 * A table is a sequence of (label, value) entries in column order, as a
 * DataFrame built from a dict keeps its columns. `Collapse` groups entries
 * by a key (entries whose key is `None` are dropped, as pandas drops NaN
 * group keys) and adds the values of each group; `KeySum` is the reference
 * definition of what each group must hold.
 */
module Tables {
  import opened Wrappers

  /** One value per timestep of the common time axis. */
  type Series = seq<real>

  /** Value of `s` at timestep `t`; positions past the end read as 0. */
  function At(s: Series, t: int): real {
    if 0 <= t < |s| then s[t] else 0.0
  }

  function Longer(a: Series, b: Series): nat {
    if |a| < |b| then |b| else |a|
  }

  /** Pointwise sum of two series (the shorter one is padded with zeros). */
  function Add(a: Series, b: Series): (r: Series)
    ensures |r| == Longer(a, b)
    ensures forall t :: At(r, t) == At(a, t) + At(b, t)
  {
    seq(Longer(a, b), i => At(a, i) + At(b, i))
  }

  /** The all-zero series of length `n` (pandas' `fill_value=0`). */
  function Zeros(n: nat): (r: Series)
    ensures |r| == n
    ensures forall t :: At(r, t) == 0.0
  {
    seq(n, _ => 0.0)
  }

  /** Series times a scalar. */
  function Scale(s: Series, k: real): (r: Series)
    ensures |r| == |s|
    ensures forall t :: At(r, t) == At(s, t) * k
  {
    seq(|s|, i requires 0 <= i < |s| => s[i] * k)
  }

  /** Sum over all timesteps (`Series.sum()`). */
  function Total(s: Series): real {
    if |s| == 0 then 0.0 else Total(s[..|s| - 1]) + s[|s| - 1]
  }

  /** Two series of equal length that agree at every timestep are equal. */
  lemma SeriesExt(a: Series, b: Series)
    requires |a| == |b|
    requires forall t :: At(a, t) == At(b, t)
    ensures a == b
  {
    forall i | 0 <= i < |a|
      ensures a[i] == b[i]
    {
      assert At(a, i) == At(b, i);
    }
  }

  // ---------------------------------------------------------------------
  // Algebra of the value type

  ghost predicate Associative<V(!new)>(add: (V, V) -> V) {
    forall a, b, c :: add(add(a, b), c) == add(a, add(b, c))
  }

  ghost predicate Commutative<V(!new)>(add: (V, V) -> V) {
    forall a, b :: add(a, b) == add(b, a)
  }

  ghost predicate LeftIdentity<V(!new)>(add: (V, V) -> V, zero: V) {
    forall v :: add(zero, v) == v
  }

  ghost predicate CommutativeMonoid<V(!new)>(add: (V, V) -> V, zero: V) {
    Associative(add) && Commutative(add) && LeftIdentity(add, zero)
  }

  function RealAdd(a: real, b: real): real {
    a + b
  }

  lemma RealAddMonoid()
    ensures CommutativeMonoid(RealAdd, 0.0)
  {
  }

  lemma SeriesAddMonoid()
    ensures CommutativeMonoid(Add, [])
  {
    forall a: Series, b: Series, c: Series
      ensures Add(Add(a, b), c) == Add(a, Add(b, c))
    {
      SeriesExt(Add(Add(a, b), c), Add(a, Add(b, c)));
    }
    forall a: Series, b: Series
      ensures Add(a, b) == Add(b, a)
    {
      SeriesExt(Add(a, b), Add(b, a));
    }
    forall v: Series
      ensures Add([], v) == v
    {
      SeriesExt(Add([], v), v);
    }
  }

  // ---------------------------------------------------------------------
  // Labelled entries

  predicate HasLabel<G(==), V>(xs: seq<(G, V)>, g: G) {
    exists i :: 0 <= i < |xs| && xs[i].0 == g
  }

  predicate DistinctLabels<G(==), V>(xs: seq<(G, V)>) {
    forall i, j :: 0 <= i < |xs| && 0 <= j < |xs| && i != j ==> xs[i].0 != xs[j].0
  }

  function Labels<G, V>(xs: seq<(G, V)>): (r: seq<G>)
    ensures |r| == |xs|
    ensures forall i :: 0 <= i < |xs| ==> r[i] == xs[i].0
  {
    seq(|xs|, i requires 0 <= i < |xs| => xs[i].0)
  }

  lemma LabelsConcat<G, V>(a: seq<(G, V)>, b: seq<(G, V)>)
    ensures Labels(a + b) == Labels(a) + Labels(b)
  {
    assert forall i :: 0 <= i < |b| ==> (a + b)[|a| + i] == b[i];
  }

  /** Position of the first entry labelled `g`. */
  function Find<G(==), V>(xs: seq<(G, V)>, g: G): (r: Option<nat>)
    ensures r.Some? ==> r.value < |xs| && xs[r.value].0 == g
    ensures r.Some? ==> forall j :: 0 <= j < r.value ==> xs[j].0 != g
    ensures r.None? <==> !HasLabel(xs, g)
  {
    if |xs| == 0 then None
    else if xs[0].0 == g then Some(0)
    else
      match Find(xs[1..], g)
      case Some(j) => Some(j + 1)
      case None =>
        assert forall i :: 1 <= i < |xs| ==> xs[i] == xs[1..][i - 1];
        None
  }

  /** Value of the entry labelled `g` (a dict or column lookup). */
  function Lookup<G(==), V>(xs: seq<(G, V)>, g: G): (r: Option<V>)
    ensures r.Some? <==> HasLabel(xs, g)
    ensures r.Some? ==> exists i :: 0 <= i < |xs| && xs[i] == (g, r.value)
  {
    match Find(xs, g)
    case Some(j) => Some(xs[j].1)
    case None => None
  }

  lemma LookupDistinct<G, V>(xs: seq<(G, V)>, i: nat)
    requires DistinctLabels(xs)
    requires i < |xs|
    ensures Lookup(xs, xs[i].0) == Some(xs[i].1)
  {
  }

  // ---------------------------------------------------------------------
  // Group-by-sum

  /** Some entry of `xs` has key `g`. */
  predicate Matched<L, G(==), V>(xs: seq<(L, V)>, key: L -> Option<G>, g: G) {
    exists j :: 0 <= j < |xs| && key(xs[j].0) == Some(g)
  }

  /** Reference: the values of all entries whose key is `g`, added left to right from `zero`. */
  function KeySum<L, G(==), V>(xs: seq<(L, V)>, key: L -> Option<G>, g: G, add: (V, V) -> V, zero: V): V
    decreases |xs|
  {
    if |xs| == 0 then zero
    else
      var s := KeySum(xs[..|xs| - 1], key, g, add, zero);
      if key(xs[|xs| - 1].0) == Some(g) then add(s, xs[|xs| - 1].1) else s
  }

  /** Pointwise reference for series: the sum at `t` of the entries whose key is `g`. */
  function SumAt<L, G(==)>(xs: seq<(L, Series)>, key: L -> Option<G>, g: G, t: int): real
    decreases |xs|
  {
    if |xs| == 0 then 0.0
    else
      var s := SumAt(xs[..|xs| - 1], key, g, t);
      if key(xs[|xs| - 1].0) == Some(g) then s + At(xs[|xs| - 1].1, t) else s
  }

  /** Adds `v` into the entry labelled `g`, or appends a new entry. */
  function Merge<G(==,!new), V>(acc: seq<(G, V)>, g: G, v: V, add: (V, V) -> V): (r: seq<(G, V)>)
    requires DistinctLabels(acc)
    ensures DistinctLabels(r)
    ensures forall h :: HasLabel(r, h) <==> HasLabel(acc, h) || h == g
  {
    match Find(acc, g)
    case Some(j) =>
      var r := acc[j := (g, add(acc[j].1, v))];
      assert forall i :: 0 <= i < |r| ==> r[i].0 == acc[i].0;
      r
    case None =>
      var r := acc + [(g, v)];
      assert forall i :: 0 <= i < |acc| ==> r[i] == acc[i];
      assert r[|acc|] == (g, v);
      assert forall h :: HasLabel(r, h) ==> HasLabel(acc, h) || h == g by {
        forall h | HasLabel(r, h)
          ensures HasLabel(acc, h) || h == g
        {
          var i :| 0 <= i < |r| && r[i].0 == h;
          if i < |acc| {
            assert acc[i].0 == h;
          }
        }
      }
      r
  }

  /**
   * Group-by-sum: one entry per distinct key, in order of first appearance,
   * holding the sum of the values of the entries with that key.
   */
  function Collapse<L, G(==,!new), V>(xs: seq<(L, V)>, key: L -> Option<G>, add: (V, V) -> V): (r: seq<(G, V)>)
    ensures DistinctLabels(r)
    ensures forall g :: HasLabel(r, g) <==> Matched(xs, key, g)
    decreases |xs|
  {
    if |xs| == 0 then []
    else
      var pre := xs[..|xs| - 1];
      var acc := Collapse(pre, key, add);
      var last := xs[|xs| - 1];
      assert forall j :: 0 <= j < |pre| ==> pre[j] == xs[j];
      match key(last.0)
      case None => acc
      case Some(g) => Merge(acc, g, last.1, add)
  }

  /** No entry has key `g`, so the reference sum is `zero`. */
  lemma {:induction false} KeySumUnmatched<L, G, V>(xs: seq<(L, V)>, key: L -> Option<G>, g: G, add: (V, V) -> V, zero: V)
    requires !Matched(xs, key, g)
    ensures KeySum(xs, key, g, add, zero) == zero
    decreases |xs|
  {
    if |xs| > 0 {
      var pre := xs[..|xs| - 1];
      assert forall j :: 0 <= j < |pre| ==> pre[j] == xs[j];
      KeySumUnmatched(pre, key, g, add, zero);
    }
  }

  /** Every group of `Collapse` holds exactly the reference sum of its key. */
  lemma {:induction false} CollapseValues<L, G(!new), V(!new)>(xs: seq<(L, V)>, key: L -> Option<G>, add: (V, V) -> V, zero: V)
    requires LeftIdentity(add, zero)
    ensures forall i :: 0 <= i < |Collapse(xs, key, add)| ==>
              Collapse(xs, key, add)[i].1 == KeySum(xs, key, Collapse(xs, key, add)[i].0, add, zero)
    decreases |xs|
  {
    if |xs| > 0 {
      var pre := xs[..|xs| - 1];
      var acc := Collapse(pre, key, add);
      var last := xs[|xs| - 1];
      CollapseValues(pre, key, add, zero);
      var r := Collapse(xs, key, add);
      match key(last.0)
      case None =>
      case Some(g) =>
        match Find(acc, g)
        case Some(j) =>
          assert r == acc[j := (g, add(acc[j].1, last.1))];
          forall i | 0 <= i < |r|
            ensures r[i].1 == KeySum(xs, key, r[i].0, add, zero)
          {
            if i != j {
              assert r[i] == acc[i];
              assert acc[i].0 != g;
            }
          }
        case None =>
          assert r == acc + [(g, last.1)];
          assert !Matched(pre, key, g);
          KeySumUnmatched(pre, key, g, add, zero);
          forall i | 0 <= i < |r|
            ensures r[i].1 == KeySum(xs, key, r[i].0, add, zero)
          {
            if i < |acc| {
              assert r[i] == acc[i];
              assert acc[i].0 != g by {
                assert HasLabel(acc, acc[i].0);
              }
            }
          }
    }
  }

  /** Lookup form of the specification of `Collapse`. */
  lemma CollapseLookup<L, G(!new), V(!new)>(xs: seq<(L, V)>, key: L -> Option<G>, add: (V, V) -> V, zero: V, g: G)
    requires LeftIdentity(add, zero)
    ensures Lookup(Collapse(xs, key, add), g).Some? <==> Matched(xs, key, g)
    ensures Matched(xs, key, g) ==> Lookup(Collapse(xs, key, add), g) == Some(KeySum(xs, key, g, add, zero))
  {
    var r := Collapse(xs, key, add);
    CollapseValues(xs, key, add, zero);
    if Matched(xs, key, g) {
      var i :| 0 <= i < |r| && r[i].0 == g;
      LookupDistinct(r, i);
    }
  }

  // ---------------------------------------------------------------------
  // Two-stage grouping

  /** Key composition: first `k1`, then `k2` on its result. */
  function Then<A, B, C>(k1: A -> Option<B>, k2: B -> Option<C>): A -> Option<C> {
    a => match k1(a) case Some(b) => k2(b) case None => None
  }

  lemma {:induction false} KeySumUpdate<L, G, V(!new)>(xs: seq<(L, V)>, j: nat, v: V, key: L -> Option<G>, g: G, add: (V, V) -> V, zero: V)
    requires Associative(add) && Commutative(add)
    requires j < |xs|
    ensures KeySum(xs[j := (xs[j].0, add(xs[j].1, v))], key, g, add, zero)
            == if key(xs[j].0) == Some(g) then add(KeySum(xs, key, g, add, zero), v) else KeySum(xs, key, g, add, zero)
    decreases |xs|
  {
    var ys := xs[j := (xs[j].0, add(xs[j].1, v))];
    var n := |xs| - 1;
    var pre := xs[..n];
    if j == n {
      assert ys[..n] == pre;
      var s := KeySum(pre, key, g, add, zero);
      if key(xs[j].0) == Some(g) {
        assert add(s, add(xs[j].1, v)) == add(add(s, xs[j].1), v);
      }
    } else {
      assert ys[..n] == pre[j := (pre[j].0, add(pre[j].1, v))];
      KeySumUpdate(pre, j, v, key, g, add, zero);
      var s := KeySum(pre, key, g, add, zero);
      if key(xs[j].0) == Some(g) && key(xs[n].0) == Some(g) {
        calc {
          add(add(s, v), xs[n].1);
          add(s, add(v, xs[n].1));
          { assert add(v, xs[n].1) == add(xs[n].1, v); }
          add(s, add(xs[n].1, v));
          add(add(s, xs[n].1), v);
        }
      }
    }
  }

  /** Adding into one group changes the regrouped sums of that group's key only. */
  lemma MergeSum<G(!new), H, V(!new)>(acc: seq<(G, V)>, b: G, v: V, k2: G -> Option<H>, h: H, add: (V, V) -> V, zero: V)
    requires DistinctLabels(acc)
    requires Associative(add) && Commutative(add)
    ensures KeySum(Merge(acc, b, v, add), k2, h, add, zero)
            == if k2(b) == Some(h) then add(KeySum(acc, k2, h, add, zero), v) else KeySum(acc, k2, h, add, zero)
  {
    match Find(acc, b)
    case Some(j) =>
      KeySumUpdate(acc, j, v, k2, h, add, zero);
    case None =>
      var r := acc + [(b, v)];
      assert r[..|acc|] == acc;
  }

  /**
   * Grouping by `k1` and then regrouping the groups by `k2` adds up the same
   * entries as grouping once by the composed key: a two-stage sum is a full
   * reduction.
   */
  lemma {:induction false} CollapseThen<L, G(!new), H, V(!new)>(xs: seq<(L, V)>, k1: L -> Option<G>, k2: G -> Option<H>, h: H, add: (V, V) -> V, zero: V)
    requires Associative(add) && Commutative(add)
    ensures KeySum(Collapse(xs, k1, add), k2, h, add, zero) == KeySum(xs, Then(k1, k2), h, add, zero)
    decreases |xs|
  {
    if |xs| > 0 {
      var pre := xs[..|xs| - 1];
      CollapseThen(pre, k1, k2, h, add, zero);
      var last := xs[|xs| - 1];
      match k1(last.0)
      case None =>
      case Some(b) =>
        MergeSum(Collapse(pre, k1, add), b, last.1, k2, h, add, zero);
    }
  }

  /** A regrouped key occurs exactly when some entry reaches it through both keys. */
  lemma CollapseThenMatched<L, G(!new), H, V>(xs: seq<(L, V)>, k1: L -> Option<G>, k2: G -> Option<H>, h: H, add: (V, V) -> V)
    ensures Matched(Collapse(xs, k1, add), k2, h) <==> Matched(xs, Then(k1, k2), h)
  {
    var r := Collapse(xs, k1, add);
    if Matched(r, k2, h) {
      var i :| 0 <= i < |r| && k2(r[i].0) == Some(h);
      assert HasLabel(r, r[i].0);
      var j :| 0 <= j < |xs| && k1(xs[j].0) == Some(r[i].0);
      assert Then(k1, k2)(xs[j].0) == Some(h);
    }
    if Matched(xs, Then(k1, k2), h) {
      var j :| 0 <= j < |xs| && Then(k1, k2)(xs[j].0) == Some(h);
      var b := k1(xs[j].0).value;
      assert Matched(xs, k1, b);
      var i :| 0 <= i < |r| && r[i].0 == b;
      assert k2(r[i].0) == Some(h);
    }
  }

  // ---------------------------------------------------------------------
  // Series-valued groups

  /** Every series of the table has `n` timesteps. */
  predicate Uniform<L>(xs: seq<(L, Series)>, n: nat) {
    forall i :: 0 <= i < |xs| ==> |xs[i].1| == n
  }

  /** A group of series, read at one timestep, is the sum at that timestep of its members. */
  lemma {:induction false} KeySumAt<L, G>(xs: seq<(L, Series)>, key: L -> Option<G>, g: G, t: int)
    ensures At(KeySum(xs, key, g, Add, []), t) == SumAt(xs, key, g, t)
    decreases |xs|
  {
    if |xs| > 0 {
      KeySumAt(xs[..|xs| - 1], key, g, t);
    }
  }

  lemma {:induction false} KeySumLength<L, G>(xs: seq<(L, Series)>, key: L -> Option<G>, g: G, n: nat)
    requires Uniform(xs, n)
    ensures |KeySum(xs, key, g, Add, [])| == if Matched(xs, key, g) then n else 0
    decreases |xs|
  {
    if |xs| > 0 {
      var pre := xs[..|xs| - 1];
      assert forall j :: 0 <= j < |pre| ==> pre[j] == xs[j];
      KeySumLength(pre, key, g, n);
    }
  }

  /** Grouping series of a common length keeps that length. */
  lemma CollapseUniform<L, G(!new)>(xs: seq<(L, Series)>, key: L -> Option<G>, n: nat)
    requires Uniform(xs, n)
    ensures Uniform(Collapse(xs, key, Add), n)
  {
    var r := Collapse(xs, key, Add);
    SeriesAddMonoid();
    CollapseValues(xs, key, Add, []);
    forall i | 0 <= i < |r|
      ensures |r[i].1| == n
    {
      assert HasLabel(r, r[i].0);
      KeySumLength(xs, key, r[i].0, n);
    }
  }

  /**
   * Group-by-sum of series, read at a timestep: the group `g` exists iff
   * some entry has key `g`, and its value at `t` is the sum at `t` of those
   * entries.
   */
  lemma CollapseSumAt<L, G(!new)>(xs: seq<(L, Series)>, key: L -> Option<G>, g: G, t: int)
    ensures Lookup(Collapse(xs, key, Add), g).Some? <==> Matched(xs, key, g)
    ensures Matched(xs, key, g) ==> At(Lookup(Collapse(xs, key, Add), g).value, t) == SumAt(xs, key, g, t)
  {
    SeriesAddMonoid();
    CollapseLookup(xs, key, Add, [], g);
    KeySumAt(xs, key, g, t);
  }

  /** Looking a label up in a concatenation finds it in the first part when it is there. */
  lemma {:induction false} LookupAppend<G, V>(a: seq<(G, V)>, b: seq<(G, V)>, g: G)
    ensures Lookup(a + b, g) == if HasLabel(a, g) then Lookup(a, g) else Lookup(b, g)
    decreases |a|
  {
    if |a| == 0 {
      assert a + b == b;
    } else if a[0].0 == g {
      assert (a + b)[0] == a[0];
    } else {
      assert (a + b)[1..] == a[1..] + b;
      LookupAppend(a[1..], b, g);
      assert HasLabel(a, g) <==> HasLabel(a[1..], g) by {
        if HasLabel(a, g) {
          var i :| 0 <= i < |a| && a[i].0 == g;
          assert a[1..][i - 1] == a[i];
        }
        if HasLabel(a[1..], g) {
          var i :| 0 <= i < |a[1..]| && a[1..][i].0 == g;
          assert a[i + 1] == a[1..][i];
        }
      }
      LookupTail(a + b, g);
      LookupTail(a, g);
    }
  }

  /** Lookup skips a first entry with another label. */
  lemma HasLabelAppend<G, V>(a: seq<(G, V)>, b: seq<(G, V)>)
    ensures forall g :: HasLabel(a + b, g) <==> HasLabel(a, g) || HasLabel(b, g)
  {
    forall g | HasLabel(a + b, g)
      ensures HasLabel(a, g) || HasLabel(b, g)
    {
      var i :| 0 <= i < |a + b| && (a + b)[i].0 == g;
      if i >= |a| {
        assert b[i - |a|].0 == g;
      }
    }
    forall g | HasLabel(b, g)
      ensures HasLabel(a + b, g)
    {
      var i :| 0 <= i < |b| && b[i].0 == g;
      assert (a + b)[|a| + i].0 == g;
    }
    forall g | HasLabel(a, g)
      ensures HasLabel(a + b, g)
    {
      var i :| 0 <= i < |a| && a[i].0 == g;
      assert (a + b)[i].0 == g;
    }
  }

  lemma LookupTail<G, V>(xs: seq<(G, V)>, g: G)
    requires |xs| > 0 && xs[0].0 != g
    ensures Lookup(xs, g) == Lookup(xs[1..], g)
  {
  }

  /** The elements of `xs` without repetitions, in order of first appearance. */
  function Distinct<T(==,!new)>(xs: seq<T>): (r: seq<T>)
    ensures forall x :: x in r <==> x in xs
    ensures forall i, j :: 0 <= i < j < |r| ==> r[i] != r[j]
  {
    if |xs| == 0 then []
    else
      var rest := Distinct(xs[..|xs| - 1]);
      assert forall x :: x in xs <==> x in xs[..|xs| - 1] || x == xs[|xs| - 1] by {
        assert xs == xs[..|xs| - 1] + [xs[|xs| - 1]];
      }
      if xs[|xs| - 1] in rest then rest else rest + [xs[|xs| - 1]]
  }

  // ---------------------------------------------------------------------
  // Totals of real-valued tables

  /** The sum of all values of a table. */
  function ValueTotal<G>(xs: seq<(G, real)>): real
    decreases |xs|
  {
    if |xs| == 0 then 0.0 else ValueTotal(xs[..|xs| - 1]) + xs[|xs| - 1].1
  }

  /** The sum of the values of the entries that have a key. */
  function KeyedTotal<L, G>(xs: seq<(L, real)>, key: L -> Option<G>): real
    decreases |xs|
  {
    if |xs| == 0 then 0.0
    else KeyedTotal(xs[..|xs| - 1], key) + (if key(xs[|xs| - 1].0).Some? then xs[|xs| - 1].1 else 0.0)
  }

  /** Replacing one value changes the total by the difference. */
  lemma {:induction false} ValueTotalUpdate<G>(xs: seq<(G, real)>, j: nat, w: real)
    requires j < |xs|
    ensures ValueTotal(xs[j := (xs[j].0, w)]) == ValueTotal(xs) - xs[j].1 + w
    decreases |xs|
  {
    var n := |xs| - 1;
    var ys := xs[j := (xs[j].0, w)];
    if j < n {
      assert ys[..n] == xs[..n][j := (xs[j].0, w)];
      ValueTotalUpdate(xs[..n], j, w);
    } else {
      assert ys[..n] == xs[..n];
    }
  }

  /** Grouping neither loses nor creates value: the groups hold exactly the keyed total. */
  lemma {:induction false} CollapseTotal<L, G(!new)>(xs: seq<(L, real)>, key: L -> Option<G>)
    ensures ValueTotal(Collapse(xs, key, RealAdd)) == KeyedTotal(xs, key)
    decreases |xs|
  {
    if |xs| > 0 {
      var pre := xs[..|xs| - 1];
      CollapseTotal(pre, key);
      var acc := Collapse(pre, key, RealAdd);
      var last := xs[|xs| - 1];
      match key(last.0)
      case None =>
      case Some(g) =>
        match Find(acc, g)
        case Some(j) =>
          ValueTotalUpdate(acc, j, RealAdd(acc[j].1, last.1));
        case None =>
          var r := acc + [(g, last.1)];
          assert r[..|r| - 1] == acc;
    }
  }
}

=== FILE: timeseries.dfy ===
/**
 * Feed-in and demand time series for the whole region
 * (`prepare_feedin_timeseries`, `prepare_demand_timeseries`): relative
 * feed-in weighted by each municipality's installed capacity, and demand
 * split by sector.
 */
module Timeseries {
  import opened Wrappers
  import opened Tables
  import opened Floats

  /** A municipality key (`ags`). */
  type Ags = int

  /** The installed capacities of one municipality that feed-in uses. */
  datatype Capacities = Capacities(
    wind: real,
    pvGround: real,
    pvRoofSmall: real,
    pvRoofLarge: real,
    hydro: real,
    bio: real,
    sewageLandfillGas: real,
    conventionalLarge: real,
    conventionalSmall: real)

  /** One series per municipality column. */
  type MunFrame = seq<(Ags, Series)>

  /** A feed-in table per municipality; None is an all-NaN column. */
  type FeedinFrame = seq<(Ags, Option<Series>)>

  // ---------------------------------------------------------------------
  // prepare_feedin_timeseries

  /** The technologies with relative feed-in series, in the column order of the capacity table. */
  const RelativeTechs: seq<string> := ["wind_sq", "pv_ground", "hydro", "pv_roof", "bio"]

  /** The keys of the result: the wind series moves from `wind_sq` to the end as `wind`. */
  const FeedinKeys: seq<string> := ["pv_ground", "hydro", "pv_roof", "bio", "conventional", "wind"]

  /**
   * The capacity column of a technology after renaming and combining: roof
   * PV is small plus large, bio includes sewage and landfill gas, and
   * conventional is large plus small.
   */
  function Capacity(c: Capacities, tech: string): real {
    match tech
    case "wind_sq" => c.wind
    case "pv_ground" => c.pvGround
    case "hydro" => c.hydro
    case "pv_roof" => c.pvRoofSmall + c.pvRoofLarge
    case "bio" => c.bio + c.sewageLandfillGas
    case "conventional" => c.conventionalLarge + c.conventionalSmall
    case _ => 0.0
  }

  /**
   * A relative series times the municipality's capacity; a municipality
   * without capacity row gets a NaN column from the alignment.
   */
  function Weighted(frame: MunFrame, caps: seq<(Ags, Capacities)>, tech: string): (r: FeedinFrame)
    ensures Labels(r) == Labels(frame)
    ensures forall j :: 0 <= j < |frame| ==> (r[j].1.Some? <==> HasLabel(caps, frame[j].0))
    ensures forall j, t :: 0 <= j < |frame| && r[j].1.Some? ==>
              At(r[j].1.value, t) == At(frame[j].1, t) * Capacity(Lookup(caps, frame[j].0).value, tech)
  {
    seq(|frame|, j requires 0 <= j < |frame| =>
      (frame[j].0,
       match Lookup(caps, frame[j].0)
       case Some(c) => Some(Scale(frame[j].1, Capacity(c, tech)))
       case None => None))
  }

  /**
   * The conventional scaling ratio: the current conventional capacity over
   * the status quo one. Both are the same sum, so the ratio is 1, or NaN
   * when the municipality has no conventional capacity.
   */
  function ConventionalRatio(c: Capacities): (r: Float)
    ensures Capacity(c, "conventional") != 0.0 ==> r == Fin(1.0)
    ensures Capacity(c, "conventional") == 0.0 ==> r == NaN
  {
    var x := Capacity(c, "conventional");
    assert x != 0.0 ==> x / x == 1.0;
    Div(Fin(x), Fin(c.conventionalLarge + c.conventionalSmall))
  }

  /** The conventional series times the ratio; a NaN ratio gives a NaN column. */
  function Conventional(frame: MunFrame, caps: seq<(Ags, Capacities)>): (r: FeedinFrame)
    ensures Labels(r) == Labels(frame)
    ensures forall j :: 0 <= j < |frame| ==>
              (r[j].1.Some? <==> HasLabel(caps, frame[j].0) && ConventionalRatio(Lookup(caps, frame[j].0).value).Fin?)
  {
    seq(|frame|, j requires 0 <= j < |frame| =>
      (frame[j].0,
       match Lookup(caps, frame[j].0)
       case Some(c) => (var k := ConventionalRatio(c); if k.Fin? then Some(Scale(frame[j].1, k.v)) else None)
       case None => None))
  }

  /** The conventional feed-in is the initial series unchanged wherever the municipality has conventional capacity. */
  lemma ConventionalUnchanged(frame: MunFrame, caps: seq<(Ags, Capacities)>, j: nat)
    requires j < |frame| && HasLabel(caps, frame[j].0)
    requires Capacity(Lookup(caps, frame[j].0).value, "conventional") != 0.0
    ensures Conventional(frame, caps)[j].1 == Some(frame[j].1)
  {
    var s := frame[j].1;
    SeriesExt(Scale(s, 1.0), s);
  }

  /** The series of a technology; KeyError when the initial feed-in lacks it. */
  function Series(init: seq<(string, MunFrame)>, tech: string): (r: Result<MunFrame>)
    ensures r.Success? <==> HasLabel(init, tech)
    ensures r.Failure? ==> r.error == KeyError(tech)
    ensures r.Success? ==> r.value == Lookup(init, tech).value
  {
    Lookup(init, tech).ToResult(KeyError(tech))
  }

  /** The initial feed-in has a series for every technology. */
  predicate Complete(init: seq<(string, MunFrame)>) {
    && HasLabel(init, "wind_sq") && HasLabel(init, "pv_ground") && HasLabel(init, "hydro")
    && HasLabel(init, "pv_roof") && HasLabel(init, "bio") && HasLabel(init, "conventional")
  }

  /** The result key of a relative technology. */
  function Output(tech: string): string {
    if tech == "wind_sq" then "wind" else tech
  }

  /** The result entries in key order. */
  function Assemble<T>(pvGround: T, hydro: T, pvRoof: T, bio: T, conventional: T, wind: T): (r: seq<(string, T)>)
    ensures Labels(r) == FeedinKeys
    ensures Lookup(r, "pv_ground") == Some(pvGround) && Lookup(r, "hydro") == Some(hydro)
    ensures Lookup(r, "pv_roof") == Some(pvRoof) && Lookup(r, "bio") == Some(bio)
    ensures Lookup(r, "conventional") == Some(conventional) && Lookup(r, "wind") == Some(wind)
  {
    var r := [("pv_ground", pvGround), ("hydro", hydro), ("pv_roof", pvRoof), ("bio", bio), ("conventional", conventional), ("wind", wind)];
    assert Labels(r) == FeedinKeys;
    assert DistinctLabels(r);
    LookupDistinct(r, 0);
    LookupDistinct(r, 1);
    LookupDistinct(r, 2);
    LookupDistinct(r, 3);
    LookupDistinct(r, 4);
    LookupDistinct(r, 5);
    r
  }

  /** The capacity-weighted feed-in of a relative technology; requires its initial series. */
  function Relative(init: seq<(string, MunFrame)>, caps: seq<(Ags, Capacities)>, tech: string): FeedinFrame
    requires HasLabel(init, tech)
  {
    Weighted(Lookup(init, tech).value, caps, tech)
  }

  /**
   * `prepare_feedin_timeseries`: per technology, the capacity-weighted
   * feed-in per municipality; KeyError for the first technology without
   * initial series.
   */
  function FeedinTimeseries(init: seq<(string, MunFrame)>, caps: seq<(Ags, Capacities)>): (r: Result<seq<(string, FeedinFrame)>>)
    ensures r.Success? <==> Complete(init)
    ensures r.Failure? ==> r.error.KeyError? && !HasLabel(init, r.error.key)
    ensures r.Success? ==> Labels(r.value) == FeedinKeys
    ensures r.Success? ==> Lookup(r.value, "wind") == Some(Relative(init, caps, "wind_sq"))
    ensures r.Success? ==> Lookup(r.value, "pv_ground") == Some(Relative(init, caps, "pv_ground"))
    ensures r.Success? ==> Lookup(r.value, "hydro") == Some(Relative(init, caps, "hydro"))
    ensures r.Success? ==> Lookup(r.value, "pv_roof") == Some(Relative(init, caps, "pv_roof"))
    ensures r.Success? ==> Lookup(r.value, "bio") == Some(Relative(init, caps, "bio"))
    ensures r.Success? ==> Lookup(r.value, "conventional") == Some(Conventional(Lookup(init, "conventional").value, caps))
  {
    var wind :- Series(init, "wind_sq");
    var pvGround :- Series(init, "pv_ground");
    var hydro :- Series(init, "hydro");
    var pvRoof :- Series(init, "pv_roof");
    var bio :- Series(init, "bio");
    var conv :- Series(init, "conventional");
    Success(Assemble(
      Weighted(pvGround, caps, "pv_ground"),
      Weighted(hydro, caps, "hydro"),
      Weighted(pvRoof, caps, "pv_roof"),
      Weighted(bio, caps, "bio"),
      Conventional(conv, caps),
      Weighted(wind, caps, "wind_sq")))
  }

  /** The result entry of each relative technology is its weighted series. */
  lemma FeedinLookup(init: seq<(string, MunFrame)>, caps: seq<(Ags, Capacities)>, tech: string)
    requires Complete(init) && tech in RelativeTechs
    ensures Lookup(FeedinTimeseries(init, caps).value, Output(tech)) == Some(Relative(init, caps, tech))
  {
    var r := FeedinTimeseries(init, caps).value;
    LookupOutput(r, init, caps, tech);
  }

  lemma LookupOutput(r: seq<(string, FeedinFrame)>, init: seq<(string, MunFrame)>, caps: seq<(Ags, Capacities)>, tech: string)
    requires Complete(init) && tech in RelativeTechs
    requires Lookup(r, "wind") == Some(Relative(init, caps, "wind_sq"))
    requires Lookup(r, "pv_ground") == Some(Relative(init, caps, "pv_ground"))
    requires Lookup(r, "hydro") == Some(Relative(init, caps, "hydro"))
    requires Lookup(r, "pv_roof") == Some(Relative(init, caps, "pv_roof"))
    requires Lookup(r, "bio") == Some(Relative(init, caps, "bio"))
    ensures Lookup(r, Output(tech)) == Some(Relative(init, caps, tech))
  {
  }

  /** Roof PV feed-in is what the small and the large roof plants feed in together. */
  lemma RoofFeedin(frame: MunFrame, caps: seq<(Ags, Capacities)>, j: nat, t: int)
    requires j < |frame| && HasLabel(caps, frame[j].0)
    ensures var out := Weighted(frame, caps, "pv_roof")[j].1;
            var c := Lookup(caps, frame[j].0).value;
            var x := At(frame[j].1, t);
            out.Some? && At(out.value, t) == x * c.pvRoofSmall + x * c.pvRoofLarge
  {
    var x := At(frame[j].1, t);
    var c := Lookup(caps, frame[j].0).value;
    assert x * (c.pvRoofSmall + c.pvRoofLarge) == x * c.pvRoofSmall + x * c.pvRoofLarge;
  }

  // ---------------------------------------------------------------------
  // prepare_demand_timeseries

  /** The demand columns of one sector, keyed by municipality, in column order. */
  function SubFrame(init: seq<((string, Ags), Series)>, sector: string): (r: MunFrame)
    ensures forall x :: x in r <==> ((sector, x.0), x.1) in init
    decreases |init|
  {
    if |init| == 0 then []
    else
      var rest := SubFrame(init[1..], sector);
      assert forall y :: y in init <==> y == init[0] || y in init[1..] by {
        assert init == [init[0]] + init[1..];
      }
      if init[0].0.0 == sector then [(init[0].0.1, init[0].1)] + rest else rest
  }

  function Sectors(init: seq<((string, Ags), Series)>): (r: seq<string>)
    ensures forall s :: s in r <==> exists i :: 0 <= i < |init| && init[i].0.0 == s
    ensures forall i, j :: 0 <= i < j < |r| ==> r[i] != r[j]
  {
    var level0 := seq(|init|, i requires 0 <= i < |init| => init[i].0.0);
    forall s
      ensures s in level0 <==> exists i :: 0 <= i < |init| && init[i].0.0 == s
    {
      if s in level0 {
        var i :| 0 <= i < |level0| && level0[i] == s;
        assert init[i].0.0 == s;
      }
      if exists i :: 0 <= i < |init| && init[i].0.0 == s {
        var i :| 0 <= i < |init| && init[i].0.0 == s;
        assert level0[i] == s;
      }
    }
    Distinct(level0)
  }

  /**
   * `prepare_demand_timeseries`: one entry per distinct sector of the
   * column index, holding exactly that sector's columns.
   */
  function DemandTimeseries(init: seq<((string, Ags), Series)>): (r: seq<(string, MunFrame)>)
    ensures DistinctLabels(r)
    ensures forall s :: HasLabel(r, s) <==> exists i :: 0 <= i < |init| && init[i].0.0 == s
    ensures forall i, x :: 0 <= i < |r| ==> (x in r[i].1 <==> ((r[i].0, x.0), x.1) in init)
  {
    var sectors := Sectors(init);
    var r := seq(|sectors|, i requires 0 <= i < |sectors| => (sectors[i], SubFrame(init, sectors[i])));
    forall s | HasLabel(r, s)
      ensures exists i :: 0 <= i < |init| && init[i].0.0 == s
    {
      var i :| 0 <= i < |r| && r[i].0 == s;
      assert sectors[i] in sectors;
    }
    forall s | exists i :: 0 <= i < |init| && init[i].0.0 == s
      ensures HasLabel(r, s)
    {
      assert s in sectors;
      var k :| 0 <= k < |sectors| && sectors[k] == s;
      assert r[k].0 == s;
    }
    r
  }

  /** No demand column is lost: each appears under its own sector. */
  lemma DemandColumnKept(init: seq<((string, Ags), Series)>, i: nat)
    requires i < |init|
    ensures HasLabel(DemandTimeseries(init), init[i].0.0)
    ensures (init[i].0.1, init[i].1) in Lookup(DemandTimeseries(init), init[i].0.0).value
  {
    var r := DemandTimeseries(init);
    var s := init[i].0.0;
    var k := Find(r, s).value;
    LookupDistinct(r, k);
    assert ((r[k].0, init[i].0.1), init[i].1) == init[i];
  }
}

=== FILE: wrappers.dfy ===
/** Failure-compatible return types shared by every module of the model. */
module Wrappers {

  /** A value that may be missing: pandas' NaN group keys, `None` returns. */
  datatype Option<+T> = None | Some(value: T) {
    predicate IsFailure() {
      None?
    }

    function PropagateFailure<U>(): Option<U>
      requires None?
    {
      None
    }

    function Extract(): T
      requires Some?
    {
      value
    }

    function GetOr(default: T): T {
      match this
      case Some(v) => v
      case None => default
    }

    /** A dictionary lookup that raises `error` when the key is missing. */
    function ToResult(error: Exception): Result<T> {
      match this
      case Some(v) => Success(v)
      case None => Failure(error)
    }
  }

  /** The exceptions the modelled Python code raises. */
  datatype Exception =
    | KeyError(key: string)
    | IdKeyError(id: int)     // a KeyError for a missing integer label
    | ValueError(message: string)
    | IndexError(message: string)

  /** Either a result or the exception the source would raise. */
  datatype Result<+R> = Success(value: R) | Failure(error: Exception) {
    predicate IsFailure() {
      Failure?
    }

    function PropagateFailure<U>(): Result<U>
      requires Failure?
    {
      Failure(error)
    }

    function Extract(): R
      requires Success?
    {
      value
    }
  }
}
